=== FILE: README.md ===
# interface21 core in Dafny

This project models the core of the interface21 framework, the early code base of the Spring
Framework. Each Java class of the core becomes one Dafny module:

- **Bean factory.** `BeanFactorySpec`, `BeanFactories` and `BeanFactoryProperties` model
  `AbstractBeanFactory`. This covers bean names with the `&` factory-dereference prefix and
  one-step aliases, delegation to a parent factory, merged child definitions, and the singleton
  cache. It also covers the in-flight map that breaks circular references, and the resolution
  of bean references, managed lists and managed maps.
- **Bean definitions and property values.** `BeanDefinitions` models `AbstractBeanDefinition`
  and `RootBeanDefinition`. `Beans` models the property values they hold and the
  override-by-name merge.
- **AOP chain assembly.** `ProxyFactoryBeans` models `ProxyFactoryBean`:
  - the interceptor chain is built from bean names, with the `*` marker expanded in place into
    the global (`g_`) pointcuts and interceptors;
  - each entry is classified as a pointcut, an interceptor or an invoker around a target;
  - prototype pointcuts are refreshed before each new proxy;
  - singleton and prototype proxies are handed out.

  `AopUtils` models the collection of interfaces along a superclass chain.
- **Transactions.** `TransactionSupport` models the propagation decisions of
  `AbstractPlatformTransactionManager` and its dispatch of commit and rollback to the hooks of
  a concrete manager. Every hook call is recorded in a trace, and each hook is given the calls
  made before it, so a manager's answers may depend on what it was asked earlier.
- **Validation.** `Validation` models `BindException`: an append-only error list, its global
  and field-error queries, and nested-path prefixing.
- **Views.** `Views` models the static attributes of `AbstractView` (CSV parsing, properties
  and the render-time merge), its one-shot application context and its content type.
- **Key incrementers.** `MaxValueIncrementers` models the dispatch of
  `AbstractDataFieldMaxValueIncrementer`. `MySQLIncrementers` models the buffered block
  allocator of the MySQL incrementer. `OracleIncrementers` models the sequence query and the
  zero padding of the Oracle incrementer.
- **JNDI.** `Jndi` models the `java:comp/env/` prefixing and the lookup of `AbstractJndiLocator`.

Everything outside the JVM is an oracle passed as a parameter:
- reflection (instantiation, `instanceof`, `isAssignableFrom`, type conversion, FactoryBean
  products);
- the parent bean factory;
- the owning factory of a `ProxyFactoryBean`;
- the transaction hooks;
- the database answers of the incrementers;
- the JNDI lookup.

A bean definition appears twice, for two readers. `BeanDefinitions.BeanDefinition` is the
definition object with its own methods (`equals`, the copy constructor, the setters).
`BeanFactorySpec.Def` is what the factory reads from a definition: the bean class or parent name,
the property values and the singleton flag. Child definitions exist only as `Def.ChildDef`,
because `ChildBeanDefinition` is not part of this model.

Objects are identified by a counter that the model advances on each creation. A Java `null` is
an `Option` or a `Null` value. Exceptions are `Err` results.

Several classes whose fields change in place are Dafny classes whose methods are proved equal
to specification functions over the old state. These are `ProxyFactoryBean`,
`PlatformTransactionManager`, `BindException`, `View`, the incrementers and `JndiLocator`. The
properties are then proved about those functions.

## Model

| member | source | states |
|---|---|---|
| `Strings.IndexOf` | src/com/interface21/web/servlet/view/AbstractView.java:84-86 | -1 exactly when the character does not occur; otherwise the position of its first occurrence |
| `Strings.Tokens` | src/com/interface21/web/servlet/view/AbstractView.java:81-83 | the tokens of a StringTokenizer are non-empty and contain no delimiter |
| `Strings.TokensOfJoined` | src/com/interface21/web/servlet/view/AbstractView.java:81-83 | a delimiter-free token followed by a delimiter is the first token; the rest is tokenised as if it stood alone |
| `Strings.RunLength` | src/com/interface21/web/servlet/view/AbstractView.java:81-83 | a token runs up to, and not including, the next delimiter or the end of the text |
| `Strings.RunLengthOf` | src/com/interface21/web/servlet/view/AbstractView.java:81-83 | a delimiter-free text followed by a delimiter is a token of exactly its own length |
| `Strings.NatToStringValue` | src/com/interface21/jdbc/core/support/OracleSequenceMaxValueIncrementer.java:108 | the decimal digits of a number read back as that number |
| `Strings.IntToString` | src/com/interface21/jdbc/core/support/OracleSequenceMaxValueIncrementer.java:108 | the decimal text starts with '-' exactly for negative numbers, and is otherwise all digits |
| `Strings.ParseLong` | src/com/interface21/jdbc/core/support/MySQLMaxValueIncrementer.java:207-212 | a parsed key is always within the range of a Java long |
| `Strings.ParseLongOfToString` | src/com/interface21/jdbc/core/support/MySQLMaxValueIncrementer.java:207-212 | Long.parseLong of the decimal text of any long gives that long back |
| `Beans.Lookup` | src/com/interface21/beans/factory/support/AbstractBeanFactory.java:537-543 | a property is found exactly when some property value carries its name |
| `Beans.AddOrOverride` | src/com/interface21/beans/factory/support/AbstractBeanFactory.java:537-543 | adding a property adds its name; the list grows only for a new name; earlier positions keep their names |
| `Beans.AddOrOverrideLookup` | src/com/interface21/beans/factory/support/AbstractBeanFactory.java:537-543 | after adding, the added name has the new value and every other name its old value |
| `Beans.AddOrOverrideKeeps` | src/com/interface21/beans/factory/support/AbstractBeanFactory.java:537-543 | a property of another name stays where it was, unchanged |
| `Beans.Merge` | src/com/interface21/beans/factory/support/AbstractBeanFactory.java:537-543 | the merged names are the parent's plus the child's; the parent's order is kept |
| `Beans.MergeLookup` | src/com/interface21/beans/factory/support/AbstractBeanFactory.java:537-543 | in the merge, the child's value of a name wins over the parent's |
| `Beans.MergeKeepsBase` | src/com/interface21/beans/factory/support/AbstractBeanFactory.java:537-543 | a parent property the child does not set survives the merge unchanged |
| `Beans.ApplyTo` | src/com/interface21/beans/factory/support/AbstractBeanFactory.java:312-333 | setting the properties gives the object exactly its old properties plus the set names |
| `Beans.ApplyToValue` | src/com/interface21/beans/factory/support/AbstractBeanFactory.java:312-333 | a set property holds the last value given for it; other properties are untouched |
| `Beans.ChangesSince` | src/com/interface21/beans/factory/support/AbstractBeanDefinition.java:90-91 | every reported change has a value the earlier list does not give that name |
| `Beans.Changed` | src/com/interface21/beans/factory/support/AbstractBeanDefinition.java:90-91 | the changes are among the new properties and differ from the earlier values |
| `Beans.ChangedEmpty` | src/com/interface21/beans/factory/support/AbstractBeanDefinition.java:90-91 | there are no changes exactly when every new property has the same value before |
| `BeanDefinitions.EqualsAsWritten` | src/com/interface21/beans/factory/support/AbstractBeanDefinition.java:86-92 | equals as written: false for a non-definition; true only if the other definition is a singleton with no changed properties; the receiver's singleton flag becomes the result |
| `BeanDefinitions.DefinitionsEqual` | src/com/interface21/beans/factory/support/AbstractBeanDefinition.java:86-92 | corrected equality: true exactly when the flags agree and no property changed |
| `BeanDefinitions.PrototypeUnequalToItself` | src/com/interface21/beans/factory/support/AbstractBeanDefinition.java:90 | as written, a prototype definition is unequal to itself |
| `BeanDefinitions.EqualsAsWrittenDemotes` | src/com/interface21/beans/factory/support/AbstractBeanDefinition.java:90-91 | as written, a singleton definition compared with a prototype, or with a definition some of whose properties it does not share, becomes a prototype and the result is false |
| `BeanDefinitions.DifferentAgeDemotes` | src/com/interface21/beans/factory/support/AbstractBeanDefinition.java:90-91 | two singleton definitions whose "age" differs: as written, the receiver becomes a prototype |
| `BeanDefinitions.DefinitionsEqualReflexive` | src/com/interface21/beans/factory/support/AbstractBeanDefinition.java:86-92 | the corrected equality is reflexive |
| `BeanDefinitions.RootDefinitionsEqual` | src/com/interface21/beans/factory/support/RootBeanDefinition.java:54-58 | root equality is false for a non-root argument; when true, the superclass equality holds and the bean classes agree |
| `BeanDefinitions.BeanDefinition.constructor` | src/com/interface21/beans/factory/support/AbstractBeanDefinition.java:46-49 | the two-argument constructor stores the flag and the property values unchanged |
| `BeanDefinitions.BeanDefinition.Default` | src/com/interface21/beans/factory/support/AbstractBeanDefinition.java:51-53 | the default constructor gives a singleton with a null property list |
| `BeanDefinitions.BeanDefinition.Root` | src/com/interface21/beans/factory/support/RootBeanDefinition.java:24-27 | the class given at construction is the one getBeanClass returns |
| `BeanDefinitions.BeanDefinition.CopyOf` | src/com/interface21/beans/factory/support/RootBeanDefinition.java:33-36 | the copy has the original's class and singleton flag, and its own property container |
| `BeanDefinitions.BeanDefinition.SetPropertyValues` | src/com/interface21/beans/factory/support/AbstractBeanDefinition.java:68-80 | getPropertyValues returns what was set, and the flag is unchanged |
| `BeanDefinitions.BeanDefinition.Equals` | src/com/interface21/beans/factory/support/AbstractBeanDefinition.java:86-92 | the method returns the as-written result, leaves the properties alone, and overwrites the singleton flag with the result |
| `BeanDefinitions.BeanDefinition.RootEquals` | src/com/interface21/beans/factory/support/RootBeanDefinition.java:54-58 | false for a non-root argument with nothing changed; otherwise the superclass result and the same bean class |
| `BeanFactorySpec.GetBeanInternal` | src/com/interface21/beans/factory/support/AbstractBeanFactory.java:215-231 | retrieval never lowers the object counter and only ever caches singleton definitions |
| `BeanFactorySpec.GetBean` | src/com/interface21/beans/factory/support/AbstractBeanFactory.java:203-205 | a null name fails with no effect; retrieval never lowers the object counter and only caches singletons |
| `BeanFactorySpec.TransformedBeanName` | src/com/interface21/beans/factory/support/AbstractBeanFactory.java:118-125 | an unaliased name without "&" is unchanged; otherwise the result is an alias target or the name without its "&" |
| `BeanFactorySpec.MergedBeanDefinition` | src/com/interface21/beans/factory/support/AbstractBeanFactory.java:504-531 | a local root definition as it is; a missing one fails without a parent, and comes from the parent's merge otherwise (a store error when the parent cannot merge) |
| `BeanFactorySpec.MergedFrom` | src/com/interface21/beans/factory/support/AbstractBeanFactory.java:504-531 | a child takes its merged parent's class and flag and fails as that merge fails; a child already being merged recurses forever |
| `BeanFactorySpec.LocalBean` | src/com/interface21/beans/factory/support/AbstractBeanFactory.java:221-224 | the local lookup never lowers the object counter and only caches singletons |
| `BeanFactorySpec.GetSharedInstance` | src/com/interface21/beans/factory/support/AbstractBeanFactory.java:146-196 | a successful shared lookup leaves the bean cached under its canonical name |
| `BeanFactorySpec.Dereference` | src/com/interface21/beans/factory/support/AbstractBeanFactory.java:166-188 | "&name" fails exactly when the bean is not a FactoryBean; a FactoryBean asked for by plain name gives the product of this call to getObject, with the pass-through properties set on it; anything else is returned with no effect; the cache is untouched |
| `BeanFactorySpec.CreateBean` | src/com/interface21/beans/factory/support/AbstractBeanFactory.java:283-299 | a created bean is the next object, of the merged definition's class; a definition that cannot be merged fails with the merge's error and changes nothing |
| `BeanFactorySpec.Lifecycle` | src/com/interface21/beans/factory/support/AbstractBeanFactory.java:469-498 | afterPropertiesSet then setBeanFactory, recorded in order; the bean itself on success; a failing afterPropertiesSet is wrapped and stops before setBeanFactory; a BeansException from setBeanFactory is passed on unchanged, any other is wrapped |
| `BeanFactorySpec.ResolveProperties` | src/com/interface21/beans/factory/support/AbstractBeanFactory.java:312-333 | resolution keeps every property name, in order, and never reports a missing bean; plain values are kept and a reference becomes an object |
| `BeanFactorySpec.ResolveValue` | src/com/interface21/beans/factory/support/AbstractBeanFactory.java:347-390 | values other than references, managed lists and managed maps come back unchanged, with no effect; a reference becomes exactly the object resolveReference gives, or fails as it does |
| `BeanFactorySpec.ConvertElements` | src/com/interface21/beans/factory/support/AbstractBeanFactory.java:444-459 | an array holds each element converted to the component type; it fails exactly when some element cannot be stored |
| `BeanFactorySpec.ResolveReference` | src/com/interface21/beans/factory/support/AbstractBeanFactory.java:396-407 | every failure except running out of stack is wrapped as CannotResolveReference, the model's FatalBeanException; with stack left, a reference to a bean in flight is answered from the in-flight map |
| `BeanFactorySpec.ResolveManagedList` | src/com/interface21/beans/factory/support/AbstractBeanFactory.java:435-442 | exactly the reference elements are replaced, by objects; every other element is kept; the length is kept |
| `BeanFactorySpec.ResolveManagedMap` | src/com/interface21/beans/factory/support/AbstractBeanFactory.java:415-430 | every key is kept in place; other values are kept; a reference becomes an object and a managed list a list of the same length |
| `BeanFactorySpec.GetBeanOfType` | src/com/interface21/beans/factory/support/AbstractBeanFactory.java:241-248 | the bean is returned exactly when its class is assignable to the required type; otherwise BeanNotOfRequiredType carries the name, the type and the actual class |
| `BeanFactorySpec.IsSingleton` | src/com/interface21/beans/factory/support/AbstractBeanFactory.java:253-264 | the local definition's flag, else the parent's answer for the transformed name, else not found |
| `BeanFactories.BeanFactory.constructor` | src/com/interface21/beans/factory/support/AbstractBeanFactory.java:60-110 | a new factory has an empty cache and no aliases |
| `BeanFactories.BeanFactory.GetBean` | src/com/interface21/beans/factory/support/AbstractBeanFactory.java:215-231 | the result and new state are those of the retrieval function; the aliases are unchanged and only singletons are cached |
| `BeanFactories.BeanFactory.GetBeanOfType` | src/com/interface21/beans/factory/support/AbstractBeanFactory.java:241-248 | the spec function over the old state: the bean exactly when its class fits the required type, BeanNotOfRequiredType with the name, the type and the actual class when it does not, and getBean's own exception otherwise |
| `BeanFactories.BeanFactory.RegisterAlias` | src/com/interface21/beans/factory/support/AbstractBeanFactory.java:552-555 | the alias now stands for the name; nothing else changes |
| `BeanFactories.BeanFactory.GetAliases` | src/com/interface21/beans/factory/support/AbstractBeanFactory.java:557-567 | exactly the aliases of the canonical name, each once |
| `BeanFactories.BeanFactory.IsSingleton` | src/com/interface21/beans/factory/support/AbstractBeanFactory.java:253-264 | the local definition's flag for the canonical name; not found when there is neither a definition nor a parent |
| `BeanFactoryProperties.TransformedBeanNameSpec` | src/com/interface21/beans/factory/support/AbstractBeanFactory.java:118-125 | one leading "&" is stripped, then the name is mapped through the aliases once; an unaliased name is unchanged |
| `BeanFactoryProperties.MissingBeanGoesToParent` | src/com/interface21/beans/factory/support/AbstractBeanFactory.java:215-231 | a name with no local definition is asked of the parent, as a new outside call; without a parent it is not found |
| `BeanFactoryProperties.MissingReferenceIsWrapped` | src/com/interface21/beans/factory/support/AbstractBeanFactory.java:396-407 | a reference to an undefined bean fails with a FatalBeanException wrapping the not-found error |
| `BeanFactoryProperties.SingletonReturnsSameObject` | src/com/interface21/beans/factory/support/AbstractBeanFactory.java:146-178 | asking again for a singleton finds it in the cache and creates nothing; the object itself, or under "&" the FactoryBean itself, comes back again with no effect |
| `BeanFactoryProperties.FactoryBeanAskedOnEveryRequest` | src/com/interface21/beans/factory/support/AbstractBeanFactory.java:174-178 | a cached FactoryBean singleton asked for twice by plain name calls getObject each time, so the products are those of two separate calls |
| `BeanFactoryProperties.PrototypeIsFresh` | src/com/interface21/beans/factory/support/AbstractBeanFactory.java:215-231 | a created prototype is the next object on every request; the only other success is the parent's answer after creation failed with a missing bean |
| `BeanFactoryProperties.PrototypesAreDistinct` | src/com/interface21/beans/factory/support/AbstractBeanFactory.java:223 | two requests for a prototype that both create it locally give two different objects |
| `BeanFactoryProperties.PrototypeThroughAliasIsNotFound` | src/com/interface21/beans/factory/support/AbstractBeanFactory.java:222-229 | a prototype asked for by an alias is created under the alias, which has no definition, so the request fails |
| `BeanFactoryProperties.CreateWithOneReference` | src/com/interface21/beans/factory/support/AbstractBeanFactory.java:283-299 | the new object is in flight while its reference is resolved, and then holds what the reference resolved to |
| `BeanFactoryProperties.SelfReference` | src/com/interface21/beans/factory/support/AbstractBeanFactory.java:292-295 | a singleton referring to itself holds itself and is cached |
| `BeanFactoryProperties.MutualReferences` | src/com/interface21/beans/factory/support/AbstractBeanFactory.java:292-295 | two singletons referring to each other each hold the other; both are cached, and two objects are created |
| `BeanFactoryProperties.SingletonWithOneReference` | src/com/interface21/beans/factory/support/AbstractBeanFactory.java:146-158 | an uncached singleton whose one property is a reference ends up holding what the reference resolved to, and is cached under its name |
| `BeanFactoryProperties.ManagedListFromFlight` | src/com/interface21/beans/factory/support/AbstractBeanFactory.java:435-442 | a managed list whose references name beans in flight resolves to those beans, other elements kept, with no effect |
| `BeanFactoryProperties.OneReferenceList` | src/com/interface21/beans/factory/support/AbstractBeanFactory.java:435-442 | a one-reference managed list becomes the object that reference resolves to, or fails as it does |
| `BeanFactoryProperties.OneReferenceMap` | src/com/interface21/beans/factory/support/AbstractBeanFactory.java:415-430 | a one-entry managed map keeps its key and holds the object the reference resolves to, or fails as it does |
| `BeanFactoryProperties.ManagedMapFromFlight` | src/com/interface21/beans/factory/support/AbstractBeanFactory.java:415-430 | a managed map of in-flight references and plain values resolves entry by entry, keys in order, with no effect |
| `BeanFactoryProperties.ResolvePropertiesFromFlight` | src/com/interface21/beans/factory/support/AbstractBeanFactory.java:312-333 | property values that are in-flight references or plain values resolve in order, under their own names, with no effect |
| `BeanFactoryProperties.ApplyToSingle` | src/com/interface21/beans/factory/support/AbstractBeanFactory.java:312-333 | setting one property on an object without properties gives exactly that property |
| `BeanFactoryProperties.SelfReferenceThroughAliasNeverEnds` | src/com/interface21/beans/factory/support/AbstractBeanFactory.java:218 | a singleton referring to itself through an alias is never found in flight, so retrieval does not end |
| `BeanFactoryProperties.AliasLoopUnbounded` | src/com/interface21/beans/factory/support/AbstractBeanFactory.java:218-223 | each resolution of the aliased self-reference starts another creation, at any depth |
| `BeanFactoryProperties.ChildOfRootMerges` | src/com/interface21/beans/factory/support/AbstractBeanFactory.java:504-543 | a child gets the parent's class and flag, and the parent's properties overridden by its own |
| `BeanFactoryProperties.ChildOfItselfNeverEnds` | src/com/interface21/beans/factory/support/AbstractBeanFactory.java:514 | a child that names itself as its parent recurses without end |
| `BeanFactoryProperties.MissingDefinitionFromParent` | src/com/interface21/beans/factory/support/AbstractBeanFactory.java:504-532 | a non-local definition comes merged from the parent, or fails when the parent cannot merge |
| `BeanFactoryProperties.MergedPropertyValue` | src/com/interface21/beans/factory/support/AbstractBeanFactory.java:537-543 | a merged property has the child's value when the child sets it, else the parent's |
| `ProxyFactoryBeans.Classify` | src/com/interface21/aop/framework/ProxyFactoryBean.java:242-264 | a bean becomes a pointcut exactly when it is a MethodPointcut, else an interceptor when it is an Interceptor, else an invoker |
| `ProxyFactoryBeans.AddNamed` | src/com/interface21/aop/framework/ProxyFactoryBean.java:242-264 | one getBean; on success the classified entry is appended and the bean's name recorded; on failure only the lookup count changes |
| `ProxyFactoryBeans.AddAll` | src/com/interface21/aop/framework/ProxyFactoryBean.java:217-231 | adding names fails only with the factory's own errors |
| `ProxyFactoryBeans.GlobalsAmong` | src/com/interface21/aop/framework/ProxyFactoryBean.java:217-231 | exactly the names with the global prefix, in order; never the "*" marker |
| `ProxyFactoryBeans.CreateChain` | src/com/interface21/aop/framework/ProxyFactoryBean.java:149-175 | a null or empty name list fails with "Interceptor names are required"; a trailing "*" fails with "Target required after globals" |
| `ProxyFactoryBeans.AddEntry` | src/com/interface21/aop/framework/ProxyFactoryBean.java:159-174 | "*" without a listable factory fails; any other name is one getBean, failing exactly when that getBean fails; entries are only appended |
| `ProxyFactoryBeans.Materialize` | src/com/interface21/aop/framework/ProxyFactoryBean.java:159-174 | entries are only appended; a failure is a lookup's, or the missing listable factory when "*" was named |
| `ProxyFactoryBeans.Renewed` | src/com/interface21/aop/framework/ProxyFactoryBean.java:195-206 | a refreshed bean is a pointcut exactly when it is a MethodPointcut, else an always-invoked invoker |
| `ProxyFactoryBeans.RefreshFrom` | src/com/interface21/aop/framework/ProxyFactoryBean.java:184-211 | the refresh as written keeps the chain length and the source map; entries without a recorded source are unchanged; what the sourced ones become is stated by RefreshFromRenews |
| `ProxyFactoryBeans.RefreshRecordingFrom` | src/com/interface21/aop/framework/ProxyFactoryBean.java:184-211 | corrected refresh: every recorded source stays recorded, and a pointcut renewed from a source again has one |
| `ProxyFactoryBeans.RefreshFromRenews` | src/com/interface21/aop/framework/ProxyFactoryBean.java:195-206 | as written, a successful refresh replaces each sourced pointcut by what a getBean of its recorded name returned during this refresh |
| `ProxyFactoryBeans.RefreshRecordingRenews` | src/com/interface21/aop/framework/ProxyFactoryBean.java:195-208 | with the source recorded, a successful refresh likewise replaces each sourced pointcut by what a getBean made during this refresh returned |
| `ProxyFactoryBeans.ProxyFactoryBean.constructor` | src/com/interface21/aop/framework/ProxyFactoryBean.java:67 | a new factory bean is a singleton with an empty chain |
| `ProxyFactoryBeans.ProxyFactoryBean.SetProxyInterfaces` | src/com/interface21/aop/framework/ProxyFactoryBean.java:98-107 | succeeds exactly when every name is an interface; a failure reports the first name that is not |
| `ProxyFactoryBeans.ProxyFactoryBean.SetInterceptorNames` | src/com/interface21/aop/framework/ProxyFactoryBean.java:115-117 | the names are stored |
| `ProxyFactoryBeans.ProxyFactoryBean.SetSingleton` | src/com/interface21/aop/framework/ProxyFactoryBean.java:320-322 | isSingleton reflects the last call |
| `ProxyFactoryBeans.ProxyFactoryBean.GetPropertyValues` | src/com/interface21/aop/framework/ProxyFactoryBean.java:300-302 | always null |
| `ProxyFactoryBeans.ProxyFactoryBean.AddPointcutOrInterceptor` | src/com/interface21/aop/framework/ProxyFactoryBean.java:242-264 | the classified entry is appended and the bean's name recorded as its source |
| `ProxyFactoryBeans.ProxyFactoryBean.AddBean` | src/com/interface21/aop/framework/ProxyFactoryBean.java:169-172 | the new chain and failure are those of adding the named bean |
| `ProxyFactoryBeans.ProxyFactoryBean.AddGlobalInterceptorsAndPointcuts` | src/com/interface21/aop/framework/ProxyFactoryBean.java:217-231 | the loop adds the global pointcuts then the global interceptors, stopping at the first failure |
| `ProxyFactoryBeans.ProxyFactoryBean.CreateInterceptorChain` | src/com/interface21/aop/framework/ProxyFactoryBean.java:149-175 | the loop builds the chain the name list specifies, with "*" expanded in place |
| `ProxyFactoryBeans.ProxyFactoryBean.RefreshInterceptorChain` | src/com/interface21/aop/framework/ProxyFactoryBean.java:184-211 | the loop performs the corrected refresh, which also records the new pointcut's source |
| `ProxyFactoryBeans.ProxyFactoryBean.CreateInstance` | src/com/interface21/aop/framework/ProxyFactoryBean.java:290-294 | the corrected refresh first; a new proxy only if the refresh succeeds |
| `ProxyFactoryBeans.ProxyFactoryBean.SetBeanFactory` | src/com/interface21/aop/framework/ProxyFactoryBean.java:122-139 | the chain is built from the names; a singleton gets its proxy at once, after the corrected refresh; a prototype none |
| `ProxyFactoryBeans.ProxyFactoryBean.GetObject` | src/com/interface21/aop/framework/ProxyFactoryBean.java:271-280 | a singleton always returns the same instance and changes nothing; a prototype gets a new proxy after the corrected refresh |
| `ProxyFactoryBeans.MaterializeConcat` | src/com/interface21/aop/framework/ProxyFactoryBean.java:159-174 | building from two lists of names is building from the first, then continuing with the second unless it failed |
| `ProxyFactoryBeans.AddAllStops` | src/com/interface21/aop/framework/ProxyFactoryBean.java:217-231 | adding two lists of names is adding the first, then the second unless it failed |
| `ProxyFactoryBeans.GlobalsAmongConcat` | src/com/interface21/aop/framework/ProxyFactoryBean.java:217-231 | the globals of two lists are the globals of each, in order |
| `ProxyFactoryBeans.GlobalsStep` | src/com/interface21/aop/framework/ProxyFactoryBean.java:222-229 | a global name is added in turn; any other name is skipped |
| `ProxyFactoryBeans.GlobalsStop` | src/com/interface21/aop/framework/ProxyFactoryBean.java:217-231 | after the first failure, no later global name changes anything |
| `ProxyFactoryBeans.MaterializeWithoutGlobals` | src/com/interface21/aop/framework/ProxyFactoryBean.java:159-174 | without "*", the chain is built by adding each named bean in turn |
| `ProxyFactoryBeans.GlobalsExpandInPlace` | src/com/interface21/aop/framework/ProxyFactoryBean.java:159-174 | "*" is expanded in place: the same as writing the global names at its position |
| `ProxyFactoryBeans.AddAllFollowsNames` | src/com/interface21/aop/framework/ProxyFactoryBean.java:159-174 | a successful add appends one entry per name, in order, each the classified bean of that name |
| `ProxyFactoryBeans.ChainFollowsNames` | src/com/interface21/aop/framework/ProxyFactoryBean.java:159-174 | without "*", entry i of the new chain is the classified bean named at position i |
| `ProxyFactoryBeans.SecondRefreshKeepsPointcut` | src/com/interface21/aop/framework/ProxyFactoryBean.java:184-211 | as written, a second refresh leaves the first refresh's prototype pointcut in place |
| `ProxyFactoryBeans.SecondRefreshKeepsRenewed` | src/com/interface21/aop/framework/ProxyFactoryBean.java:184-211 | as written, for every chain: an entry the first refresh left without a recorded source is not touched by the second |
| `ProxyFactoryBeans.RefreshRecordingUsesRecordedName` | src/com/interface21/aop/framework/ProxyFactoryBean.java:186-208 | with the source recorded, each sourced pointcut is renewed by a getBean of the name recorded for its object, made during this refresh, unless the refresh already put that object into an earlier entry |
| `ProxyFactoryBeans.RenewedObjectTakesOverSource` | src/com/interface21/aop/framework/ProxyFactoryBean.java:195-208 | the source map is keyed by the pointcut object: when the bean fetched for one entry is the object of a later entry, that entry's recorded name is replaced and it is renewed under the new name |
| `ProxyFactoryBeans.SecondRecordingRefreshRenews` | src/com/interface21/aop/framework/ProxyFactoryBean.java:184-211 | with the source recorded, for every chain: a pointcut renewed by one refresh is renewed again by the next, from a request the first did not make, for the name recorded for the renewed object unless the second refresh already put that object into an earlier entry |
| `ProxyFactoryBeans.SecondRecordingRefreshRenewsPrototype` | src/com/interface21/aop/framework/ProxyFactoryBean.java:184-211 | with the source recorded, a prototype pointcut bean gives a new pointcut at each refresh |
| `AopUtils.Ancestors` | src/com/interface21/aop/framework/AopUtils.java:35-38 | the superclass chain starts with the class itself |
| `AopUtils.AncestorsTransitive` | src/com/interface21/aop/framework/AopUtils.java:35-38 | an ancestor's ancestors are ancestors |
| `AopUtils.FindAllImplementedInterfaces` | src/com/interface21/aop/framework/AopUtils.java:29-40 | exactly the interfaces declared directly by some class on the superclass chain, each once |
| `TransactionSupport.Caught` | src/com/interface21/transaction/support/AbstractPlatformTransactionManager.java:73-81 | a failure becomes execution without a transaction exactly when that is allowed and support is unavailable |
| `TransactionSupport.GetTransactionOutcome` | src/com/interface21/transaction/support/AbstractPlatformTransactionManager.java:56-88 | an existing transaction is joined with no begin; MANDATORY without one fails; REQUIRED without one calls doBegin once, with the given isolation, and returns a new transaction unless doBegin fails; other propagation runs without a transaction; hook failures go through the catch |
| `TransactionSupport.RollbackOutcome` | src/com/interface21/transaction/support/AbstractPlatformTransactionManager.java:115-130 | a new transaction is rolled back, a joined one is marked rollback-only, none calls no hook; the hook's failure is the result |
| `TransactionSupport.CommitOutcome` | src/com/interface21/transaction/support/AbstractPlatformTransactionManager.java:95-109 | rollback-only goes to rollback; otherwise only a new transaction is committed, and doCommit's failure is the result |
| `TransactionSupport.JoinedTransactionIsLeftToItsOwner` | src/com/interface21/transaction/support/AbstractPlatformTransactionManager.java:56-130 | a joined transaction is never committed and, on rollback, only marked rollback-only |
| `TransactionSupport.RequiredTwiceJoins` | src/com/interface21/transaction/support/AbstractPlatformTransactionManager.java:56-88 | after REQUIRED has begun a transaction, a second REQUIRED getTransaction that finds it existing joins it: no second doBegin, and the status is not new |
| `TransactionSupport.PlatformTransactionManager.constructor` | src/com/interface21/transaction/support/AbstractPlatformTransactionManager.java:33 | non-transactional execution is not allowed by default |
| `TransactionSupport.PlatformTransactionManager.SetAllowNonTransactionalExecution` | src/com/interface21/transaction/support/AbstractPlatformTransactionManager.java:39-49 | the flag is stored; the hooks and the trace are unchanged |
| `TransactionSupport.PlatformTransactionManager.GetTransaction` | src/com/interface21/transaction/support/AbstractPlatformTransactionManager.java:56-88 | the status and the hook calls made are those of the propagation decision, with the hooks given the calls made earlier on this manager |
| `TransactionSupport.PlatformTransactionManager.Commit` | src/com/interface21/transaction/support/AbstractPlatformTransactionManager.java:95-109 | the result and the hook calls made are those of the commit decision |
| `TransactionSupport.PlatformTransactionManager.Rollback` | src/com/interface21/transaction/support/AbstractPlatformTransactionManager.java:115-130 | the result and the hook calls made are those of the rollback decision |
| `Validation.Globals` | src/com/interface21/validation/BindException.java:97-105 | exactly the errors that are not field errors |
| `Validation.FirstGlobal` | src/com/interface21/validation/BindException.java:107-114 | the first global error, or null when there is none |
| `Validation.FieldErrorsNamed` | src/com/interface21/validation/BindException.java:124-133 | exactly the field errors of the given field |
| `Validation.FirstFieldError` | src/com/interface21/validation/BindException.java:135-143 | the first field error of the field, or null |
| `Validation.GlobalsAppend` | src/com/interface21/validation/BindException.java:97-105 | appending an error extends the global errors by it exactly when it is global, keeping order |
| `Validation.FieldErrorsAppend` | src/com/interface21/validation/BindException.java:124-133 | appending an error extends a field's errors by it exactly when it is a field error of that field |
| `Validation.DetailsAppend` | src/com/interface21/validation/BindException.java:180-188 | the message lists "; " and each error, in list order |
| `Validation.NormalizedPath` | src/com/interface21/validation/BindException.java:156-163 | null and "" become ""; any other path gets exactly one trailing "." |
| `Validation.PropertyValueOrRejectedUpdate` | src/com/interface21/validation/BindException.java:148-154 | corrected: the rejected value of the first field error for the prefixed field, else the bean's property |
| `Validation.PropertyValueOrRejectedUpdateAsWritten` | src/com/interface21/validation/BindException.java:148-154 | as written: the errors are searched under the path applied twice, the bean's value under the path applied once |
| `Validation.AsWrittenAgreesAtTopLevel` | src/com/interface21/validation/BindException.java:148-154 | with no nested path, the code as written and the corrected lookup agree |
| `Validation.AsWrittenMissesNestedRejection` | src/com/interface21/validation/BindException.java:148-154 | as written, under a nested path the rejected value is missed |
| `Validation.BindException.constructor` | src/com/interface21/validation/BindException.java:30-34 | no errors, and an empty nested path |
| `Validation.BindException.FixedField` | src/com/interface21/validation/BindException.java:40-45 | the field with the nested path in front |
| `Validation.BindException.AddFieldError` | src/com/interface21/validation/BindException.java:47-49 | appends exactly the one error, which becomes the last of its field's errors |
| `Validation.BindException.Reject` | src/com/interface21/validation/BindException.java:62-64 | appends exactly one global error |
| `Validation.BindException.RejectWithCode` | src/com/interface21/validation/BindException.java:66-68 | appends exactly one global error with the code |
| `Validation.BindException.RejectValue` | src/com/interface21/validation/BindException.java:70-75 | appends one field error on the prefixed field, holding the bean's current value; the global errors are unchanged |
| `Validation.BindException.SetNestedPath` | src/com/interface21/validation/BindException.java:156-163 | the stored path is the normalised one |
| `Validation.BindException.HasErrors` | src/com/interface21/validation/BindException.java:77-83 | true exactly when the error count is positive |
| `Validation.BindException.HasGlobalErrors` | src/com/interface21/validation/BindException.java:89-91 | true exactly when some error is global |
| `Validation.BindException.HasFieldErrors` | src/com/interface21/validation/BindException.java:116-118 | true exactly when some field error names the prefixed field |
| `Validation.BindException.GetErrorCount` | src/com/interface21/validation/BindException.java:81-83 | zero exactly when there are no errors, and at least the number of global errors |
| `Validation.BindException.GetGlobalErrors` | src/com/interface21/validation/BindException.java:97-105 | exactly the errors that are not field errors |
| `Validation.BindException.GetGlobalError` | src/com/interface21/validation/BindException.java:107-114 | null exactly when there is no global error; otherwise the first one in the list |
| `Validation.BindException.GetFieldErrors` | src/com/interface21/validation/BindException.java:124-133 | exactly the field errors of the prefixed field |
| `Validation.BindException.GetFieldError` | src/com/interface21/validation/BindException.java:135-143 | null exactly when the prefixed field has no error; otherwise its first one |
| `Validation.BindException.GetPropertyValueOrRejectedUpdate` | src/com/interface21/validation/BindException.java:148-154 | corrected: the first field error's rejected value when there is one, else the bean's value of the prefixed property |
| `Validation.BindException.GetMessage` | src/com/interface21/validation/BindException.java:180-188 | "BindException: ", the error count and " errors", followed by each error in turn |
| `Validation.BindException.GetModel` | src/com/interface21/validation/BindException.java:168-175 | exactly two entries: the errors under the prefixed key, the target under the object name |
| `Views.ParseAttribute` | src/com/interface21/web/servlet/view/AbstractView.java:83-93 | fails exactly when there is no "=" or fewer than two characters follow it; a parsed token is name "=" delimiter value delimiter |
| `Views.AddTokens` | src/com/interface21/web/servlet/view/AbstractView.java:82-99 | the tokens are added in order until one fails: no failure exactly when every token parses, and then every token's name is an attribute; no attribute is removed |
| `Views.AttributesFromCSV` | src/com/interface21/web/servlet/view/AbstractView.java:80-100 | succeeds exactly when every token parses; then every token's name is an attribute; no attribute is removed; the failure is one of the two parse errors |
| `Views.ParseWellFormed` | src/com/interface21/web/servlet/view/AbstractView.java:87-93 | "name={value}" parses to the name and the value |
| `Views.IndexOfPrefix` | src/com/interface21/web/servlet/view/AbstractView.java:84 | the first "=" is the one right after an "="-free name |
| `Views.CSVHead` | src/com/interface21/web/servlet/view/AbstractView.java:80-100 | a well-formed leading attribute is added, and the rest is parsed as if alone |
| `Views.CSVFailureKeepsEarlierTokens` | src/com/interface21/web/servlet/view/AbstractView.java:84-86 | a failing token reports its error, and the attributes of earlier tokens remain added |
| `Views.AsAttributes` | src/com/interface21/web/servlet/view/AbstractView.java:110-122 | each property name maps to its value as text |
| `Views.AsAttributesStep` | src/com/interface21/web/servlet/view/AbstractView.java:112-119 | adding one more property is one attribute update |
| `Views.View.constructor` | src/com/interface21/web/servlet/view/AbstractView.java:61-70 | no static attributes, no context, the default content type |
| `Views.View.AddStaticAttribute` | src/com/interface21/web/servlet/view/AbstractView.java:193-195 | the name now maps to the value, overwriting an earlier one |
| `Views.View.SetAttributesCSV` | src/com/interface21/web/servlet/view/AbstractView.java:80-100 | the loop leaves the attributes and the failure that parsing the tokens in order gives |
| `Views.View.SetAttributes` | src/com/interface21/web/servlet/view/AbstractView.java:110-122 | null changes nothing; otherwise every property becomes a static attribute |
| `Views.View.SetContentType` | src/com/interface21/web/servlet/view/AbstractView.java:124-130 | getContentType returns what was set |
| `Views.View.SetName` | src/com/interface21/web/servlet/view/AbstractView.java:212-214 | the name is stored |
| `Views.View.SetApplicationContext` | src/com/interface21/web/servlet/view/AbstractView.java:143-153 | succeeds exactly on the first call with a web context, storing it and initialising once; otherwise the matching error and no change |
| `Views.View.Render` | src/com/interface21/web/servlet/view/AbstractView.java:236-238 | the merged model has every dynamic value, and the static value for keys the dynamic model lacks |
| `MaxValueIncrementers.NextValue` | src/com/interface21/jdbc/core/support/AbstractDataFieldMaxValueIncrementer.java:49-60 | int/Integer, double/Double and String each call exactly their hook and return its result; any other class fails with no hook call |
| `MaxValueIncrementers.NextIntValue` | src/com/interface21/jdbc/core/support/AbstractDataFieldMaxValueIncrementer.java:25-27 | the int hook's answer, which is also what nextValue gives for int and Integer |
| `MaxValueIncrementers.NextDoubleValue` | src/com/interface21/jdbc/core/support/AbstractDataFieldMaxValueIncrementer.java:33-35 | the double hook's answer, which is also what nextValue gives for double and Double |
| `MaxValueIncrementers.NextStringValue` | src/com/interface21/jdbc/core/support/AbstractDataFieldMaxValueIncrementer.java:41-43 | the String hook's answer, which is also what nextValue gives for String |
| `MySQLIncrementers.ReadMax` | src/com/interface21/jdbc/core/support/MySQLMaxValueIncrementer.java:197-214 | a VARCHAR key is read exactly when it parses as a long, else InternalErrorException; a wrong Java type is a ClassCastException; an unknown type keeps the maximum |
| `MySQLIncrementers.VarcharKeyRoundTrip` | src/com/interface21/jdbc/core/support/MySQLMaxValueIncrementer.java:207-212 | a VARCHAR column holding the text of a long gives that long |
| `MySQLIncrementers.NextKey` | src/com/interface21/jdbc/core/support/MySQLMaxValueIncrementer.java:186-219 | fetches exactly when the buffer is used up; otherwise the next consecutive key; a refill serves from maximum-increment+1; errors change nothing; nextId <= maxId is kept |
| `MySQLIncrementers.Serve` | src/com/interface21/jdbc/core/support/MySQLMaxValueIncrementer.java:186-219 | one key or error per request |
| `MySQLIncrementers.BufferedKeysAreConsecutive` | src/com/interface21/jdbc/core/support/MySQLMaxValueIncrementer.java:186-219 | while keys are buffered, successive calls give consecutive keys with no fetch |
| `MySQLIncrementers.RefillServesBlock` | src/com/interface21/jdbc/core/support/MySQLMaxValueIncrementer.java:215-218 | one refill serves exactly maximum-increment+1 .. maximum, with one fetch |
| `MySQLIncrementers.MySQLMaxValueIncrementer.constructor` | src/com/interface21/jdbc/core/support/MySQLMaxValueIncrementer.java:60-84 | increment 1, dirty, counters at 0 |
| `MySQLIncrementers.MySQLMaxValueIncrementer.WithTable` | src/com/interface21/jdbc/core/support/MySQLMaxValueIncrementer.java:96-109 | the given data source, table, column and increment, dirty |
| `MySQLIncrementers.MySQLMaxValueIncrementer.InitPrepare` | src/com/interface21/jdbc/core/support/MySQLMaxValueIncrementer.java:221-234 | the statement "update T set C = last_insert_id(C + N)", and not dirty |
| `MySQLIncrementers.MySQLMaxValueIncrementer.GetNextKey` | src/com/interface21/jdbc/core/support/MySQLMaxValueIncrementer.java:186-219 | rebuilds the statement only when dirty; counters and key as NextKey; the update is sent exactly when it fetches |
| `MySQLIncrementers.MySQLMaxValueIncrementer.SetDataSource` | src/com/interface21/jdbc/core/support/MySQLMaxValueIncrementer.java:241-244 | stores the data source and marks the statement dirty |
| `MySQLIncrementers.MySQLMaxValueIncrementer.SetTableName` | src/com/interface21/jdbc/core/support/MySQLMaxValueIncrementer.java:266-269 | stores the table and marks the statement dirty |
| `MySQLIncrementers.MySQLMaxValueIncrementer.SetColumnName` | src/com/interface21/jdbc/core/support/MySQLMaxValueIncrementer.java:275-278 | stores the column and marks the statement dirty |
| `MySQLIncrementers.MySQLMaxValueIncrementer.SetIncrementBy` | src/com/interface21/jdbc/core/support/MySQLMaxValueIncrementer.java:284-287 | stores the increment and marks the statement dirty |
| `MySQLIncrementers.MySQLMaxValueIncrementer.AfterPropertiesSet` | src/com/interface21/jdbc/core/support/MySQLMaxValueIncrementer.java:249-252 | fails exactly when the data source, the table or the column is missing |
| `OracleIncrementers.NextValueQuery` | src/com/interface21/jdbc/core/support/OracleSequenceMaxValueIncrementer.java:96 | the query is a SELECT of the sequence's NEXTVAL |
| `OracleIncrementers.Zeros` | src/com/interface21/jdbc/core/support/OracleSequenceMaxValueIncrementer.java:113-114 | exactly n zeros |
| `OracleIncrementers.Padded` | src/com/interface21/jdbc/core/support/OracleSequenceMaxValueIncrementer.java:107-121 | without padding, or when too long, unchanged; otherwise exactly paddingLength characters: zeros, then the original text |
| `OracleIncrementers.LeadingZeroValue` | src/com/interface21/jdbc/core/support/OracleSequenceMaxValueIncrementer.java:113-115 | a leading zero does not change a digit string's value |
| `OracleIncrementers.LeadingZerosValue` | src/com/interface21/jdbc/core/support/OracleSequenceMaxValueIncrementer.java:113-115 | leading zeros do not change a digit string's value |
| `OracleIncrementers.PaddedKeyParses` | src/com/interface21/jdbc/core/support/OracleSequenceMaxValueIncrementer.java:107-121 | a padded key of a non-negative value still reads back as that value |
| `OracleIncrementers.OracleSequenceMaxValueIncrementer.constructor` | src/com/interface21/jdbc/core/support/OracleSequenceMaxValueIncrementer.java:40-42 | nothing set, no padding |
| `OracleIncrementers.OracleSequenceMaxValueIncrementer.WithSequence` | src/com/interface21/jdbc/core/support/OracleSequenceMaxValueIncrementer.java:49-53 | the data source and sequence given, no padding |
| `OracleIncrementers.OracleSequenceMaxValueIncrementer.WithPadding` | src/com/interface21/jdbc/core/support/OracleSequenceMaxValueIncrementer.java:62-68 | sets the padding flag and length along with the data source and sequence |
| `OracleIncrementers.OracleSequenceMaxValueIncrementer.IncrementIntValue` | src/com/interface21/jdbc/core/support/OracleSequenceMaxValueIncrementer.java:95-99 | one query of the sequence; the value is the database's |
| `OracleIncrementers.OracleSequenceMaxValueIncrementer.IncrementDoubleValue` | src/com/interface21/jdbc/core/support/OracleSequenceMaxValueIncrementer.java:101-105 | one query of the sequence; the value is the database's |
| `OracleIncrementers.OracleSequenceMaxValueIncrementer.IncrementStringValue` | src/com/interface21/jdbc/core/support/OracleSequenceMaxValueIncrementer.java:107-121 | one query; the padded decimal text of the value |
| `OracleIncrementers.OracleSequenceMaxValueIncrementer.SetDataSource` | src/com/interface21/jdbc/core/support/OracleSequenceMaxValueIncrementer.java:128-130 | stores the data source |
| `OracleIncrementers.OracleSequenceMaxValueIncrementer.SetPrefixWithZero` | src/com/interface21/jdbc/core/support/OracleSequenceMaxValueIncrementer.java:144-147 | sets both the flag and the padding length |
| `OracleIncrementers.OracleSequenceMaxValueIncrementer.SetSequenceName` | src/com/interface21/jdbc/core/support/OracleSequenceMaxValueIncrementer.java:153-155 | stores the sequence name |
| `OracleIncrementers.OracleSequenceMaxValueIncrementer.AfterPropertiesSet` | src/com/interface21/jdbc/core/support/OracleSequenceMaxValueIncrementer.java:135-138 | fails exactly when the data source or the sequence name is missing, with the message naming the class |
| `Jndi.WithPrefix` | src/com/interface21/jndi/AbstractJndiLocator.java:78-82 | the result always starts with "java:comp/env/"; a prefixed name is unchanged, any other gets the prefix in front |
| `Jndi.WithPrefixIdempotent` | src/com/interface21/jndi/AbstractJndiLocator.java:79-81 | prefixing twice is prefixing once |
| `Jndi.JndiLocator.constructor` | src/com/interface21/jndi/AbstractJndiLocator.java:56-57 | no name, nothing looked up |
| `Jndi.JndiLocator.WithName` | src/com/interface21/jndi/AbstractJndiLocator.java:65-67 | the name is stored with the prefix |
| `Jndi.JndiLocator.SetJndiName` | src/com/interface21/jndi/AbstractJndiLocator.java:78-82 | null fails with no change; any other name is stored with the prefix |
| `Jndi.JndiLocator.GetJndiName` | src/com/interface21/jndi/AbstractJndiLocator.java:84-86 | a stored name always starts with the prefix |
| `Jndi.JndiLocator.AfterPropertiesSet` | src/com/interface21/jndi/AbstractJndiLocator.java:95-100 | without a name or with "" it fails before any lookup; otherwise one lookup, and a found object is passed to located exactly once |

## Left out

- Reflection. `BeanWrapperImpl` (instantiation, property setting, type conversion), `instanceof`
  and `Class.isAssignableFrom` are oracle functions over class names. Failures of
  individual property setters are not modelled.
- Logging throughout, and the `synchronized` on `getSharedInstance`; the factory is modelled
  sequentially.
- `MutablePropertyValues` and `PropertyValues.changesSince` are not part of this model. Property
  lists are sequences, and `changesSince` is defined from its use at
  AbstractBeanDefinition.java:90-91. A null property list makes `equals` throw a
  NullPointerException, as in the Java code; only the RootBeanDefinition copy constructor turns
  a null list into an empty one.
- A `StackOverflowError` is the `Unbounded` error. The bean factory's recursion through
  resolveReference is bounded by a stack-depth parameter, and a cyclic parent chain of
  definitions is detected by a visited set. Both stand for the overflow the Java code runs into.
- BeanFactories.BeanFactory.GetBean: the retrieval is computed by the specification functions
  in one step, so the methods do not show `applyPropertyValues`, `resolveManagedList` and
  `resolveManagedMap` overwriting list elements in place. Resolution returns new values, so the
  aliasing of managed collections inside a definition is not captured.
- The init method named by a definition (`rbd.getInitMethodName`): RootBeanDefinition has no
  such property in this version.
- `getParentBeanFactory` and the other plain getters of AbstractBeanFactory.
- Plain getters whose only effect is to return a field (`getContentType`,
  `getAllowNonTransactionalExecution`, `getTarget`, `getObjectName`, `getParentBeanFactory`) are
  not separate members: the class fields stand for them.
- The parent factory's `isSingleton` and `getMergedBeanDefinition`, and every reflection answer
  other than `getObject`, are pure functions: they are taken to give the same answer on every
  call. The parent's `getBean` and a FactoryBean's `getObject` are asked afresh on each call.
- BeanFactorySpec.Lifecycle: `setBeanFactory` is an oracle of the bean alone. A callback that
  itself asks this factory for beans, as `ProxyFactoryBean.setBeanFactory` does, creates and
  caches nothing in the model's state, and its outcome does not depend on that state.
- A `ManagedMap` is an ordered sequence of entries. The Java code iterates a HashMap, whose order
  is unspecified; the model fixes one order, which decides which failure is reported first and
  the order in which referenced beans are created.
- Validation.BindException.RejectValue: the bean's current property value is read by a total
  function; the InvalidBinderUsageException that `getPropertyValue` can throw for an unreadable
  property is not modelled. The same holds for the property read in
  `GetPropertyValueOrRejectedUpdate`.
- Validation.BindException.GetPropertyValueOrRejectedUpdate: the class uses the corrected lookup
  (`PropertyValueOrRejectedUpdate`), which puts the nested path in front of the field once. The
  code as written puts it there twice when looking up the field error; that lookup is
  `PropertyValueOrRejectedUpdateAsWritten`, and the difference is the second finding below.
- `AopProxy`, `DefaultProxyConfig` and `AopUtils.getArguments` are not part of this model. The
  chain is a sequence of entries that the proxies share. Interceptors are wrapped, so only
  pointcut beans have a source.
- ProxyFactoryBeans.ProxyFactoryBean.RefreshInterceptorChain: performs the corrected refresh
  (`RefreshRecordingFrom`), which also records the source of a renewed pointcut; the refresh as
  written is `RefreshFrom`, and the difference is the third finding below.
- ProxyFactoryBeans.ProxyFactoryBean.CreateInstance: refreshes with the corrected refresh, not
  the one as written.
- ProxyFactoryBeans.ProxyFactoryBean.SetBeanFactory: a singleton's refresh is the corrected one,
  so its source map also holds renewed pointcuts.
- ProxyFactoryBeans.ProxyFactoryBean.GetObject: a prototype's refresh is the corrected one, so a
  later proxy gets a new pointcut where the code as written reuses the first refreshed one.
- ProxyFactoryBeans.ProxyFactoryBean.SetInterceptorNames takes the list of names directly; the
  string-to-array conversion a bean definition would apply is not modelled.
- Interfaces that the interfaces themselves extend: `findAllImplementedInterfaces` does not
  collect them, and neither does the model.
- Floating point: a `double` key is carried as its bits, unchanged. The NUMERIC double-to-long
  cast of the MySQL incrementer is taken as done, so the answer for a NUMERIC column is already
  a long.
- MySQLIncrementers.NextKey: `nextId` and `maxId` are unbounded integers, not 64-bit longs, so
  wrap-around near the top of the long range is not modelled.
- The three-argument MySQL constructor is `WithTable` with the default `incrementBy` of 1. The
  five- and six-argument constructors also hand the padding to `AbstractNextMaxValueProvider`,
  which is not part of this model; apart from that they are the three- and four-argument ones.
- `AbstractNextMaxValueProvider`, which the MySQL incrementer's `setPrefixWithZero`, its int and
  string conversions and its double keys delegate to, is not part of this model.
- The SQL calls themselves (`SqlUpdate`, `SqlFunction`, `DataSourceUtils`): the model records
  the statements sent and takes the database's answers as parameters.
- The JNDI lookup (`JndiServices`) is an oracle, and `located` is recorded as a sequence of
  objects.
- The `toString` of an error in `BindException.getMessage` is a parameter.
- TransactionSupport: `NoTransactionException` is taken not to be a kind of
  `CannotCreateTransactionException`; neither class is part of this model, so the catch at
  AbstractPlatformTransactionManager.java:73-81 lets it through.

## Findings

| source | as written | input that shows it | evidently intended | confidence | as-written member | corrected member |
|---|---|---|---|---|---|---|
| src/com/interface21/beans/factory/support/AbstractBeanDefinition.java:90 | `this.singleton = obd.singleton && ...` assigns the comparison to the receiver's flag and never compares the two flags | a singleton definition compared with a prototype with the same properties becomes a prototype; any prototype definition is unequal to itself | `this.singleton == obd.singleton && ...`: compare the flags and change nothing | not executed | `BeanDefinitions.EqualsAsWritten`, `BeanDefinitions.EqualsAsWrittenDemotes` | `BeanDefinitions.DefinitionsEqual`, `BeanDefinitions.DefinitionsEqualReflexive` |
| src/com/interface21/validation/BindException.java:148-154 | the nested path is put in front of the field twice, once here and once in getFieldError | nested path "spouse.", a field error on "spouse.age" with rejected value "x": the lookup asks for "spouse.spouse.age" and returns the bean's property instead of "x" | prefix the field once, for both the error lookup and the property | not executed | `Validation.PropertyValueOrRejectedUpdateAsWritten`, `Validation.AsWrittenMissesNestedRejection` | `Validation.PropertyValueOrRejectedUpdate` |
| src/com/interface21/aop/framework/ProxyFactoryBean.java:184-211 | a refreshed pointcut replaces the old one, but the new object is not entered in the source map | a prototype pointcut bean: the first prototype proxy gets a new pointcut, every later one shares that same pointcut | record the new pointcut under the same bean name, so each new proxy gets its own pointcut | not executed | `ProxyFactoryBeans.RefreshFrom`, `ProxyFactoryBeans.SecondRefreshKeepsPointcut`, `ProxyFactoryBeans.SecondRefreshKeepsRenewed` | `ProxyFactoryBeans.RefreshRecordingFrom`, `ProxyFactoryBeans.SecondRecordingRefreshRenews` |

=== FILE: aop_utils.dfy ===
/** AopUtils.findAllImplementedInterfaces over a model of java.lang.Class. */
module AopUtils {
  import opened Outcomes
  import opened Beans

  /** A class: its name, the interfaces it declares directly (getInterfaces), its superclass. */
  datatype JavaClass = JavaClass(name: ClassName, interfaces: seq<ClassName>, superclass: Option<JavaClass>)

  /** The class followed by its superclasses, nearest first. */
  function Ancestors(c: JavaClass): (r: seq<JavaClass>)
    ensures |r| >= 1 && r[0] == c
    decreases c
  {
    [c] + if c.superclass.Some? then Ancestors(c.superclass.value) else []
  }

  /** Every ancestor of an ancestor is an ancestor. */
  lemma {:induction false} AncestorsTransitive(c: JavaClass, a: JavaClass)
    requires a in Ancestors(c)
    ensures forall b :: b in Ancestors(a) ==> b in Ancestors(c)
    decreases c
  {
    if a != c {
      assert c.superclass.Some?;
      AncestorsTransitive(c.superclass.value, a);
    }
  }

  /**
   * findAllImplementedInterfaces: the interfaces each class on the superclass chain declares
   * directly. Interfaces extended by those interfaces are not included.
   */
  method FindAllImplementedInterfaces(c: JavaClass) returns (s: set<ClassName>)
    ensures forall x :: x in s <==> exists a :: a in Ancestors(c) && x in a.interfaces
    decreases c
  {
    s := {};
    var i := 0;
    while i < |c.interfaces|
      invariant 0 <= i <= |c.interfaces|
      invariant forall x :: x in s <==> x in c.interfaces[..i]
    {
      assert c.interfaces[..i + 1] == c.interfaces[..i] + [c.interfaces[i]];
      s := s + {c.interfaces[i]};
      i := i + 1;
    }
    assert c.interfaces[..i] == c.interfaces;
    if c.superclass.Some? {
      var inherited := FindAllImplementedInterfaces(c.superclass.value);
      s := s + inherited;
    }
  }
}

=== FILE: bean_definitions.dfy ===
/**
 * AbstractBeanDefinition and RootBeanDefinition: a singleton flag and a property
 * list, plus the bean class for a root definition. Modelled as one class whose
 * `kind` says which concrete definition class an object is.
 */
module BeanDefinitions {
  import opened Outcomes
  import opened Beans

  /** The concrete class of a definition object. */
  datatype DefinitionKind =
    | RootKind(beanClass: ClassName)
      /** Any other subclass of AbstractBeanDefinition, such as a child definition. */
    | OtherKind

  /** What a definition object holds; `pvs == None` is a null property list. */
  datatype DefinitionState = DefinitionState(singleton: bool, pvs: Option<PropertyValues>, kind: DefinitionKind)

  /** The unchecked exception `equals` can raise when a property list is null. */
  datatype JavaError = NullPointerException

  /**
   * AbstractBeanDefinition.equals as written: `other == None` stands for an argument that is
   * not a bean definition. Returns the result and the new value of the receiver's singleton
   * flag, which the method overwrites with its own result.
   */
  function EqualsAsWritten(self: DefinitionState, other: Option<DefinitionState>): (r: (Result<bool, JavaError>, bool))
    ensures other.None? ==> r == (Ok(false), self.singleton)
    ensures r.0.Ok? && other.Some? ==> r.1 == r.0.value
    ensures r.0.Err? ==> r.1 == self.singleton
    ensures r.0 == Ok(true) ==> other.Some? && other.value.singleton
    ensures r.0 == Ok(true) ==> other.value.pvs.Some? && self.pvs.Some? && ChangesSince(self.pvs.value, other.value.pvs.value) == []
  {
    match other
    case None => (Ok(false), self.singleton)
    case Some(o) =>
      if !o.singleton then (Ok(false), false)
      else if self.pvs.None? || o.pvs.None? then (Err(NullPointerException), self.singleton)
      else
        var same := ChangesSince(self.pvs.value, o.pvs.value) == [];
        (Ok(same), same)
  }

  /** Equality as evidently intended: the same singleton flag and no property changes; nothing is modified. */
  function DefinitionsEqual(self: DefinitionState, other: Option<DefinitionState>): (r: Result<bool, JavaError>)
    ensures other.None? ==> r == Ok(false)
    ensures r == Ok(true) <==>
      other.Some? && self.singleton == other.value.singleton && self.pvs.Some? && other.value.pvs.Some? &&
      ChangesSince(self.pvs.value, other.value.pvs.value) == []
  {
    match other
    case None => Ok(false)
    case Some(o) =>
      if self.singleton != o.singleton then Ok(false)
      else if self.pvs.None? || o.pvs.None? then Err(NullPointerException)
      else Ok(ChangesSince(self.pvs.value, o.pvs.value) == [])
  }

  /** A prototype definition is, as written, unequal to itself. */
  lemma PrototypeUnequalToItself(s: DefinitionState)
    requires !s.singleton
    ensures EqualsAsWritten(s, Some(s)) == (Ok(false), false)
  {
  }

  /**
   * As written, a singleton definition compared with a prototype, or with a definition whose
   * properties differ from its own, becomes a prototype.
   */
  lemma {:induction false} EqualsAsWrittenDemotes(s: DefinitionState, t: DefinitionState)
    requires s.singleton
    requires !t.singleton ||
      (s.pvs.Some? && t.pvs.Some? && s.pvs.value != t.pvs.value &&
       exists k :: 0 <= k < |s.pvs.value| && Lookup(t.pvs.value, s.pvs.value[k].name) != Some(s.pvs.value[k].value))
    ensures EqualsAsWritten(s, Some(t)) == (Ok(false), false)
  {
    if t.singleton {
      ChangedEmpty(s.pvs.value, t.pvs.value);
    }
  }

  /** The two definitions of a test bean whose "age" differs: the singleton is demoted. */
  lemma {:induction false} DifferentAgeDemotes()
    ensures var s := DefinitionState(true, Some([PropertyValue("age", Text("31"))]), RootKind("TestBean"));
            var t := DefinitionState(true, Some([PropertyValue("age", Text("32"))]), RootKind("TestBean"));
            EqualsAsWritten(s, Some(t)) == (Ok(false), false)
  {
    var a := [PropertyValue("age", Text("31"))];
    var b := [PropertyValue("age", Text("32"))];
    assert a != b by { assert a[0] != b[0]; }
    assert Lookup(b, "age") == Some(Text("32"));
    EqualsAsWrittenDemotes(DefinitionState(true, Some(a), RootKind("TestBean")), DefinitionState(true, Some(b), RootKind("TestBean")));
  }

  /** The corrected equality is reflexive for every definition with a property list. */
  lemma DefinitionsEqualReflexive(s: DefinitionState)
    requires s.pvs.Some?
    ensures DefinitionsEqual(s, Some(s)) == Ok(true)
  {
  }

  /** RootBeanDefinition.equals, using the corrected superclass equality: also the same bean class. */
  function RootDefinitionsEqual(self: DefinitionState, other: Option<DefinitionState>): (r: Result<bool, JavaError>)
    requires self.kind.RootKind?
    ensures other.None? || !other.value.kind.RootKind? ==> r == Ok(false)
    ensures r == Ok(true) <==> other.Some? && other.value.kind == self.kind && DefinitionsEqual(self, other) == Ok(true)
  {
    if other.None? || !other.value.kind.RootKind? then Ok(false)
    else
      var sup := DefinitionsEqual(self, other);
      if sup == Ok(true) then Ok(other.value.kind.beanClass == self.kind.beanClass) else sup
  }

  class BeanDefinition {
    var singleton: bool
    var pvs: Option<PropertyValues>
    const kind: DefinitionKind

    function State(): DefinitionState
      reads this
    {
      DefinitionState(singleton, pvs, kind)
    }

    /** AbstractBeanDefinition(pvs, singleton): both stored unchanged. */
    constructor (pvs: Option<PropertyValues>, singleton: bool, kind: DefinitionKind)
      ensures State() == DefinitionState(singleton, pvs, kind)
    {
      this.pvs := pvs;
      this.singleton := singleton;
      this.kind := kind;
    }

    /** AbstractBeanDefinition(): a singleton with a null property list. */
    constructor Default(kind: DefinitionKind)
      ensures State() == DefinitionState(true, None, kind)
    {
      this.pvs := None;
      this.singleton := true;
      this.kind := kind;
    }

    /** RootBeanDefinition(clazz, pvs, singleton). */
    constructor Root(cls: ClassName, pvs: Option<PropertyValues>, singleton: bool)
      ensures State() == DefinitionState(singleton, pvs, RootKind(cls))
      ensures GetBeanClass() == cls
    {
      this.pvs := pvs;
      this.singleton := singleton;
      this.kind := RootKind(cls);
    }

    /**
     * RootBeanDefinition(other), the deep copy: same class and singleton flag, and a new
     * MutablePropertyValues holding the same properties (a null list copies as empty).
     */
    constructor CopyOf(other: BeanDefinition)
      requires other.kind.RootKind?
      ensures kind == other.kind && singleton == other.singleton
      ensures pvs == Some(if other.pvs.Some? then other.pvs.value else [])
      ensures GetBeanClass() == other.GetBeanClass()
    {
      this.pvs := Some(if other.pvs.Some? then other.pvs.value else []);
      this.singleton := other.singleton;
      this.kind := other.kind;
    }

    function IsSingleton(): bool
      reads this
    {
      singleton
    }

    function GetPropertyValues(): Option<PropertyValues>
      reads this
    {
      pvs
    }

    function GetBeanClass(): ClassName
      requires kind.RootKind?
    {
      kind.beanClass
    }

    /** Replaces the property list; nothing else changes. */
    method SetPropertyValues(p: Option<PropertyValues>)
      modifies this
      ensures GetPropertyValues() == p
      ensures singleton == old(singleton)
    {
      pvs := p;
    }

    /**
     * AbstractBeanDefinition.equals as written, including its assignment to the receiver's
     * singleton flag; `other == None` stands for an argument that is not a bean definition.
     */
    method Equals(other: Option<BeanDefinition>) returns (r: Result<bool, JavaError>)
      modifies this
      ensures var expected := EqualsAsWritten(old(State()), if other.None? then None else Some(old(other.value.State())));
              r == expected.0 && singleton == expected.1
      ensures pvs == old(pvs)
      ensures other.None? ==> r == Ok(false) && singleton == old(singleton)
    {
      if other.None? {
        return Ok(false);
      }
      var o := other.value;
      if !o.singleton {
        singleton := false;
        return Ok(false);
      }
      if pvs.None? || o.pvs.None? {
        return Err(NullPointerException);
      }
      var same := ChangesSince(pvs.value, o.pvs.value) == [];
      singleton := same;
      r := Ok(same);
    }

    /**
     * RootBeanDefinition.equals as written: false unless the argument is a root definition;
     * otherwise the superclass comparison (with its assignment to the singleton flag) and the
     * same bean class.
     */
    method RootEquals(other: Option<BeanDefinition>) returns (r: Result<bool, JavaError>)
      requires kind.RootKind?
      modifies this
      ensures other.None? || !other.value.kind.RootKind? ==> r == Ok(false) && State() == old(State())
      ensures other.Some? && other.value.kind.RootKind? ==>
        var expected := EqualsAsWritten(old(State()), Some(old(other.value.State())));
        singleton == expected.1 &&
        r == if expected.0 == Ok(true) then Ok(other.value.kind.beanClass == kind.beanClass) else expected.0
      ensures pvs == old(pvs)
    {
      if other.None? || !other.value.kind.RootKind? {
        return Ok(false);
      }
      var sup := Equals(other);
      if sup == Ok(true) {
        r := Ok(other.value.kind.beanClass == kind.beanClass);
      } else {
        r := sup;
      }
    }
  }
}

=== FILE: bean_factories.dfy ===
/**
 * AbstractBeanFactory as an object: the shared-instance cache and the alias map are
 * fields that its public methods update; the definitions the concrete subclass
 * supplies, the parent factory and the reflective environment are fixed at
 * construction. Retrieval applies the state-passing functions of BeanFactorySpec
 * to the current fields and stores the state they return.
 */
module BeanFactories {
  import opened Outcomes
  import opened Beans
  import opened BeanFactorySpec

  class BeanFactory {
    /** getBeanDefinition of the concrete subclass. */
    const definitions: map<string, Def>
    const parent: ParentFactory
    const env: Reflection
    /** How deeply bean references may nest before the stack overflows. */
    const stackDepth: nat

    /** bean name -> shared instance */
    var sharedInstanceCache: map<string, Obj>
    /** alias -> canonical bean name */
    var aliasMap: map<string, string>
    /** The properties set on each object created so far. */
    var fields: map<nat, map<string, Value>>
    /** How many objects have been created; the next object's identity. */
    var created: nat
    /** The lifecycle callbacks made so far, in order. */
    var callbacks: seq<Callback>
    /** How many calls have gone to the parent's getBean or to a FactoryBean's getObject. */
    var outsideCalls: nat

    function Configuration(): Config
      reads this
    {
      Config(definitions, aliasMap, parent, env)
    }

    function World(): State
      reads this
    {
      State(sharedInstanceCache, fields, created, callbacks, outsideCalls)
    }

    /** Only singleton definitions of this factory are cached. */
    ghost predicate Valid()
      reads this
    {
      CacheInv(Configuration(), World())
    }

    /** AbstractBeanFactory(parentBeanFactory): an empty cache and no aliases. */
    constructor (definitions: map<string, Def>, parent: ParentFactory, env: Reflection, stackDepth: nat)
      ensures Valid()
      ensures this.definitions == definitions && this.parent == parent && this.env == env && this.stackDepth == stackDepth
      ensures sharedInstanceCache == map[] && aliasMap == map[]
      ensures fields == map[] && created == 0 && callbacks == [] && outsideCalls == 0
    {
      this.definitions := definitions;
      this.parent := parent;
      this.env := env;
      this.stackDepth := stackDepth;
      sharedInstanceCache := map[];
      aliasMap := map[];
      fields := map[];
      created := 0;
      callbacks := [];
      outsideCalls := 0;
    }

    /** getBean(name): the bean, with the cache and the heap updated as the retrieval left them. */
    method GetBean(name: Option<string>) returns (r: Result<Obj, BeansError>)
      requires Valid()
      modifies this
      ensures Valid()
      ensures var s := BeanFactorySpec.GetBean(old(Configuration()), name, old(World()), stackDepth);
        r == s.result && World() == s.st
      ensures aliasMap == old(aliasMap)
      ensures old(created) <= created
    {
      var s := BeanFactorySpec.GetBean(Configuration(), name, World(), stackDepth);
      sharedInstanceCache, fields, created, callbacks, outsideCalls := s.st.cache, s.st.fields, s.st.nextId, s.st.callbacks, s.st.outsideCalls;
      r := s.result;
    }

    /**
     * getBean(name, requiredType): the bean, BeanNotOfRequiredType when its class does not fit,
     * or getBean's own exception.
     */
    method GetBeanOfType(name: Option<string>, requiredType: ClassName) returns (r: Result<Obj, BeansError>)
      requires Valid()
      modifies this
      ensures Valid()
      ensures r == BeanFactorySpec.GetBeanOfType(old(Configuration()), name, requiredType, old(World()), stackDepth).result
      ensures var s := BeanFactorySpec.GetBean(old(Configuration()), name, old(World()), stackDepth);
        World() == s.st &&
        (r.Ok? <==> s.result.Ok? && env.assignable(requiredType, s.result.value.cls)) &&
        (r.Ok? ==> r == s.result) &&
        (s.result.Ok? && !env.assignable(requiredType, s.result.value.cls) ==>
           r == Err(BeanNotOfRequiredType(name.value, requiredType, s.result.value.cls))) &&
        (s.result.Err? ==> r == s.result)
      ensures aliasMap == old(aliasMap)
    {
      r := GetBean(name);
      if r.Ok? && !env.assignable(requiredType, r.value.cls) {
        r := Err(BeanNotOfRequiredType(name.value, requiredType, r.value.cls));
      }
    }

    /** isSingleton(name) */
    function IsSingleton(name: string): (r: Result<bool, BeansError>)
      reads this
      ensures var canonical := TransformedBeanName(aliasMap, name);
        (canonical in definitions ==> r == Ok(definitions[canonical].singleton)) &&
        (canonical !in definitions && parent.NoParent? ==> r == Err(NoSuchBeanDefinition(Some(canonical))))
    {
      BeanFactorySpec.IsSingleton(Configuration(), name)
    }

    /** registerAlias(name, alias): `alias` now stands for `name`; a previous meaning of `alias` is replaced. */
    method RegisterAlias(name: string, alias: string)
      requires Valid()
      modifies this
      ensures Valid()
      ensures aliasMap == old(aliasMap)[alias := name]
      ensures World() == old(World())
    {
      aliasMap := aliasMap[alias := name];
    }

    /** getAliases(name): every alias registered for the canonical name `name` stands for, each once. */
    method GetAliases(pname: string) returns (aliases: seq<string>)
      ensures var name := TransformedBeanName(aliasMap, pname);
        forall a :: a in aliases <==> a in aliasMap && aliasMap[a] == name
      ensures forall i, j :: 0 <= i < j < |aliases| ==> aliases[i] != aliases[j]
    {
      var name := TransformedBeanName(aliasMap, pname);
      var remaining := aliasMap.Keys;
      aliases := [];
      while remaining != {}
        invariant remaining <= aliasMap.Keys
        invariant forall a :: a in aliases <==> a in aliasMap && a !in remaining && aliasMap[a] == name
        invariant forall i, j :: 0 <= i < j < |aliases| ==> aliases[i] != aliases[j]
        decreases |remaining|
      {
        var a :| a in remaining;
        if aliasMap[a] == name {
          aliases := aliases + [a];
        }
        remaining := remaining - {a};
      }
    }
  }
}

=== FILE: bean_factory_properties.dfy ===
/**
 * What AbstractBeanFactory promises its clients, proved about the functions of
 * BeanFactorySpec: the effect of the "&" prefix and of aliases, singleton identity,
 * prototype freshness, circular references between singletons, the fallback to
 * the parent factory, and merged child definitions.
 */
module BeanFactoryProperties {
  import opened Outcomes
  import opened Strings
  import opened Beans
  import opened BeanFactorySpec

  // ---------------------------------------------------------------------------------------
  // Names
  // ---------------------------------------------------------------------------------------

  /** A plain name is mapped once through the aliases; "&" + name is mapped as name, stripped of exactly one "&". */
  lemma TransformedBeanNameSpec(aliases: map<string, string>, name: string)
    ensures !IsFactoryDereference(name) ==>
      TransformedBeanName(aliases, name) == if name in aliases then aliases[name] else name
    ensures TransformedBeanName(aliases, FACTORY_BEAN_PREFIX + name) == if name in aliases then aliases[name] else name
  {
    var d := FACTORY_BEAN_PREFIX + name;
    assert d[..|FACTORY_BEAN_PREFIX|] == FACTORY_BEAN_PREFIX;
    assert d[|FACTORY_BEAN_PREFIX|..] == name;
  }

  // ---------------------------------------------------------------------------------------
  // Lookup and the parent factory
  // ---------------------------------------------------------------------------------------

  /**
   * A name with no local definition is asked of the parent under the name as given, once, and
   * the parent's answer is returned; without a parent it is not found.
   */
  lemma MissingBeanGoesToParent(cfg: Config, name: string, st: State, fuel: nat)
    requires TransformedBeanName(cfg.aliases, name) !in cfg.definitions
    ensures GetBean(cfg, Some(name), st, fuel) ==
      if cfg.parent.Parent? then Step(cfg.parent.getBean(name, st.outsideCalls), st.(outsideCalls := st.outsideCalls + 1), map[])
      else Step(Err(NoSuchBeanDefinition(Some(TransformedBeanName(cfg.aliases, name)))), st, map[])
  {
    var missing := NoSuchBeanDefinition(Some(TransformedBeanName(cfg.aliases, name)));
    assert LocalBean(cfg, name, map[], st, fuel) == Step(Err(missing), st, map[]);
  }

  /** A reference to a bean nobody defines fails with CannotResolveReference wrapping the lookup's error. */
  lemma MissingReferenceIsWrapped(cfg: Config, fromProperty: string, ref: string, inFlight: map<string, Obj>, st: State, fuel: nat)
    requires fuel > 0 && ref !in inFlight
    requires TransformedBeanName(cfg.aliases, ref) !in cfg.definitions && cfg.parent.NoParent?
    ensures ResolveReference(cfg, fromProperty, ref, inFlight, st, fuel).result ==
      Err(CannotResolveReference(ref, fromProperty, NoSuchBeanDefinition(Some(TransformedBeanName(cfg.aliases, ref)))))
  {
    var missing := NoSuchBeanDefinition(Some(TransformedBeanName(cfg.aliases, ref)));
    assert LocalBean(cfg, ref, inFlight, st, fuel - 1) == Step(Err(missing), st, inFlight);
    assert GetBeanInternal(cfg, Some(ref), inFlight, st, fuel - 1) == Step(Err(missing), st, inFlight);
  }

  // ---------------------------------------------------------------------------------------
  // Singletons and prototypes
  // ---------------------------------------------------------------------------------------

  /**
   * Asking again for a singleton that was obtained from this factory takes the cached object,
   * creating nothing, however deep the stack. The object itself (or, under "&", the
   * FactoryBean itself) is returned again, with no effect at all; a FactoryBean asked for
   * without "&" is asked for its product again.
   */
  lemma {:induction false} SingletonReturnsSameObject(cfg: Config, name: string, st: State, fuel1: nat, fuel2: nat)
    requires TransformedBeanName(cfg.aliases, name) in cfg.definitions
    requires cfg.definitions[TransformedBeanName(cfg.aliases, name)].singleton
    requires LocalBean(cfg, name, map[], st, fuel1).result.Ok?
    ensures var t := TransformedBeanName(cfg.aliases, name);
            var r1 := GetBean(cfg, Some(name), st, fuel1);
            var r2 := GetBean(cfg, Some(name), r1.st, fuel2);
            t in r1.st.cache &&
            r2 == Dereference(cfg, name, t, r1.st.cache[t], r1.st, map[]) &&
            r2.st.cache == r1.st.cache && r2.st.nextId == r1.st.nextId &&
            (IsFactoryDereference(name) || !cfg.env.isFactoryBean(r1.st.cache[t].cls) ==>
               r2.result == r1.result && r2.st == r1.st)
  {
    var t := TransformedBeanName(cfg.aliases, name);
    var r1 := GetBean(cfg, Some(name), st, fuel1);
    var attempt := LocalBean(cfg, name, map[], st, fuel1);
    assert attempt == GetSharedInstance(cfg, name, map[], st, fuel1);
    assert r1 == attempt;
    var o := r1.st.cache[t];
    assert IsFactoryDereference(name) || !cfg.env.isFactoryBean(o.cls) ==> r1.result == Ok(o) by {
      if t !in st.cache {
        var c := CreateBean(cfg, t, map[], st, fuel1);
        assert c.result.Ok?;
        var st' := c.st.(cache := c.st.cache[t := c.result.value]);
        assert r1 == Dereference(cfg, name, t, c.result.value, st', c.inFlight);
        assert o == c.result.value;
      }
    }
    assert GetSharedInstance(cfg, name, map[], r1.st, fuel2) == Dereference(cfg, name, t, o, r1.st, map[]);
    assert LocalBean(cfg, name, map[], r1.st, fuel2) == GetSharedInstance(cfg, name, map[], r1.st, fuel2);
  }

  /**
   * A cached FactoryBean singleton asked for twice without "&": each request is a new call to
   * its getObject, so the two products need not be the same object.
   */
  lemma {:induction false} FactoryBeanAskedOnEveryRequest(cfg: Config, name: string, st: State, fuel1: nat, fuel2: nat)
    requires !IsFactoryDereference(name)
    requires TransformedBeanName(cfg.aliases, name) in cfg.definitions
    requires cfg.definitions[TransformedBeanName(cfg.aliases, name)].singleton
    requires TransformedBeanName(cfg.aliases, name) in st.cache
    requires cfg.env.isFactoryBean(st.cache[TransformedBeanName(cfg.aliases, name)].cls)
    ensures var factory := st.cache[TransformedBeanName(cfg.aliases, name)];
            var r1 := GetBean(cfg, Some(name), st, fuel1);
            var r2 := GetBean(cfg, Some(name), r1.st, fuel2);
            r1.result == Ok(cfg.env.getObject(factory, st.outsideCalls)) &&
            r2.result == Ok(cfg.env.getObject(factory, st.outsideCalls + 1)) &&
            r2.st.outsideCalls == st.outsideCalls + 2 && r2.st.cache == st.cache && r2.st.nextId == st.nextId
  {
    var t := TransformedBeanName(cfg.aliases, name);
    var factory := st.cache[t];
    var r1 := GetBean(cfg, Some(name), st, fuel1);
    assert LocalBean(cfg, name, map[], st, fuel1) == Dereference(cfg, name, t, factory, st, map[]);
    assert r1 == Dereference(cfg, name, t, factory, st, map[]);
    assert LocalBean(cfg, name, map[], r1.st, fuel2) == Dereference(cfg, name, t, factory, r1.st, map[]);
  }

  /**
   * A prototype is created afresh on every request: when the creation succeeds its identity is
   * the next one and the count of objects grows. The only other way to succeed is the parent's
   * answer, after a setBeanFactory callback threw NoSuchBeanDefinitionException.
   */
  lemma PrototypeIsFresh(cfg: Config, name: string, st: State, fuel: nat)
    requires !IsFactoryDereference(name) && name !in cfg.aliases
    requires name in cfg.definitions && !cfg.definitions[name].singleton
    requires MergedBeanDefinition(cfg, name).Ok?
    ensures var r := GetBean(cfg, Some(name), st, fuel);
            var c := CreateBean(cfg, name, map[], st, fuel);
      (c.result.Ok? ==> r == c && r.result.value.id == st.nextId && st.nextId < r.st.nextId) &&
      (r.result.Ok? && c.result.Err? ==>
         IsNoSuchBean(c.result) && cfg.parent.Parent? && r.result == cfg.parent.getBean(name, c.st.outsideCalls))
  {
    TransformedBeanNameSpec(cfg.aliases, name);
    assert LocalBean(cfg, name, map[], st, fuel) == CreateBean(cfg, name, map[], st, fuel);
  }

  /** Two successive requests for a prototype that this factory creates give two different objects. */
  lemma PrototypesAreDistinct(cfg: Config, name: string, st: State, fuel1: nat, fuel2: nat)
    requires !IsFactoryDereference(name) && name !in cfg.aliases
    requires name in cfg.definitions && !cfg.definitions[name].singleton
    requires MergedBeanDefinition(cfg, name).Ok?
    ensures var r1 := GetBean(cfg, Some(name), st, fuel1);
            var r2 := GetBean(cfg, Some(name), r1.st, fuel2);
            CreateBean(cfg, name, map[], st, fuel1).result.Ok? && CreateBean(cfg, name, map[], r1.st, fuel2).result.Ok? ==>
              r1.result.Ok? && r2.result.Ok? && r1.result.value != r2.result.value
  {
    PrototypeIsFresh(cfg, name, st, fuel1);
    PrototypeIsFresh(cfg, name, GetBean(cfg, Some(name), st, fuel1).st, fuel2);
  }

  /**
   * A prototype asked for through an alias is created under the alias itself, for which
   * there is no definition: without a parent the request fails and nothing changes.
   */
  lemma PrototypeThroughAliasIsNotFound(cfg: Config, alias: string, st: State, fuel: nat)
    requires !IsFactoryDereference(alias) && alias in cfg.aliases && alias !in cfg.definitions
    requires cfg.aliases[alias] in cfg.definitions && !cfg.definitions[cfg.aliases[alias]].singleton
    requires cfg.parent.NoParent?
    ensures GetBean(cfg, Some(alias), st, fuel) == Step(Err(NoSuchBeanDefinition(Some(alias))), st, map[])
  {
    TransformedBeanNameSpec(cfg.aliases, alias);
    var missing := Step(Err(NoSuchBeanDefinition(Some(alias))), st, map[]);
    assert MergedFrom(cfg, alias, {}) == Err(NoSuchBeanDefinition(Some(alias)));
    assert CreateBean(cfg, alias, map[], st, fuel) == missing;
    assert LocalBean(cfg, alias, map[], st, fuel) == missing;
  }

  // ---------------------------------------------------------------------------------------
  // Circular references
  // ---------------------------------------------------------------------------------------

  /** A class with no FactoryBean behaviour and no lifecycle callbacks. */
  predicate Plain(env: Reflection, cls: ClassName) {
    env.instantiable(cls) && !env.isFactoryBean(cls) && !env.isInitializingBean(cls) && !env.isBeanFactoryAware(cls)
  }

  /**
   * Creating a bean whose only property is a reference: the fresh object is put in flight,
   * the reference is resolved, and the object ends up holding what it resolved to.
   */
  lemma {:induction false} CreateWithOneReference(cfg: Config, name: string, prop: string, ref: string, cls: ClassName,
                                                  inFlight: map<string, Obj>, st: State, fuel: nat,
                                                  target: Obj, resolved: State, resolvedInFlight: map<string, Obj>)
    requires name in cfg.definitions && cfg.definitions[name] == RootDef(cls, [PropertyValue(prop, Reference(ref))], true)
    requires Plain(cfg.env, cls)
    requires var o := Obj(st.nextId, cls);
      ResolveReference(cfg, prop, ref, inFlight[name := o], st.(nextId := st.nextId + 1, fields := st.fields[o.id := map[]]), fuel)
        == Step(Ok(target), resolved, resolvedInFlight)
    ensures var o := Obj(st.nextId, cls);
      CreateBean(cfg, name, inFlight, st, fuel) ==
        Step(Ok(o), resolved.(fields := resolved.fields[o.id := ApplyTo(FieldsOf(resolved, o), [PropertyValue(prop, Instance(target))])]),
             resolvedInFlight)
  {
    var o := Obj(st.nextId, cls);
    var st1 := st.(nextId := st.nextId + 1, fields := st.fields[o.id := map[]]);
    var nc := inFlight[name := o];
    var pv := PropertyValue(prop, Reference(ref));
    var stored := PropertyValue(prop, Instance(target));
    assert MergedBeanDefinition(cfg, name) == Ok(MergedDef(cls, [pv], true));
    assert ResolveValue(cfg, o, pv, nc, st1, fuel) == Step(Ok(Instance(target)), resolved, resolvedInFlight);
    assert [pv][0] == pv && [stored] + [] == [stored];
    assert ResolveProperties(cfg, o, [pv], 1, resolvedInFlight, resolved, fuel) == Step(Ok([]), resolved, resolvedInFlight);
    assert ResolveProperties(cfg, o, [pv], 0, nc, st1, fuel) == Step(Ok([stored]), resolved, resolvedInFlight);
  }

  /** A singleton whose property refers to itself gets the object under construction, found in the in-flight map. */
  lemma {:induction false} SelfReference(cfg: Config, name: string, prop: string, cls: ClassName, st: State, fuel: nat)
    requires !IsFactoryDereference(name) && name !in cfg.aliases && name !in st.cache
    requires name in cfg.definitions && cfg.definitions[name] == RootDef(cls, [PropertyValue(prop, Reference(name))], true)
    requires Plain(cfg.env, cls) && fuel >= 1
    ensures var r := GetBean(cfg, Some(name), st, fuel);
            var o := Obj(st.nextId, cls);
            r.result == Ok(o) && name in r.st.cache && r.st.cache[name] == o && r.st.nextId == st.nextId + 1 &&
            o.id in r.st.fields && r.st.fields[o.id] == map[prop := Instance(o)]
  {
    TransformedBeanNameSpec(cfg.aliases, name);
    var o := Obj(st.nextId, cls);
    var st1 := st.(nextId := st.nextId + 1, fields := st.fields[o.id := map[]]);
    var inFlight := map[name := o];
    assert ResolveReference(cfg, prop, name, inFlight, st1, fuel) == Step(Ok(o), st1, inFlight);
    CreateWithOneReference(cfg, name, prop, name, cls, map[], st, fuel, o, st1, inFlight);
    ApplyToSingle(prop, Instance(o));
    var st2 := st1.(fields := st1.fields[o.id := map[prop := Instance(o)]]);
    assert CreateBean(cfg, name, map[], st, fuel) == Step(Ok(o), st2, inFlight);
    var st3 := st2.(cache := st2.cache[name := o]);
    assert GetSharedInstance(cfg, name, map[], st, fuel) == Step(Ok(o), st3, inFlight);
    assert LocalBean(cfg, name, map[], st, fuel) == Step(Ok(o), st3, inFlight);
  }

  /**
   * Two singletons that refer to each other: asking for the first creates it, then the second
   * (whose reference back is answered from the in-flight map); each ends up holding the other.
   */
  lemma {:induction false} MutualReferences(cfg: Config, a: string, b: string, pa: string, pb: string, ca: ClassName, cb: ClassName,
                                            st: State, fuel: nat)
    requires a != b
    requires !IsFactoryDereference(a) && a !in cfg.aliases && a !in st.cache
    requires !IsFactoryDereference(b) && b !in cfg.aliases && b !in st.cache
    requires a in cfg.definitions && cfg.definitions[a] == RootDef(ca, [PropertyValue(pa, Reference(b))], true)
    requires b in cfg.definitions && cfg.definitions[b] == RootDef(cb, [PropertyValue(pb, Reference(a))], true)
    requires Plain(cfg.env, ca) && Plain(cfg.env, cb) && fuel >= 2
    ensures var r := GetBean(cfg, Some(a), st, fuel);
            var oa := Obj(st.nextId, ca);
            var ob := Obj(st.nextId + 1, cb);
            r.result == Ok(oa) && r.st.nextId == st.nextId + 2 &&
            r.st.cache == st.cache[b := ob][a := oa] &&
            oa.id in r.st.fields && r.st.fields[oa.id] == map[pa := Instance(ob)] &&
            ob.id in r.st.fields && r.st.fields[ob.id] == map[pb := Instance(oa)]
  {
    var oa := Obj(st.nextId, ca);
    var ob := Obj(st.nextId + 1, cb);
    // creating a: oa in flight
    var st1 := st.(nextId := st.nextId + 1, fields := st.fields[oa.id := map[]]);
    var nc1 := map[a := oa];
    // creating b from inside a's property: ob in flight, its reference back answered from the map
    var st2 := st1.(nextId := st1.nextId + 1, fields := st1.fields[ob.id := map[]]);
    var nc2 := nc1[b := ob];
    assert ResolveReference(cfg, pb, a, nc2, st2, fuel - 1) == Step(Ok(oa), st2, nc2);
    SingletonWithOneReference(cfg, b, pb, a, cb, nc1, st1, fuel - 1, oa, st2, nc2);
    var st4 := st2.(fields := st2.fields[ob.id := map[pb := Instance(oa)]], cache := st2.cache[b := ob]);
    assert GetBeanInternal(cfg, Some(b), nc1, st1, fuel - 1) == Step(Ok(ob), st4, nc2);
    assert ResolveReference(cfg, pa, b, nc1, st1, fuel) == Step(Ok(ob), st4, nc2);
    assert FieldsOf(st4, oa) == map[];
    SingletonWithOneReference(cfg, a, pa, b, ca, map[], st, fuel, ob, st4, nc2);
  }

  /**
   * A singleton not yet cached whose only property is a reference: once the reference resolves,
   * the object holds what it resolved to and is cached under its name.
   */
  lemma {:induction false} SingletonWithOneReference(cfg: Config, name: string, prop: string, ref: string, cls: ClassName,
                                                     inFlight: map<string, Obj>, st: State, fuel: nat,
                                                     target: Obj, resolved: State, resolvedInFlight: map<string, Obj>)
    requires !IsFactoryDereference(name) && name !in cfg.aliases && name !in st.cache && name !in inFlight
    requires name in cfg.definitions && cfg.definitions[name] == RootDef(cls, [PropertyValue(prop, Reference(ref))], true)
    requires Plain(cfg.env, cls)
    requires var o := Obj(st.nextId, cls);
      ResolveReference(cfg, prop, ref, inFlight[name := o], st.(nextId := st.nextId + 1, fields := st.fields[o.id := map[]]), fuel)
        == Step(Ok(target), resolved, resolvedInFlight)
    requires FieldsOf(resolved, Obj(st.nextId, cls)) == map[]
    ensures var o := Obj(st.nextId, cls);
      GetBeanInternal(cfg, Some(name), inFlight, st, fuel) ==
        Step(Ok(o), resolved.(fields := resolved.fields[o.id := map[prop := Instance(target)]], cache := resolved.cache[name := o]),
             resolvedInFlight)
  {
    TransformedBeanNameSpec(cfg.aliases, name);
    var o := Obj(st.nextId, cls);
    CreateWithOneReference(cfg, name, prop, ref, cls, inFlight, st, fuel, target, resolved, resolvedInFlight);
    ApplyToSingle(prop, Instance(target));
    var created := resolved.(fields := resolved.fields[o.id := map[prop := Instance(target)]]);
    assert CreateBean(cfg, name, inFlight, st, fuel) == Step(Ok(o), created, resolvedInFlight);
    assert GetSharedInstance(cfg, name, inFlight, st, fuel) == Step(Ok(o), created.(cache := created.cache[name := o]), resolvedInFlight);
    assert LocalBean(cfg, name, inFlight, st, fuel) == Step(Ok(o), created.(cache := created.cache[name := o]), resolvedInFlight);
  }

  /** Setting one property on an object with no properties yet. */
  lemma ApplyToSingle(prop: string, v: Value)
    ensures ApplyTo(map[], [PropertyValue(prop, v)]) == map[prop := v]
  {
    assert [PropertyValue(prop, v)][..0] == [];
    assert ApplyTo(map[], []) == map[];
  }

  /**
   * The in-flight map is keyed by the name a bean was asked for: a singleton whose property
   * refers to itself through an alias is created again and again, whatever the stack depth.
   */
  lemma {:induction false} SelfReferenceThroughAliasNeverEnds(cfg: Config, name: string, alias: string, prop: string, cls: ClassName,
                                                              st: State, fuel: nat)
    requires alias != name && !IsFactoryDereference(name) && !IsFactoryDereference(alias)
    requires name !in cfg.aliases && alias in cfg.aliases && cfg.aliases[alias] == name && name !in st.cache
    requires name in cfg.definitions && cfg.definitions[name] == RootDef(cls, [PropertyValue(prop, Reference(alias))], true)
    requires Plain(cfg.env, cls)
    ensures GetBean(cfg, Some(name), st, fuel).result == Err(Unbounded)
  {
    TransformedBeanNameSpec(cfg.aliases, name);
    AliasLoopUnbounded(cfg, name, alias, prop, cls, map[], st, fuel);
    assert GetSharedInstance(cfg, name, map[], st, fuel).result == Err(Unbounded);
    assert LocalBean(cfg, name, map[], st, fuel).result == Err(Unbounded);
  }

  /** Each resolution of the aliased reference starts another creation of the bean, one level deeper. */
  lemma {:induction false} AliasLoopUnbounded(cfg: Config, name: string, alias: string, prop: string, cls: ClassName,
                                              inFlight: map<string, Obj>, st: State, fuel: nat)
    requires alias != name && !IsFactoryDereference(name) && !IsFactoryDereference(alias)
    requires name !in cfg.aliases && alias in cfg.aliases && cfg.aliases[alias] == name && name !in st.cache
    requires name in cfg.definitions && cfg.definitions[name] == RootDef(cls, [PropertyValue(prop, Reference(alias))], true)
    requires Plain(cfg.env, cls) && alias !in inFlight
    ensures CreateBean(cfg, name, inFlight, st, fuel).result == Err(Unbounded)
    decreases fuel
  {
    TransformedBeanNameSpec(cfg.aliases, name);
    TransformedBeanNameSpec(cfg.aliases, alias);
    var pv := PropertyValue(prop, Reference(alias));
    assert MergedBeanDefinition(cfg, name) == Ok(MergedDef(cls, [pv], true));
    var o := Obj(st.nextId, cls);
    var st1 := st.(nextId := st.nextId + 1, fields := st.fields[o.id := map[]]);
    var nc := inFlight[name := o];
    var rr := ResolveReference(cfg, prop, alias, nc, st1, fuel);
    if fuel > 0 {
      AliasLoopUnbounded(cfg, name, alias, prop, cls, nc, st1, fuel - 1);
      assert GetSharedInstance(cfg, alias, nc, st1, fuel - 1).result == Err(Unbounded);
      assert GetBeanInternal(cfg, Some(alias), nc, st1, fuel - 1).result == Err(Unbounded);
    }
    assert rr.result == Err(Unbounded);
    assert ResolveValue(cfg, o, pv, nc, st1, fuel).result == Err(Unbounded);
    assert ResolveProperties(cfg, o, [pv], 0, nc, st1, fuel).result == Err(Unbounded);
  }

  // ---------------------------------------------------------------------------------------
  // Resolution of managed collections and property values
  // ---------------------------------------------------------------------------------------

  /** Whether every bean reference among l[k..] names a bean in flight. */
  predicate RefsInFlight(l: seq<Value>, k: nat, inFlight: map<string, Obj>) {
    forall i :: k <= i < |l| && l[i].Reference? ==> l[i].beanName in inFlight
  }

  /** An element as resolution leaves it when its reference, if any, names a bean in flight. */
  function FromFlight(v: Value, inFlight: map<string, Obj>): Value
    requires v.Reference? ==> v.beanName in inFlight
  {
    if v.Reference? then Instance(inFlight[v.beanName]) else v
  }

  /**
   * A managed list whose references all name beans in flight resolves to those beans, every
   * other element kept, with no effect on the factory.
   */
  lemma {:induction false} ManagedListFromFlight(cfg: Config, fromProperty: string, l: seq<Value>, k: nat,
                                                 inFlight: map<string, Obj>, st: State, fuel: nat)
    requires k <= |l| && fuel > 0 && RefsInFlight(l, k, inFlight)
    ensures var r := ResolveManagedList(cfg, fromProperty, l, k, inFlight, st, fuel);
      r.st == st && r.inFlight == inFlight && r.result.Ok? && |r.result.value| == |l| - k &&
      forall i :: 0 <= i < |r.result.value| ==> r.result.value[i] == FromFlight(l[k + i], inFlight)
    decreases |l| - k
  {
    if k < |l| {
      ManagedListFromFlight(cfg, fromProperty, l, k + 1, inFlight, st, fuel);
      var rest := ResolveManagedList(cfg, fromProperty, l, k + 1, inFlight, st, fuel);
      var r := ResolveManagedList(cfg, fromProperty, l, k, inFlight, st, fuel);
      assert r.result.value == [FromFlight(l[k], inFlight)] + rest.result.value;
    }
  }

  /** A managed list holding one reference resolves to the object that reference resolves to, or fails as it does. */
  lemma OneReferenceList(cfg: Config, fromProperty: string, ref: string, inFlight: map<string, Obj>, st: State, fuel: nat)
    ensures var s := ResolveReference(cfg, fromProperty, ref, inFlight, st, fuel);
      ResolveManagedList(cfg, fromProperty, [Reference(ref)], 0, inFlight, st, fuel) ==
        Step(if s.result.Ok? then Ok([Instance(s.result.value)]) else Err(s.result.error), s.st, s.inFlight)
  {
    var s := ResolveReference(cfg, fromProperty, ref, inFlight, st, fuel);
    assert [Reference(ref)][0] == Reference(ref);
    if s.result.Ok? {
      assert ResolveManagedList(cfg, fromProperty, [Reference(ref)], 1, s.inFlight, s.st, fuel) == Step(Ok([]), s.st, s.inFlight);
      assert [Instance(s.result.value)] + [] == [Instance(s.result.value)];
    }
  }

  /** A managed map with one entry whose value is a reference: the key kept, the value the object the reference resolves to. */
  lemma OneReferenceMap(cfg: Config, fromProperty: string, key: string, ref: string, inFlight: map<string, Obj>, st: State, fuel: nat)
    ensures var s := ResolveReference(cfg, fromProperty, ref, inFlight, st, fuel);
      ResolveManagedMap(cfg, fromProperty, [MapEntry(key, Reference(ref))], 0, inFlight, st, fuel) ==
        Step(if s.result.Ok? then Ok([MapEntry(key, Instance(s.result.value))]) else Err(s.result.error), s.st, s.inFlight)
  {
    var s := ResolveReference(cfg, fromProperty, ref, inFlight, st, fuel);
    assert [MapEntry(key, Reference(ref))][0].value == Reference(ref);
    if s.result.Ok? {
      assert ResolveManagedMap(cfg, fromProperty, [MapEntry(key, Reference(ref))], 1, s.inFlight, s.st, fuel) == Step(Ok([]), s.st, s.inFlight);
      assert [MapEntry(key, Instance(s.result.value))] + [] == [MapEntry(key, Instance(s.result.value))];
    }
  }

  /** Whether every value of entries[k..] is a reference to a bean in flight or a value kept as it is. */
  predicate EntriesFromFlight(entries: seq<MapEntry>, k: nat, inFlight: map<string, Obj>) {
    forall i :: k <= i < |entries| ==>
      (entries[i].value.Reference? && entries[i].value.beanName in inFlight) || (!entries[i].value.Reference? && !entries[i].value.ManagedList?)
  }

  /**
   * `r` is the resolution of entries[k..] when every value is a reference to a bean in flight
   * or a value kept as it is: the keys in order, each reference replaced by the bean in flight,
   * and no effect on the factory.
   */
  predicate MapResolvedFromFlight(r: Step<seq<MapEntry>>, entries: seq<MapEntry>, k: nat, inFlight: map<string, Obj>, st: State) {
    k <= |entries| && EntriesFromFlight(entries, k, inFlight) &&
    r.st == st && r.inFlight == inFlight && r.result.Ok? && |r.result.value| == |entries| - k &&
    forall i :: 0 <= i < |r.result.value| ==>
      r.result.value[i] == MapEntry(entries[k + i].key, FromFlight(entries[k + i].value, inFlight))
  }

  /**
   * A managed map whose values are references to beans in flight, or values kept as they are,
   * resolves entry by entry with the keys in order, and with no effect on the factory.
   */
  lemma {:induction false} ManagedMapFromFlight(cfg: Config, fromProperty: string, entries: seq<MapEntry>, k: nat,
                                                inFlight: map<string, Obj>, st: State, fuel: nat)
    requires k <= |entries| && fuel > 0 && EntriesFromFlight(entries, k, inFlight)
    ensures MapResolvedFromFlight(ResolveManagedMap(cfg, fromProperty, entries, k, inFlight, st, fuel), entries, k, inFlight, st)
    decreases |entries| - k
  {
    if k < |entries| {
      ManagedMapFromFlight(cfg, fromProperty, entries, k + 1, inFlight, st, fuel);
      ManagedMapFromFlightStep(cfg, fromProperty, entries, k, inFlight, st, fuel);
    }
  }

  /** The inductive step of ManagedMapFromFlight: what holds from k + 1 on holds from k on. */
  lemma ManagedMapFromFlightStep(cfg: Config, fromProperty: string, entries: seq<MapEntry>, k: nat,
                                 inFlight: map<string, Obj>, st: State, fuel: nat)
    requires k < |entries| && fuel > 0 && EntriesFromFlight(entries, k, inFlight)
    requires MapResolvedFromFlight(ResolveManagedMap(cfg, fromProperty, entries, k + 1, inFlight, st, fuel), entries, k + 1, inFlight, st)
    ensures MapResolvedFromFlight(ResolveManagedMap(cfg, fromProperty, entries, k, inFlight, st, fuel), entries, k, inFlight, st)
  {
    var rest := ResolveManagedMap(cfg, fromProperty, entries, k + 1, inFlight, st, fuel);
    MapEntryFromFlight(cfg, fromProperty, entries, k, inFlight, st, fuel);
    EntriesCons(entries, k, inFlight, rest.result.value);
  }

  /** Entries resolved from position k + 1 on, with the entry at k resolved in front, are resolved from k on. */
  lemma EntriesCons(entries: seq<MapEntry>, k: nat, inFlight: map<string, Obj>, rest: seq<MapEntry>)
    requires k < |entries| && EntriesFromFlight(entries, k, inFlight) && |rest| == |entries| - (k + 1)
    requires forall i :: 0 <= i < |rest| ==>
      rest[i] == MapEntry(entries[k + 1 + i].key, FromFlight(entries[k + 1 + i].value, inFlight))
    ensures var all := [MapEntry(entries[k].key, FromFlight(entries[k].value, inFlight))] + rest;
      forall i :: 0 <= i < |all| ==> all[i] == MapEntry(entries[k + i].key, FromFlight(entries[k + i].value, inFlight))
  {
    var all := [MapEntry(entries[k].key, FromFlight(entries[k].value, inFlight))] + rest;
    forall i | 0 < i < |all|
      ensures all[i] == MapEntry(entries[k + i].key, FromFlight(entries[k + i].value, inFlight))
    {
      assert all[i] == rest[i - 1];
      assert k + i == k + 1 + (i - 1);
    }
  }

  /** One step of ManagedMapFromFlight: the entry at k resolves from the in-flight map, then the rest follows. */
  lemma MapEntryFromFlight(cfg: Config, fromProperty: string, entries: seq<MapEntry>, k: nat,
                           inFlight: map<string, Obj>, st: State, fuel: nat)
    requires k < |entries| && fuel > 0
    requires (entries[k].value.Reference? && entries[k].value.beanName in inFlight) ||
             (!entries[k].value.Reference? && !entries[k].value.ManagedList?)
    requires var rest := ResolveManagedMap(cfg, fromProperty, entries, k + 1, inFlight, st, fuel);
      rest.result.Ok? && rest.st == st && rest.inFlight == inFlight
    ensures var rest := ResolveManagedMap(cfg, fromProperty, entries, k + 1, inFlight, st, fuel);
      ResolveManagedMap(cfg, fromProperty, entries, k, inFlight, st, fuel) ==
        Step(Ok([MapEntry(entries[k].key, FromFlight(entries[k].value, inFlight))] + rest.result.value), st, inFlight)
  {
    if entries[k].value.Reference? {
      var ref := entries[k].value.beanName;
      assert ResolveReference(cfg, fromProperty, ref, inFlight, st, fuel) == Step(Ok(inFlight[ref]), st, inFlight);
    }
  }

  /** Whether every property of pvs[k..] is a reference to a bean in flight or a value kept as it is. */
  predicate PropertiesFromFlight(pvs: PropertyValues, k: nat, inFlight: map<string, Obj>) {
    forall i :: k <= i < |pvs| ==> (pvs[i].value.Reference? && pvs[i].value.beanName in inFlight) || Unmanaged(pvs[i].value)
  }

  /**
   * `r` is the resolution of pvs[k..] when every value is a reference to a bean in flight or a
   * value kept as it is: the names in order, each reference replaced by the bean in flight, and
   * no effect on the factory.
   */
  predicate PropertiesResolvedFromFlight(r: Step<PropertyValues>, pvs: PropertyValues, k: nat, inFlight: map<string, Obj>, st: State) {
    k <= |pvs| && PropertiesFromFlight(pvs, k, inFlight) &&
    r.st == st && r.inFlight == inFlight && r.result.Ok? && |r.result.value| == |pvs| - k &&
    forall i :: 0 <= i < |r.result.value| ==>
      r.result.value[i] == PropertyValue(pvs[k + i].name, FromFlight(pvs[k + i].value, inFlight))
  }

  /**
   * Property values that are references to beans in flight, or values kept as they are,
   * resolve one by one, in order and under their own names, with no effect on the factory.
   */
  lemma {:induction false} ResolvePropertiesFromFlight(cfg: Config, o: Obj, pvs: PropertyValues, k: nat,
                                                       inFlight: map<string, Obj>, st: State, fuel: nat)
    requires k <= |pvs| && fuel > 0 && PropertiesFromFlight(pvs, k, inFlight)
    ensures PropertiesResolvedFromFlight(ResolveProperties(cfg, o, pvs, k, inFlight, st, fuel), pvs, k, inFlight, st)
    decreases |pvs| - k
  {
    if k < |pvs| {
      ResolvePropertiesFromFlight(cfg, o, pvs, k + 1, inFlight, st, fuel);
      ResolvePropertiesFromFlightStep(cfg, o, pvs, k, inFlight, st, fuel);
    }
  }

  /** The inductive step of ResolvePropertiesFromFlight: what holds from k + 1 on holds from k on. */
  lemma ResolvePropertiesFromFlightStep(cfg: Config, o: Obj, pvs: PropertyValues, k: nat,
                                        inFlight: map<string, Obj>, st: State, fuel: nat)
    requires k < |pvs| && fuel > 0 && PropertiesFromFlight(pvs, k, inFlight)
    requires PropertiesResolvedFromFlight(ResolveProperties(cfg, o, pvs, k + 1, inFlight, st, fuel), pvs, k + 1, inFlight, st)
    ensures PropertiesResolvedFromFlight(ResolveProperties(cfg, o, pvs, k, inFlight, st, fuel), pvs, k, inFlight, st)
  {
    var rest := ResolveProperties(cfg, o, pvs, k + 1, inFlight, st, fuel);
    PropertyFromFlight(cfg, o, pvs, k, inFlight, st, fuel);
    PropertiesCons(pvs, k, inFlight, rest.result.value);
  }

  /** Properties resolved from position k + 1 on, with the property at k resolved in front, are resolved from k on. */
  lemma PropertiesCons(pvs: PropertyValues, k: nat, inFlight: map<string, Obj>, rest: PropertyValues)
    requires k < |pvs| && PropertiesFromFlight(pvs, k, inFlight) && |rest| == |pvs| - (k + 1)
    requires forall i :: 0 <= i < |rest| ==>
      rest[i] == PropertyValue(pvs[k + 1 + i].name, FromFlight(pvs[k + 1 + i].value, inFlight))
    ensures var all := [PropertyValue(pvs[k].name, FromFlight(pvs[k].value, inFlight))] + rest;
      forall i :: 0 <= i < |all| ==> all[i] == PropertyValue(pvs[k + i].name, FromFlight(pvs[k + i].value, inFlight))
  {
    var all := [PropertyValue(pvs[k].name, FromFlight(pvs[k].value, inFlight))] + rest;
    forall i | 0 < i < |all|
      ensures all[i] == PropertyValue(pvs[k + i].name, FromFlight(pvs[k + i].value, inFlight))
    {
      assert all[i] == rest[i - 1];
      assert k + i == k + 1 + (i - 1);
    }
  }

  /** One step of ResolvePropertiesFromFlight: the property at k resolves from the in-flight map, then the rest follow. */
  lemma PropertyFromFlight(cfg: Config, o: Obj, pvs: PropertyValues, k: nat, inFlight: map<string, Obj>, st: State, fuel: nat)
    requires k < |pvs| && fuel > 0
    requires (pvs[k].value.Reference? && pvs[k].value.beanName in inFlight) || Unmanaged(pvs[k].value)
    requires var rest := ResolveProperties(cfg, o, pvs, k + 1, inFlight, st, fuel);
      rest.result.Ok? && rest.st == st && rest.inFlight == inFlight
    ensures var rest := ResolveProperties(cfg, o, pvs, k + 1, inFlight, st, fuel);
      ResolveProperties(cfg, o, pvs, k, inFlight, st, fuel) ==
        Step(Ok([PropertyValue(pvs[k].name, FromFlight(pvs[k].value, inFlight))] + rest.result.value), st, inFlight)
  {
    if pvs[k].value.Reference? {
      var ref := pvs[k].value.beanName;
      assert ResolveReference(cfg, pvs[k].name, ref, inFlight, st, fuel) == Step(Ok(inFlight[ref]), st, inFlight);
    }
  }

  // ---------------------------------------------------------------------------------------
  // Merged definitions
  // ---------------------------------------------------------------------------------------

  /**
   * A child of a root definition gets the parent's class and singleton flag, and the parent's
   * properties overridden by its own, by name.
   */
  lemma ChildOfRootMerges(cfg: Config, child: string, parentName: string, props: PropertyValues, singleton: bool,
                          cls: ClassName, parentProps: PropertyValues, parentSingleton: bool)
    requires child in cfg.definitions && cfg.definitions[child] == ChildDef(parentName, props, singleton)
    requires parentName in cfg.definitions && cfg.definitions[parentName] == RootDef(cls, parentProps, parentSingleton)
    ensures MergedBeanDefinition(cfg, child) == Ok(MergedDef(cls, Merge(parentProps, props), parentSingleton))
  {
    assert {} + {child} == {child};
    assert MergedFrom(cfg, parentName, {child}) == Ok(MergedDef(cls, parentProps, parentSingleton));
  }

  /** A child definition that names itself as its parent recurses without end. */
  lemma ChildOfItselfNeverEnds(cfg: Config, child: string, props: PropertyValues, singleton: bool)
    requires child in cfg.definitions && cfg.definitions[child] == ChildDef(child, props, singleton)
    ensures MergedBeanDefinition(cfg, child) == Err(Unbounded)
  {
    assert {} + {child} == {child};
    assert MergedFrom(cfg, child, {child}) == Err(Unbounded);
  }

  /**
   * A definition that is not local comes merged from the parent factory under the same name,
   * or fails with BeanDefinitionStoreException when the parent is not an AbstractBeanFactory.
   */
  lemma MissingDefinitionFromParent(cfg: Config, name: string)
    requires name !in cfg.definitions && cfg.parent.Parent?
    ensures MergedBeanDefinition(cfg, name) ==
      if cfg.parent.mergedDefinition.Some? then cfg.parent.mergedDefinition.value(name) else Err(BeanDefinitionStore(name))
  {
  }

  /** The value a merged child property has: the child's own when it sets one, else the parent's. */
  lemma {:induction false} MergedPropertyValue(cfg: Config, child: string, parentName: string, props: PropertyValues, singleton: bool,
                                               cls: ClassName, parentProps: PropertyValues, parentSingleton: bool, prop: string)
    requires child in cfg.definitions && cfg.definitions[child] == ChildDef(parentName, props, singleton)
    requires parentName in cfg.definitions && cfg.definitions[parentName] == RootDef(cls, parentProps, parentSingleton)
    ensures MergedBeanDefinition(cfg, child).Ok?
    ensures Lookup(MergedBeanDefinition(cfg, child).value.props, prop) ==
      if prop in Names(props) then Some(LastValue(props, prop)) else Lookup(parentProps, prop)
  {
    ChildOfRootMerges(cfg, child, parentName, props, singleton, cls, parentProps, parentSingleton);
    MergeLookup(parentProps, props, prop);
  }
}

=== FILE: bean_factory_spec.dfy ===
/**
 * The bean-retrieval engine of AbstractBeanFactory as functions over the factory's
 * state: name transformation, the in-flight map that breaks circular references,
 * the singleton cache, FactoryBean dereferencing, merged (child -> parent)
 * definitions, resolution of property values, lifecycle callbacks and the fallback
 * to a parent factory.
 *
 * Each function returns a `Step`: its result (a value or the exception it throws),
 * the factory state afterwards and the in-flight map afterwards (the map of beans
 * created during the current top-level request, keyed by the name they were
 * created under). The recursion getBeanInternal -> getSharedInstance -> createBean
 * -> applyPropertyValues -> resolveReference -> getBeanInternal only closes when
 * the references run out; `fuel` bounds its depth and stands for the JVM stack:
 * when it is exhausted the result is `Unbounded`, the model of a StackOverflowError.
 */
module BeanFactorySpec {
  import opened Outcomes
  import opened Strings
  import opened Beans

  /** Prefix that asks for a FactoryBean itself rather than the object it produces. */
  const FACTORY_BEAN_PREFIX: string := "&"

  /** A bean definition as the concrete factory's getBeanDefinition returns it. */
  datatype Def =
    | RootDef(beanClass: ClassName, props: PropertyValues, singleton: bool)
    | ChildDef(parentName: string, props: PropertyValues, singleton: bool)

  /** A merged definition: the RootBeanDefinition that getMergedBeanDefinition builds. */
  datatype MergedDef = MergedDef(beanClass: ClassName, props: PropertyValues, singleton: bool)

  /** The exceptions of the bean factory; `Unbounded` stands for a StackOverflowError. */
  datatype BeansError =
    | NoSuchBeanDefinition(missing: Option<string>)
      /** FatalBeanException from resolveReference; `fromProperty` is the name it was given for diagnostics. */
    | CannotResolveReference(beanName: string, fromProperty: string, cause: BeansError)
    | BeanIsNotAFactory(name: string, instance: Obj)
    | BeanNotOfRequiredType(name: string, requiredType: ClassName, actualType: ClassName)
      /** BeanDefinitionStoreException: inheritance from a parent factory that is not an AbstractBeanFactory. */
    | BeanDefinitionStore(name: string)
      /** BeanDefinitionStoreException: an ArrayStoreException while converting a managed list to an array. */
    | ArrayConversionFailed(componentType: ClassName)
    | CannotInstantiate(beanClass: ClassName)
    | AfterPropertiesSetFailed(name: string)
    | SetBeanFactoryFailed(name: string)
    | Unbounded

  /** How setBeanFactory fails: a BeansException (rethrown as it is) or any other exception. */
  datatype CallbackFailure = BeansFailure(error: BeansError) | OtherFailure

  /** What reflection (BeanWrapperImpl, instanceof, Class) answers about classes and objects. */
  datatype Reflection = Reflection(
    instantiable: ClassName -> bool,
    isFactoryBean: ClassName -> bool,
    /** factory.getObject() when it is the n-th call the factory makes to outside code. */
    getObject: (Obj, nat) -> Obj,
    passThrough: Obj -> Option<PropertyValues>,
    isInitializingBean: ClassName -> bool,
    afterPropertiesSetFails: Obj -> bool,
    isBeanFactoryAware: ClassName -> bool,
    /** What setBeanFactory(this) on a BeanFactoryAware bean throws, if anything. */
    setBeanFactory: Obj -> Option<CallbackFailure>,
    /** assignable(required, actual): required.isAssignableFrom(actual) */
    assignable: (ClassName, ClassName) -> bool,
    /** The component type of property `name` of class `cls` when that property is an array. */
    arrayComponent: (ClassName, string) -> Option<ClassName>,
    /** doTypeConversionIfNecessary of one element; None is an ArrayStoreException. */
    convert: (Value, ClassName) -> Option<Value>)

  /** The parent bean factory, seen from outside. */
  datatype ParentFactory =
    | NoParent
    | Parent(
        /** parent.getBean(name) when it is the n-th call the factory makes to outside code. */
        getBean: (string, nat) -> Result<Obj, BeansError>,
        isSingleton: string -> Result<bool, BeansError>,
        /** The parent's getMergedBeanDefinition; None when the parent is not an AbstractBeanFactory. */
        mergedDefinition: Option<string -> Result<MergedDef, BeansError>>)

  /** What does not change while beans are retrieved. */
  datatype Config = Config(
    definitions: map<string, Def>,
    aliases: map<string, string>,
    parent: ParentFactory,
    env: Reflection)

  datatype Callback = AfterPropertiesSet(target: Obj) | SetBeanFactory(target: Obj)

  /**
   * The factory's shared-instance cache, plus the part of the heap the factory touches:
   * the properties set on each object, the number of objects created so far (the next
   * fresh identity), the lifecycle callbacks made, in order, and the number of calls made
   * to code outside the factory whose answers may differ from call to call (the parent's
   * getBean and a FactoryBean's getObject).
   */
  datatype State = State(
    cache: map<string, Obj>,
    fields: map<nat, map<string, Value>>,
    nextId: nat,
    callbacks: seq<Callback>,
    outsideCalls: nat)

  datatype Step<T> = Step(result: Result<T, BeansError>, st: State, inFlight: map<string, Obj>)

  /** Only singleton definitions of this factory are ever cached. */
  ghost predicate CacheInv(cfg: Config, st: State) {
    forall n :: n in st.cache ==> n in cfg.definitions && cfg.definitions[n].singleton
  }

  predicate IsNoSuchBean<T>(r: Result<T, BeansError>) {
    r.Err? && r.error.NoSuchBeanDefinition?
  }

  function FieldsOf(st: State, o: Obj): map<string, Value> {
    if o.id in st.fields then st.fields[o.id] else map[]
  }

  // ---------------------------------------------------------------------------------------
  // Names
  // ---------------------------------------------------------------------------------------

  predicate IsFactoryDereference(name: string) {
    StartsWith(name, FACTORY_BEAN_PREFIX)
  }

  /** transformedBeanName: strip one leading "&", then map through the alias map once. */
  function TransformedBeanName(aliases: map<string, string>, name: string): (r: string)
    ensures r in aliases.Values || r == name || (IsFactoryDereference(name) && r == name[1..])
    ensures !IsFactoryDereference(name) && name !in aliases ==> r == name
  {
    var stripped := if IsFactoryDereference(name) then name[|FACTORY_BEAN_PREFIX|..] else name;
    if stripped in aliases then aliases[stripped] else stripped
  }

  // ---------------------------------------------------------------------------------------
  // Merged definitions
  // ---------------------------------------------------------------------------------------

  /** getMergedBeanDefinition(name). */
  function MergedBeanDefinition(cfg: Config, name: string): (r: Result<MergedDef, BeansError>)
    ensures name in cfg.definitions && cfg.definitions[name].RootDef? ==>
      var d := cfg.definitions[name]; r == Ok(MergedDef(d.beanClass, d.props, d.singleton))
    ensures name !in cfg.definitions && cfg.parent.NoParent? ==> r == Err(NoSuchBeanDefinition(Some(name)))
    ensures name !in cfg.definitions && cfg.parent.Parent? ==>
      r == if cfg.parent.mergedDefinition.Some? then cfg.parent.mergedDefinition.value(name) else Err(BeanDefinitionStore(name))
  {
    MergedFrom(cfg, name, {})
  }

  /**
   * getMergedBeanDefinition, with `visited` the child definitions already being merged
   * further up the recursion: reaching one of them again recurses forever.
   */
  function MergedFrom(cfg: Config, name: string, visited: set<string>): (r: Result<MergedDef, BeansError>)
    ensures name in cfg.definitions && cfg.definitions[name].RootDef? ==>
      var d := cfg.definitions[name]; r == Ok(MergedDef(d.beanClass, d.props, d.singleton))
    ensures name in cfg.definitions && cfg.definitions[name].ChildDef? && name in visited ==> r == Err(Unbounded)
    // a merged child takes its class and singleton flag from its merged parent, and fails as that does
    ensures name in cfg.definitions && cfg.definitions[name].ChildDef? && name !in visited ==>
      var p := MergedFrom(cfg, cfg.definitions[name].parentName, visited + {name});
      (p.Ok? ==> r.Ok? && r.value.beanClass == p.value.beanClass && r.value.singleton == p.value.singleton) &&
      (p.Err? && !IsNoSuchBean(p) ==> r == p)
    ensures name !in cfg.definitions && cfg.parent.NoParent? ==> r == Err(NoSuchBeanDefinition(Some(name)))
    decreases cfg.definitions.Keys - visited
  {
    var local :=
      if name !in cfg.definitions then Err(NoSuchBeanDefinition(Some(name)))
      else match cfg.definitions[name]
        case RootDef(cls, props, singleton) => Ok(MergedDef(cls, props, singleton))
        case ChildDef(parentName, props, _) =>
          if name in visited then Err(Unbounded)
          else
            var p := MergedFrom(cfg, parentName, visited + {name});
            if p.Err? then p else Ok(p.value.(props := Merge(p.value.props, props)));
    if IsNoSuchBean(local) then
      match cfg.parent
      case NoParent => local
      case Parent(_, _, merged) =>
        if merged.None? then Err(BeanDefinitionStore(name)) else merged.value(name)
    else local
  }

  // ---------------------------------------------------------------------------------------
  // Retrieval
  // ---------------------------------------------------------------------------------------

  /** getBean(name): a request with an empty in-flight map. */
  function GetBean(cfg: Config, name: Option<string>, st: State, fuel: nat): (r: Step<Obj>)
    ensures name.None? ==> r == Step(Err(NoSuchBeanDefinition(None)), st, map[])
    ensures st.nextId <= r.st.nextId
    ensures CacheInv(cfg, st) ==> CacheInv(cfg, r.st)
  {
    GetBeanInternal(cfg, name, map[], st, fuel)
  }

  /** getBeanInternal: null names fail, in-flight names are answered from the map, then the local lookup, then the parent. */
  function GetBeanInternal(cfg: Config, name: Option<string>, inFlight: map<string, Obj>, st: State, fuel: nat): (r: Step<Obj>)
    ensures st.nextId <= r.st.nextId
    ensures CacheInv(cfg, st) ==> CacheInv(cfg, r.st)
    decreases fuel, 9, 0
  {
    if name.None? then Step(Err(NoSuchBeanDefinition(None)), st, inFlight)
    else if name.value in inFlight then Step(Ok(inFlight[name.value]), st, inFlight)
    else
      var attempt := LocalBean(cfg, name.value, inFlight, st, fuel);
      if IsNoSuchBean(attempt.result) && cfg.parent.Parent? then
        var calls := attempt.st.outsideCalls;
        Step(cfg.parent.getBean(name.value, calls), attempt.st.(outsideCalls := calls + 1), attempt.inFlight)
      else attempt
  }

  /** The try block of getBeanInternal: a singleton goes through the cache, a prototype is created under the name as given. */
  function LocalBean(cfg: Config, name: string, inFlight: map<string, Obj>, st: State, fuel: nat): (r: Step<Obj>)
    ensures st.nextId <= r.st.nextId
    ensures CacheInv(cfg, st) ==> CacheInv(cfg, r.st)
    decreases fuel, 8, 0
  {
    var canonical := TransformedBeanName(cfg.aliases, name);
    if canonical !in cfg.definitions then Step(Err(NoSuchBeanDefinition(Some(canonical))), st, inFlight)
    else if cfg.definitions[canonical].singleton then GetSharedInstance(cfg, name, inFlight, st, fuel)
    else CreateBean(cfg, name, inFlight, st, fuel)
  }

  /** getSharedInstance: the cached object, or one created under the canonical name and then cached. */
  function GetSharedInstance(cfg: Config, pname: string, inFlight: map<string, Obj>, st: State, fuel: nat): (r: Step<Obj>)
    requires TransformedBeanName(cfg.aliases, pname) in cfg.definitions
    requires cfg.definitions[TransformedBeanName(cfg.aliases, pname)].singleton
    ensures st.nextId <= r.st.nextId
    ensures CacheInv(cfg, st) ==> CacheInv(cfg, r.st)
    ensures r.result.Ok? ==> TransformedBeanName(cfg.aliases, pname) in r.st.cache
    decreases fuel, 7, 0
  {
    var name := TransformedBeanName(cfg.aliases, pname);
    if name in st.cache then Dereference(cfg, pname, name, st.cache[name], st, inFlight)
    else
      var c := CreateBean(cfg, name, inFlight, st, fuel);
      if c.result.Err? then c
      else Dereference(cfg, pname, name, c.result.value, c.st.(cache := c.st.cache[name := c.result.value]), c.inFlight)
  }

  /**
   * The end of getSharedInstance: "&name" must denote a FactoryBean; a FactoryBean asked for
   * without "&" is replaced by the object it produces on this call, with its pass-through
   * properties set on that object.
   */
  function Dereference(cfg: Config, pname: string, name: string, o: Obj, st: State, inFlight: map<string, Obj>): (r: Step<Obj>)
    ensures r.result.Err? <==> IsFactoryDereference(pname) && !cfg.env.isFactoryBean(o.cls)
    ensures r.result.Err? ==> r.result.error == BeanIsNotAFactory(name, o)
    ensures r.result.Ok? ==>
      r.result.value == if cfg.env.isFactoryBean(o.cls) && !IsFactoryDereference(pname) then cfg.env.getObject(o, st.outsideCalls) else o
    // a product is asked for once, and only the product's properties change
    ensures cfg.env.isFactoryBean(o.cls) && !IsFactoryDereference(pname) ==>
      var product := cfg.env.getObject(o, st.outsideCalls);
      var asked := st.(outsideCalls := st.outsideCalls + 1);
      r.st == if cfg.env.passThrough(o).None? then asked
              else asked.(fields := asked.fields[product.id := ApplyTo(FieldsOf(st, product), cfg.env.passThrough(o).value)])
    // anything else, the factory itself included, is returned with no effect
    ensures !cfg.env.isFactoryBean(o.cls) || IsFactoryDereference(pname) ==> r.st == st
    ensures r.st.cache == st.cache && r.st.nextId == st.nextId && r.inFlight == inFlight
  {
    var factory := cfg.env.isFactoryBean(o.cls);
    if IsFactoryDereference(pname) && !factory then Step(Err(BeanIsNotAFactory(name, o)), st, inFlight)
    else if factory && !IsFactoryDereference(pname) then
      var product := cfg.env.getObject(o, st.outsideCalls);
      var st1 := st.(outsideCalls := st.outsideCalls + 1);
      match cfg.env.passThrough(o)
      case None => Step(Ok(product), st1, inFlight)
      case Some(pvs) =>
        Step(Ok(product), st1.(fields := st1.fields[product.id := ApplyTo(FieldsOf(st1, product), pvs)]), inFlight)
    else Step(Ok(o), st, inFlight)
  }

  /**
   * createBean: a fresh instance of the merged definition's class, registered in the in-flight
   * map under `name` before its properties are resolved and set, then the lifecycle callbacks.
   */
  function CreateBean(cfg: Config, name: string, inFlight: map<string, Obj>, st: State, fuel: nat): (r: Step<Obj>)
    ensures st.nextId <= r.st.nextId
    ensures CacheInv(cfg, st) ==> CacheInv(cfg, r.st)
    ensures MergedBeanDefinition(cfg, name).Err? ==> r == Step(Err(MergedBeanDefinition(cfg, name).error), st, inFlight)
    ensures r.result.Ok? ==> (MergedBeanDefinition(cfg, name).Ok? && st.nextId < r.st.nextId &&
      r.result.value == Obj(st.nextId, MergedBeanDefinition(cfg, name).value.beanClass))
    decreases fuel, 6, 0
  {
    var md := MergedBeanDefinition(cfg, name);
    if md.Err? then Step(Err(md.error), st, inFlight)
    else
      var cls := md.value.beanClass;
      if !cfg.env.instantiable(cls) then Step(Err(CannotInstantiate(cls)), st, inFlight)
      else
        var o := Obj(st.nextId, cls);
        var st1 := st.(nextId := st.nextId + 1, fields := st.fields[o.id := map[]]);
        var resolved := ResolveProperties(cfg, o, md.value.props, 0, inFlight[name := o], st1, fuel);
        if resolved.result.Err? then Step(Err(resolved.result.error), resolved.st, resolved.inFlight)
        else
          var fields := ApplyTo(FieldsOf(resolved.st, o), resolved.result.value);
          Lifecycle(cfg, name, o, resolved.st.(fields := resolved.st.fields[o.id := fields]), resolved.inFlight)
  }

  /**
   * callLifecycleMethodsIfNecessary: afterPropertiesSet for an InitializingBean, then
   * setBeanFactory for a BeanFactoryAware bean. Any exception from afterPropertiesSet becomes
   * a FatalBeanException; a BeansException from setBeanFactory is rethrown as it is.
   */
  function Lifecycle(cfg: Config, name: string, o: Obj, st: State, inFlight: map<string, Obj>): (r: Step<Obj>)
    ensures r.result.Ok? ==> r.result.value == o
    ensures r.st == st.(callbacks := r.st.callbacks) && r.inFlight == inFlight
    ensures var env := cfg.env;
      var initFails := env.isInitializingBean(o.cls) && env.afterPropertiesSetFails(o);
      var aware := env.isBeanFactoryAware(o.cls) && !initFails;
      r.st.callbacks == st.callbacks + (if env.isInitializingBean(o.cls) then [AfterPropertiesSet(o)] else []) +
                                       (if aware then [SetBeanFactory(o)] else []) &&
      (initFails ==> r.result == Err(AfterPropertiesSetFailed(name))) &&
      (aware && env.setBeanFactory(o) == Some(OtherFailure) ==> r.result == Err(SetBeanFactoryFailed(name))) &&
      (aware && env.setBeanFactory(o).Some? && env.setBeanFactory(o).value.BeansFailure? ==>
         r.result == Err(env.setBeanFactory(o).value.error)) &&
      (r.result.Ok? <==> !initFails && (!aware || env.setBeanFactory(o).None?))
  {
    var env := cfg.env;
    var st1 := if env.isInitializingBean(o.cls) then st.(callbacks := st.callbacks + [AfterPropertiesSet(o)]) else st;
    if env.isInitializingBean(o.cls) && env.afterPropertiesSetFails(o) then Step(Err(AfterPropertiesSetFailed(name)), st1, inFlight)
    else
      var st2 := if env.isBeanFactoryAware(o.cls) then st1.(callbacks := st1.callbacks + [SetBeanFactory(o)]) else st1;
      if !env.isBeanFactoryAware(o.cls) then Step(Ok(o), st2, inFlight)
      else match env.setBeanFactory(o)
        case None => Step(Ok(o), st2, inFlight)
        case Some(BeansFailure(e)) => Step(Err(e), st2, inFlight)
        case Some(OtherFailure) => Step(Err(SetBeanFactoryFailed(name)), st2, inFlight)
  }

  // ---------------------------------------------------------------------------------------
  // Resolution of property values
  // ---------------------------------------------------------------------------------------

  /** The loop of applyPropertyValues: each property of pvs[k..] resolved in order, names kept. */
  function ResolveProperties(cfg: Config, o: Obj, pvs: PropertyValues, k: nat, inFlight: map<string, Obj>, st: State, fuel: nat): (r: Step<PropertyValues>)
    requires k <= |pvs|
    ensures st.nextId <= r.st.nextId
    ensures CacheInv(cfg, st) ==> CacheInv(cfg, r.st)
    ensures !IsNoSuchBean(r.result)
    ensures r.result.Ok? ==> (|r.result.value| == |pvs| - k &&
      forall i :: 0 <= i < |r.result.value| ==> r.result.value[i].name == pvs[k + i].name)
    // plain values are set as they are; a reference is set to the object it resolved to
    ensures r.result.Ok? ==> forall i :: 0 <= i < |r.result.value| ==>
      (Unmanaged(pvs[k + i].value) ==> r.result.value[i].value == pvs[k + i].value) &&
      (pvs[k + i].value.Reference? ==> r.result.value[i].value.Instance?)
    decreases fuel, 5, |pvs| - k
  {
    if k == |pvs| then Step(Ok([]), st, inFlight)
    else
      var v := ResolveValue(cfg, o, pvs[k], inFlight, st, fuel);
      if v.result.Err? then Step(Err(v.result.error), v.st, v.inFlight)
      else
        var rest := ResolveProperties(cfg, o, pvs, k + 1, v.inFlight, v.st, fuel);
        if rest.result.Err? then rest
        else Step(Ok([PropertyValue(pvs[k].name, v.result.value)] + rest.result.value), rest.st, rest.inFlight)
  }

  /** A value resolveValueIfNecessary keeps as it is: not a reference, managed list or managed map. */
  predicate Unmanaged(v: Value) {
    !v.Reference? && !v.ManagedList? && !v.ManagedMap?
  }

  /**
   * resolveValueIfNecessary: references, managed lists and managed maps are resolved; other
   * values are kept. A managed list for an array-typed property becomes an array.
   */
  function ResolveValue(cfg: Config, o: Obj, pv: PropertyValue, inFlight: map<string, Obj>, st: State, fuel: nat): (r: Step<Value>)
    ensures st.nextId <= r.st.nextId
    ensures CacheInv(cfg, st) ==> CacheInv(cfg, r.st)
    ensures !IsNoSuchBean(r.result)
    ensures Unmanaged(pv.value) ==> r == Step(Ok(pv.value), st, inFlight)
    ensures pv.value.Reference? ==> var s := ResolveReference(cfg, pv.name, pv.value.beanName, inFlight, st, fuel);
      r == Step(if s.result.Ok? then Ok(Instance(s.result.value)) else Err(s.result.error), s.st, s.inFlight)
    decreases fuel, 4, 0
  {
    var v :=
      match pv.value
      case Reference(ref) =>
        var s := ResolveReference(cfg, pv.name, ref, inFlight, st, fuel);
        Step(if s.result.Ok? then Ok(Instance(s.result.value)) else Err(s.result.error), s.st, s.inFlight)
      case ManagedList(elements) =>
        var s := ResolveManagedList(cfg, pv.name, elements, 0, inFlight, st, fuel);
        Step(if s.result.Ok? then Ok(ManagedList(s.result.value)) else Err(s.result.error), s.st, s.inFlight)
      case ManagedMap(entries) =>
        var s := ResolveManagedMap(cfg, pv.name, entries, 0, inFlight, st, fuel);
        Step(if s.result.Ok? then Ok(ManagedMap(s.result.value)) else Err(s.result.error), s.st, s.inFlight)
      case _ => Step(Ok(pv.value), st, inFlight);
    if v.result.Ok? && v.result.value.ManagedList? && cfg.env.arrayComponent(o.cls, pv.name).Some? then
      var component := cfg.env.arrayComponent(o.cls, pv.name).value;
      match ConvertElements(cfg.env, v.result.value.elements, component)
      case None => Step(Err(ArrayConversionFailed(component)), v.st, v.inFlight)
      case Some(converted) => Step(Ok(ArrayOf(component, converted)), v.st, v.inFlight)
    else v
  }

  /** managedListToArray: every element converted to the component type, or None when one cannot be stored. */
  function ConvertElements(env: Reflection, elements: seq<Value>, component: ClassName): (r: Option<seq<Value>>)
    ensures r.Some? ==> (|r.value| == |elements| &&
      forall i :: 0 <= i < |elements| ==> env.convert(elements[i], component) == Some(r.value[i]))
    ensures r.None? ==> exists i :: 0 <= i < |elements| && env.convert(elements[i], component).None?
  {
    if elements == [] then Some([])
    else
      var head := env.convert(elements[0], component);
      var tail := ConvertElements(env, elements[1..], component);
      if head.None? then None
      else if tail.None? then
        var i :| 0 <= i < |elements[1..]| && env.convert(elements[1..][i], component).None?;
        assert elements[i + 1] == elements[1..][i];
        None
      else
        var r := [head.value] + tail.value;
        assert forall i :: 1 <= i < |elements| ==> elements[i] == elements[1..][i - 1] && r[i] == tail.value[i - 1];
        Some(r)
  }

  /**
   * resolveReference: getBeanInternal of the referenced name. Its exceptions become a
   * FatalBeanException (`CannotResolveReference`), except running out of stack, which is no
   * BeansException and passes through.
   */
  function ResolveReference(cfg: Config, fromProperty: string, ref: string, inFlight: map<string, Obj>, st: State, fuel: nat): (r: Step<Obj>)
    ensures st.nextId <= r.st.nextId
    ensures CacheInv(cfg, st) ==> CacheInv(cfg, r.st)
    ensures r.result.Err? ==> r.result.error.CannotResolveReference? || r.result.error == Unbounded
    ensures ref in inFlight && fuel > 0 ==> r == Step(Ok(inFlight[ref]), st, inFlight)
    decreases fuel, 1, 0
  {
    if fuel == 0 then Step(Err(Unbounded), st, inFlight)
    else
      var g := GetBeanInternal(cfg, Some(ref), inFlight, st, fuel - 1);
      if g.result.Err? && g.result.error != Unbounded then
        Step(Err(CannotResolveReference(ref, fromProperty, g.result.error)), g.st, g.inFlight)
      else g
  }

  /** resolveManagedList: the bean references among l[k..] resolved, other elements kept. */
  function ResolveManagedList(cfg: Config, fromProperty: string, l: seq<Value>, k: nat, inFlight: map<string, Obj>, st: State, fuel: nat): (r: Step<seq<Value>>)
    requires k <= |l|
    ensures st.nextId <= r.st.nextId
    ensures CacheInv(cfg, st) ==> CacheInv(cfg, r.st)
    ensures !IsNoSuchBean(r.result)
    ensures r.result.Ok? ==> (|r.result.value| == |l| - k &&
      forall i :: 0 <= i < |r.result.value| ==> (l[k + i].Reference? <==> r.result.value[i] != l[k + i] && r.result.value[i].Instance?))
    ensures r.result.Ok? ==> forall i :: 0 <= i < |r.result.value| && !l[k + i].Reference? ==> r.result.value[i] == l[k + i]
    decreases fuel, 2, |l| - k
  {
    if k == |l| then Step(Ok([]), st, inFlight)
    else
      var e :=
        if l[k].Reference? then
          var s := ResolveReference(cfg, fromProperty, l[k].beanName, inFlight, st, fuel);
          Step(if s.result.Ok? then Ok(Instance(s.result.value)) else Err(s.result.error), s.st, s.inFlight)
        else Step(Ok(l[k]), st, inFlight);
      if e.result.Err? then Step(Err(e.result.error), e.st, e.inFlight)
      else
        var rest := ResolveManagedList(cfg, fromProperty, l, k + 1, e.inFlight, e.st, fuel);
        if rest.result.Err? then rest
        else Step(Ok([e.result.value] + rest.result.value), rest.st, rest.inFlight)
  }

  /** resolveManagedMap: values of entries[k..] that are references or managed lists resolved, keys kept. */
  function ResolveManagedMap(cfg: Config, fromProperty: string, entries: seq<MapEntry>, k: nat, inFlight: map<string, Obj>, st: State, fuel: nat): (r: Step<seq<MapEntry>>)
    requires k <= |entries|
    ensures st.nextId <= r.st.nextId
    ensures CacheInv(cfg, st) ==> CacheInv(cfg, r.st)
    ensures !IsNoSuchBean(r.result)
    ensures r.result.Ok? ==> (|r.result.value| == |entries| - k &&
      forall i :: 0 <= i < |r.result.value| ==> r.result.value[i].key == entries[k + i].key)
    // other values are kept; a reference becomes an object, a managed list a list of the same length
    ensures r.result.Ok? ==> forall i :: 0 <= i < |r.result.value| ==>
      (!entries[k + i].value.Reference? && !entries[k + i].value.ManagedList? ==> r.result.value[i].value == entries[k + i].value) &&
      (entries[k + i].value.Reference? ==> r.result.value[i].value.Instance?) &&
      (entries[k + i].value.ManagedList? ==>
         r.result.value[i].value.ManagedList? && |r.result.value[i].value.elements| == |entries[k + i].value.elements|)
    decreases fuel, 3, |entries| - k
  {
    if k == |entries| then Step(Ok([]), st, inFlight)
    else
      var entry := entries[k];
      var e := ResolveMapValue(cfg, fromProperty, entry.value, inFlight, st, fuel);
      if e.result.Err? then Step(Err(e.result.error), e.st, e.inFlight)
      else
        var rest := ResolveManagedMap(cfg, fromProperty, entries, k + 1, e.inFlight, e.st, fuel);
        if rest.result.Err? then rest
        else
          var resolved := [MapEntry(entry.key, e.result.value)] + rest.result.value;
          assert forall i :: 1 <= i < |resolved| ==> resolved[i] == rest.result.value[i - 1] && entries[k + i] == entries[k + 1 + (i - 1)];
          Step(Ok(resolved), rest.st, rest.inFlight)
  }

  /** The body of resolveManagedMap's loop: a reference or a managed list is resolved, any other value kept. */
  function ResolveMapValue(cfg: Config, fromProperty: string, v: Value, inFlight: map<string, Obj>, st: State, fuel: nat): (r: Step<Value>)
    ensures st.nextId <= r.st.nextId
    ensures CacheInv(cfg, st) ==> CacheInv(cfg, r.st)
    ensures !IsNoSuchBean(r.result)
    ensures !v.Reference? && !v.ManagedList? ==> r == Step(Ok(v), st, inFlight)
    ensures v.Reference? ==> var s := ResolveReference(cfg, fromProperty, v.beanName, inFlight, st, fuel);
      r == Step(if s.result.Ok? then Ok(Instance(s.result.value)) else Err(s.result.error), s.st, s.inFlight)
    ensures v.ManagedList? && r.result.Ok? ==> r.result.value.ManagedList? && |r.result.value.elements| == |v.elements|
    decreases fuel, 3, 0
  {
    match v
    case Reference(ref) =>
      var s := ResolveReference(cfg, fromProperty, ref, inFlight, st, fuel);
      Step(if s.result.Ok? then Ok(Instance(s.result.value)) else Err(s.result.error), s.st, s.inFlight)
    case ManagedList(elements) =>
      var s := ResolveManagedList(cfg, fromProperty, elements, 0, inFlight, st, fuel);
      Step(if s.result.Ok? then Ok(ManagedList(s.result.value)) else Err(s.result.error), s.st, s.inFlight)
    case _ => Step(Ok(v), st, inFlight)
  }

  // ---------------------------------------------------------------------------------------
  // Typed retrieval and singleton queries
  // ---------------------------------------------------------------------------------------

  /** getBean(name, requiredType): the bean if its class is assignable to the required type. */
  function GetBeanOfType(cfg: Config, name: Option<string>, requiredType: ClassName, st: State, fuel: nat): (r: Step<Obj>)
    ensures var g := GetBean(cfg, name, st, fuel);
      r.st == g.st &&
      (r.result.Ok? <==> g.result.Ok? && cfg.env.assignable(requiredType, g.result.value.cls)) &&
      (r.result.Ok? ==> r.result == g.result) &&
      (g.result.Ok? && !cfg.env.assignable(requiredType, g.result.value.cls) ==>
         r.result == Err(BeanNotOfRequiredType(name.value, requiredType, g.result.value.cls))) &&
      (g.result.Err? ==> r.result == g.result)
  {
    var g := GetBean(cfg, name, st, fuel);
    if g.result.Ok? && !cfg.env.assignable(requiredType, g.result.value.cls) then
      Step(Err(BeanNotOfRequiredType(name.value, requiredType, g.result.value.cls)), g.st, g.inFlight)
    else g
  }

  /** isSingleton: the local definition's flag, else the parent's answer for the transformed name. */
  function IsSingleton(cfg: Config, pname: string): (r: Result<bool, BeansError>)
    ensures var name := TransformedBeanName(cfg.aliases, pname);
      (name in cfg.definitions ==> r == Ok(cfg.definitions[name].singleton)) &&
      (name !in cfg.definitions && cfg.parent.Parent? ==> r == cfg.parent.isSingleton(name)) &&
      (name !in cfg.definitions && cfg.parent.NoParent? ==> r == Err(NoSuchBeanDefinition(Some(name))))
  {
    var name := TransformedBeanName(cfg.aliases, pname);
    if name in cfg.definitions then Ok(cfg.definitions[name].singleton)
    else if cfg.parent.Parent? then cfg.parent.isSingleton(name)
    else Err(NoSuchBeanDefinition(Some(name)))
  }
}

=== FILE: beans.dfy ===
/**
 * Values held in bean definitions and bean properties: runtime bean references,
 * managed lists and maps, and the ordered property-value lists of
 * MutablePropertyValues, with the override-by-name merge the bean factory uses
 * to combine a child definition with its parent.
 */
module Beans {
  import opened Outcomes

  /** A Java class, known by its fully qualified name. */
  type ClassName = string

  /** A Java object created by reflection: an identity and its runtime class. */
  datatype Obj = Obj(id: nat, cls: ClassName)

  /** The value of a property, as held in a definition or set on a bean. */
  datatype Value =
    | Null
      /** An ordinary value, such as a String read from a bean definition file. */
    | Text(text: string)
      /** A resolved reference to an object. */
    | Instance(obj: Obj)
      /** A RuntimeBeanReference: the name of another bean in the factory. */
    | Reference(beanName: string)
      /** A ManagedList, whose elements may be bean references. */
    | ManagedList(elements: seq<Value>)
      /** A ManagedMap, whose values may be bean references or managed lists; entries in iteration order. */
    | ManagedMap(entries: seq<MapEntry>)
      /** A Java array with the given component type. */
    | ArrayOf(componentType: ClassName, elements: seq<Value>)

  datatype MapEntry = MapEntry(key: string, value: Value)

  datatype PropertyValue = PropertyValue(name: string, value: Value)

  /** The contents of a MutablePropertyValues, in order. */
  type PropertyValues = seq<PropertyValue>

  function Names(pvs: PropertyValues): set<string> {
    set k | 0 <= k < |pvs| :: pvs[k].name
  }

  /** getPropertyValue(name): the value of the first property with that name, or null. */
  function Lookup(pvs: PropertyValues, name: string): (r: Option<Value>)
    ensures r.Some? <==> name in Names(pvs)
  {
    if pvs == [] then None
    else if pvs[0].name == name then Some(pvs[0].value)
    else
      var r := Lookup(pvs[1..], name);
      assert Names(pvs) == {pvs[0].name} + Names(pvs[1..]) by { NamesCons(pvs); }
      r
  }

  /** The value of the last property named `name`: the one that wins when the properties are applied in order. */
  function LastValue(pvs: PropertyValues, name: string): Value
    requires name in Names(pvs)
  {
    var k := |pvs| - 1;
    if pvs[k].name == name then pvs[k].value
    else
      assert name in Names(pvs[..k]) by { NamesSnoc(pvs); }
      LastValue(pvs[..k], name)
  }

  lemma NamesCons(pvs: PropertyValues)
    requires pvs != []
    ensures Names(pvs) == {pvs[0].name} + Names(pvs[1..])
  {
    forall n | n in Names(pvs) ensures n in {pvs[0].name} + Names(pvs[1..]) {
      var k :| 0 <= k < |pvs| && pvs[k].name == n;
      if k > 0 { assert pvs[1..][k - 1] == pvs[k]; }
    }
    forall n | n in Names(pvs[1..]) ensures n in Names(pvs) {
      var k :| 0 <= k < |pvs[1..]| && pvs[1..][k].name == n;
      assert pvs[k + 1] == pvs[1..][k];
    }
  }

  lemma NamesSnoc(pvs: PropertyValues)
    requires pvs != []
    ensures Names(pvs) == Names(pvs[..|pvs| - 1]) + {pvs[|pvs| - 1].name}
  {
    var init := pvs[..|pvs| - 1];
    forall n | n in Names(pvs) ensures n in Names(init) + {pvs[|pvs| - 1].name} {
      var k :| 0 <= k < |pvs| && pvs[k].name == n;
      if k < |pvs| - 1 { assert init[k] == pvs[k]; }
    }
    forall n | n in Names(init) ensures n in Names(pvs) {
      var k :| 0 <= k < |init| && init[k].name == n;
      assert pvs[k] == init[k];
    }
  }

  // ---------------------------------------------------------------------------------------
  // MutablePropertyValues.addOrOverridePropertyValue and the merge of a child definition
  // ---------------------------------------------------------------------------------------

  /** Replace the first property with the same name in place, or append when there is none. */
  function AddOrOverride(pvs: PropertyValues, pv: PropertyValue): (r: PropertyValues)
    ensures |r| == if pv.name in Names(pvs) then |pvs| else |pvs| + 1
    ensures Names(r) == Names(pvs) + {pv.name}
    ensures forall k :: 0 <= k < |pvs| ==> r[k].name == pvs[k].name
  {
    if pvs == [] then
      assert [pv][0].name == pv.name;
      [pv]
    else
      NamesCons(pvs);
      if pvs[0].name == pv.name then
        var r := [pv] + pvs[1..];
        NamesCons(r);
        assert r[1..] == pvs[1..];
        r
      else
        var tail := AddOrOverride(pvs[1..], pv);
        var r := [pvs[0]] + tail;
        NamesCons(r);
        assert r[1..] == tail;
        assert forall k :: 1 <= k < |pvs| ==> r[k] == tail[k - 1] && pvs[k] == pvs[1..][k - 1];
        r
  }

  lemma {:induction false} AddOrOverrideLookup(pvs: PropertyValues, pv: PropertyValue, name: string)
    ensures Lookup(AddOrOverride(pvs, pv), name) == if name == pv.name then Some(pv.value) else Lookup(pvs, name)
  {
    if pvs != [] && pvs[0].name != pv.name {
      AddOrOverrideLookup(pvs[1..], pv, name);
      var r := AddOrOverride(pvs, pv);
      assert r[1..] == AddOrOverride(pvs[1..], pv);
    }
  }

  /** The loop of AbstractBeanFactory.merge: each override, in order, is added or overrides by name. */
  function Merge(base: PropertyValues, overrides: PropertyValues): (r: PropertyValues)
    ensures Names(r) == Names(base) + Names(overrides)
    ensures |base| <= |r| <= |base| + |overrides|
    ensures forall k :: 0 <= k < |base| ==> r[k].name == base[k].name
  {
    if overrides == [] then base
    else
      var n := |overrides| - 1;
      NamesSnoc(overrides);
      AddOrOverride(Merge(base, overrides[..n]), overrides[n])
  }

  /** A merged property has the value of the last override with its name, else the base value. */
  lemma {:induction false} MergeLookup(base: PropertyValues, overrides: PropertyValues, name: string)
    ensures Lookup(Merge(base, overrides), name) ==
            if name in Names(overrides) then Some(LastValue(overrides, name)) else Lookup(base, name)
  {
    if overrides != [] {
      var n := |overrides| - 1;
      NamesSnoc(overrides);
      AddOrOverrideLookup(Merge(base, overrides[..n]), overrides[n], name);
      MergeLookup(base, overrides[..n], name);
    }
  }

  /** Properties the base has and the overrides do not keep their base value and their position. */
  lemma {:induction false} MergeKeepsBase(base: PropertyValues, overrides: PropertyValues, k: nat)
    requires k < |base| && base[k].name !in Names(overrides)
    ensures Merge(base, overrides)[k] == base[k]
  {
    if overrides != [] {
      var n := |overrides| - 1;
      NamesSnoc(overrides);
      MergeKeepsBase(base, overrides[..n], k);
      AddOrOverrideKeeps(Merge(base, overrides[..n]), overrides[n], k);
    }
  }

  lemma {:induction false} AddOrOverrideKeeps(pvs: PropertyValues, pv: PropertyValue, k: nat)
    requires k < |pvs| && pvs[k].name != pv.name
    ensures AddOrOverride(pvs, pv)[k] == pvs[k]
  {
    if k > 0 && pvs[0].name != pv.name {
      AddOrOverrideKeeps(pvs[1..], pv, k - 1);
    }
  }

  // ---------------------------------------------------------------------------------------
  // BeanWrapper.setPropertyValues and PropertyValues.changesSince
  // ---------------------------------------------------------------------------------------

  /** The fields of an object after each property has been set in order: a later same-named property wins. */
  function ApplyTo(fields: map<string, Value>, pvs: PropertyValues): (r: map<string, Value>)
    ensures r.Keys == fields.Keys + Names(pvs)
  {
    if pvs == [] then fields
    else
      var n := |pvs| - 1;
      NamesSnoc(pvs);
      ApplyTo(fields, pvs[..n])[pvs[n].name := pvs[n].value]
  }

  lemma {:induction false} ApplyToValue(fields: map<string, Value>, pvs: PropertyValues, name: string)
    requires name in fields || name in Names(pvs)
    ensures name in ApplyTo(fields, pvs)
    ensures ApplyTo(fields, pvs)[name] == if name in Names(pvs) then LastValue(pvs, name) else fields[name]
  {
    if pvs != [] {
      var n := |pvs| - 1;
      NamesSnoc(pvs);
      if pvs[n].name != name {
        ApplyToValue(fields, pvs[..n], name);
      }
    }
  }

  /**
   * The properties of `pvs` that are new or have a different value than in `before`.
   * An identical list has no changes.
   */
  function ChangesSince(pvs: PropertyValues, before: PropertyValues): (r: PropertyValues)
    ensures forall k :: 0 <= k < |r| ==> Lookup(before, r[k].name) != Some(r[k].value)
  {
    if pvs == before then []
    else Changed(pvs, before)
  }

  function Changed(pvs: PropertyValues, before: PropertyValues): (r: PropertyValues)
    ensures forall k :: 0 <= k < |r| ==> Lookup(before, r[k].name) != Some(r[k].value)
    ensures |r| <= |pvs|
  {
    if pvs == [] then []
    else
      var rest := Changed(pvs[1..], before);
      if Lookup(before, pvs[0].name) == Some(pvs[0].value) then rest else [pvs[0]] + rest
  }

  /** No change is reported exactly when every property of the new list has the same value in the earlier one. */
  lemma {:induction false} ChangedEmpty(pvs: PropertyValues, before: PropertyValues)
    ensures Changed(pvs, before) == [] <==> forall k :: 0 <= k < |pvs| ==> Lookup(before, pvs[k].name) == Some(pvs[k].value)
  {
    if pvs != [] {
      ChangedEmpty(pvs[1..], before);
      assert forall k :: 1 <= k < |pvs| ==> pvs[k] == pvs[1..][k - 1];
    }
  }
}

=== FILE: jndi.dfy ===
/**
 * AbstractJndiLocator: a JNDI name that always carries the J2EE environment prefix, and the
 * lookup made once the properties are set. The naming service is a parameter of the lookup.
 */
module Jndi {
  import opened Outcomes
  import opened Strings
  import opened Beans

  /** The JNDI prefix of J2EE applications. */
  const PREFIX: string := "java:comp/env/"

  datatype NamingError = NamingError(name: string)

  datatype JndiError =
      /** NullPointerException: setJndiName(null). */
    | NullPointer
      /** The Exception afterPropertiesSet throws when no name is set. */
    | PropertyNotSet(message: string)
      /** The NamingException of the lookup. */
    | Naming(cause: NamingError)

  /** setJndiName's normalisation: the name with the prefix in front, unless it already starts with it. */
  function WithPrefix(name: string): (r: string)
    ensures StartsWith(r, PREFIX)
    ensures StartsWith(name, PREFIX) ==> r == name
    ensures !StartsWith(name, PREFIX) ==> r == PREFIX + name
  {
    if StartsWith(name, PREFIX) then name else PREFIX + name
  }

  /** Setting a name that was read back changes nothing. */
  lemma WithPrefixIdempotent(name: string)
    ensures WithPrefix(WithPrefix(name)) == WithPrefix(name)
  {
  }

  function NotSetMessage(className: string): string {
    "Property 'jndiName' must be set on " + className
  }

  class JndiLocator {
    /** The name of the concrete locator class, for messages. */
    const className: string
    var jndiName: Option<string>
    /** The names looked up so far. */
    var lookups: seq<string>
    /** The objects handed to `located` so far. */
    var located: seq<Obj>

    /** A stored name always carries the prefix. */
    ghost predicate Valid()
      reads this
    {
      jndiName.Some? ==> StartsWith(jndiName.value, PREFIX)
    }

    constructor (className: string)
      ensures Valid()
      ensures this.className == className && jndiName.None? && lookups == [] && located == []
    {
      this.className := className;
      jndiName := None;
      lookups := [];
      located := [];
    }

    /** The constructor with a name; a name always ends up prefixed. */
    constructor WithName(className: string, jndiName: string)
      ensures Valid()
      ensures this.className == className && this.jndiName == Some(WithPrefix(jndiName))
      ensures lookups == [] && located == []
    {
      this.className := className;
      this.jndiName := Some(WithPrefix(jndiName));
      lookups := [];
      located := [];
    }

    /** setJndiName: null is dereferenced; any other name is stored with the prefix. */
    method SetJndiName(jndiName: Option<string>) returns (r: Result<(), JndiError>)
      requires Valid()
      modifies this`jndiName
      ensures Valid()
      ensures jndiName.None? ==> r == Err(NullPointer) && this.jndiName == old(this.jndiName)
      ensures jndiName.Some? ==> r.Ok? && this.jndiName == Some(WithPrefix(jndiName.value))
    {
      if jndiName.None? {
        return Err(NullPointer);
      }
      var name := jndiName.value;
      if !StartsWith(name, PREFIX) {
        name := PREFIX + name;
      }
      this.jndiName := Some(name);
      r := Ok(());
    }

    function GetJndiName(): (r: Option<string>)
      requires Valid()
      reads this
      ensures r.Some? ==> StartsWith(r.value, PREFIX)
    {
      jndiName
    }

    /**
     * afterPropertiesSet: without a name (or with an empty one) nothing is looked up; otherwise
     * the name is looked up once and a found object is passed to `located`.
     */
    method AfterPropertiesSet(lookup: string -> Result<Obj, NamingError>) returns (r: Result<(), JndiError>)
      modifies this`lookups, this`located
      ensures jndiName.None? || jndiName == Some("") ==>
        r == Err(PropertyNotSet(NotSetMessage(className))) && lookups == old(lookups) && located == old(located)
      ensures jndiName.Some? && jndiName != Some("") ==> (
        var found := lookup(jndiName.value);
        lookups == old(lookups) + [jndiName.value] &&
        (found.Ok? ==> r.Ok? && located == old(located) + [found.value]) &&
        (found.Err? ==> r == Err(Naming(found.error)) && located == old(located)))
    {
      if jndiName.None? || jndiName.value == "" {
        return Err(PropertyNotSet(NotSetMessage(className)));
      }
      var name := jndiName.value;
      lookups := lookups + [name];
      var o := lookup(name);
      if o.Err? {
        return Err(Naming(o.error));
      }
      located := located + [o.value];
      r := Ok(());
    }
  }
}

=== FILE: max_value_incrementers.dfy ===
/**
 * AbstractDataFieldMaxValueIncrementer: the template methods that hand out the next key by
 * calling the hook of the concrete incrementer, and the dispatch on the key class by name.
 */
module MaxValueIncrementers {
  import opened Outcomes

  /** The names Class.getName() gives for the key classes the dispatch knows. */
  const INT_NAME: string := "int"
  const INTEGER_NAME: string := "java.lang.Integer"
  const DOUBLE_NAME: string := "double"
  const DOUBLE_CLASS_NAME: string := "java.lang.Double"
  const STRING_NAME: string := "java.lang.String"

  const INVALID_KEY_CLASS: string := "Invalid key class"

  /** An IEEE 754 double, carried by its bits; no arithmetic is done on it. */
  datatype JavaDouble = JavaDouble(bits: bv64)

  /** The answers the hooks of a concrete incrementer give to this call. */
  datatype Hooks = Hooks(incrementIntValue: int, incrementDoubleValue: JavaDouble, incrementStringValue: string)

  datatype Hook = IntHook | DoubleHook | StringHook

  datatype Key = IntKey(i: int) | DoubleKey(d: JavaDouble) | StringKey(s: string)

  datatype IncrementerError = IllegalArgument(message: string)

  /** nextIntValue: the int hook's answer, the same key nextValue gives for int and Integer. */
  function NextIntValue(hooks: Hooks): (r: int)
    ensures NextValue(hooks, INT_NAME).0 == Ok(IntKey(r)) && NextValue(hooks, INTEGER_NAME).0 == Ok(IntKey(r))
  {
    hooks.incrementIntValue
  }

  /** nextDoubleValue: the double hook's answer, the same key nextValue gives for double and Double. */
  function NextDoubleValue(hooks: Hooks): (r: JavaDouble)
    ensures NextValue(hooks, DOUBLE_NAME).0 == Ok(DoubleKey(r)) && NextValue(hooks, DOUBLE_CLASS_NAME).0 == Ok(DoubleKey(r))
  {
    hooks.incrementDoubleValue
  }

  /** nextStringValue: the String hook's answer, the same key nextValue gives for String. */
  function NextStringValue(hooks: Hooks): (r: string)
    ensures NextValue(hooks, STRING_NAME).0 == Ok(StringKey(r))
  {
    hooks.incrementStringValue
  }

  /** The hook nextValue calls for a key class, if it knows the class. */
  function HookFor(keyClass: string): Option<Hook> {
    if keyClass == INT_NAME || keyClass == INTEGER_NAME then Some(IntHook)
    else if keyClass == DOUBLE_NAME || keyClass == DOUBLE_CLASS_NAME then Some(DoubleHook)
    else if keyClass == STRING_NAME then Some(StringHook)
    else None
  }

  /**
   * nextValue(keyClass): the key from the hook for the class, and the hook called. A valid
   * call calls exactly one hook, and returns exactly what that hook returned.
   */
  function NextValue(hooks: Hooks, keyClass: string): (r: (Result<Key, IncrementerError>, Option<Hook>))
    ensures r.0.Ok? <==> r.1.Some?
    ensures r.1 == HookFor(keyClass)
    ensures r.1 == Some(IntHook) ==> r.0 == Ok(IntKey(hooks.incrementIntValue))
    ensures r.1 == Some(DoubleHook) ==> r.0 == Ok(DoubleKey(hooks.incrementDoubleValue))
    ensures r.1 == Some(StringHook) ==> r.0 == Ok(StringKey(hooks.incrementStringValue))
    ensures r.1.None? ==> r.0 == Err(IllegalArgument(INVALID_KEY_CLASS))
  {
    if keyClass == INT_NAME || keyClass == INTEGER_NAME then (Ok(IntKey(hooks.incrementIntValue)), Some(IntHook))
    else if keyClass == DOUBLE_NAME || keyClass == DOUBLE_CLASS_NAME then (Ok(DoubleKey(hooks.incrementDoubleValue)), Some(DoubleHook))
    else if keyClass == STRING_NAME then (Ok(StringKey(hooks.incrementStringValue)), Some(StringHook))
    else (Err(IllegalArgument(INVALID_KEY_CLASS)), None)
  }
}

=== FILE: mysql_incrementers.dfy ===
/**
 * MySQLMaxValueIncrementer: keys come from a one-row table whose column is advanced by
 * `incrementBy` with `last_insert_id`; the keys in between are served from memory. The
 * database answer to `select last_insert_id()` is a parameter of each request.
 */
module MySQLIncrementers {
  import opened Outcomes
  import opened Strings

  /**
   * The JDBC type of the key column, after JdbcUtils.translateType; `OtherType` is any type the
   * switch of getNextKey has no case for.
   */
  datatype KeyType = BigIntType | IntegerType | NumericType | VarcharType | OtherType

  /**
   * What `select last_insert_id()` answers: a number (for a NUMERIC column, the double already
   * cast to long) or text.
   */
  datatype Fetched = Number(v: int) | Text(s: string)

  datatype KeyError =
      /** InternalErrorException: a VARCHAR key that is not a long. */
    | InternalError(message: string)
      /** ClassCastException: the answer is not of the column's Java type. */
    | ClassCast

  const NOT_CONVERTIBLE: string := "Key value could not be converted to long"

  const CLASS_NAME: string := "com.interface21.jdbc.core.support.MySQLMaxValueIncrementer"

  /** A data source, by identity. */
  datatype DataSource = DataSource(id: nat)

  /**
   * The switch of getNextKey: the new maximum read from the answer. A type without a case
   * leaves the maximum as it was.
   */
  function ReadMax(keyType: KeyType, fetched: Fetched, maxId: int): (r: Result<int, KeyError>)
    ensures keyType == VarcharType && fetched.Text? ==>
      (r.Ok? <==> ParseLong(fetched.s).Some?) &&
      (r.Ok? ==> r.value == ParseLong(fetched.s).value) &&
      (r.Err? ==> r.error == InternalError(NOT_CONVERTIBLE))
    ensures keyType == VarcharType && fetched.Number? ==> r == Err(ClassCast)
    ensures keyType in {BigIntType, IntegerType, NumericType} ==> r == (if fetched.Number? then Ok(fetched.v) else Err(ClassCast))
    ensures keyType == OtherType ==> r == Ok(maxId)
  {
    match keyType
    case VarcharType =>
      if fetched.Number? then Err(ClassCast)
      else
        (match ParseLong(fetched.s)
         case None => Err(InternalError(NOT_CONVERTIBLE))
         case Some(v) => Ok(v))
    case OtherType => Ok(maxId)
    case BigIntType => if fetched.Text? then Err(ClassCast) else Ok(fetched.v)
    case IntegerType => if fetched.Text? then Err(ClassCast) else Ok(fetched.v)
    case NumericType => if fetched.Text? then Err(ClassCast) else Ok(fetched.v)
  }

  /** A VARCHAR key column serves back the long whose decimal text it holds. */
  lemma VarcharKeyRoundTrip(m: int, maxId: int)
    requires IsLong(m)
    ensures ReadMax(VarcharType, Text(IntToString(m)), maxId) == Ok(m)
  {
    ParseLongOfToString(m);
  }

  /** The two counters of the key buffer. */
  datatype Counter = Counter(nextId: int, maxId: int)

  /** The outcome of one getNextKey: the new counters, the key or error, and whether the database was asked. */
  datatype KeyStep = KeyStep(counter: Counter, key: Result<int, KeyError>, fetchedFromDatabase: bool)

  /** getNextKey on the counters: serve the next buffered key, refilling the buffer from the database when it is used up. */
  function NextKey(c: Counter, incrementBy: int, keyType: KeyType, fetched: Fetched): (r: KeyStep)
    ensures r.fetchedFromDatabase <==> c.nextId == c.maxId
    ensures c.nextId != c.maxId ==> r == KeyStep(Counter(c.nextId + 1, c.maxId), Ok(c.nextId + 1), false)
    ensures c.nextId == c.maxId && ReadMax(keyType, fetched, c.maxId).Ok? ==>
      var m := ReadMax(keyType, fetched, c.maxId).value;
      r.counter == Counter(m - incrementBy + 1, m) && r.key == Ok(m - incrementBy + 1)
    ensures r.key.Err? ==> r.counter == c && r.key == Err(ReadMax(keyType, fetched, c.maxId).error)
    ensures r.key.Ok? ==> r.key.value == r.counter.nextId
    ensures incrementBy >= 1 && c.nextId <= c.maxId ==> r.counter.nextId <= r.counter.maxId
  {
    if c.maxId == c.nextId then
      match ReadMax(keyType, fetched, c.maxId)
      case Err(e) => KeyStep(c, Err(e), true)
      case Ok(m) => KeyStep(Counter(m - incrementBy + 1, m), Ok(m - incrementBy + 1), true)
    else KeyStep(Counter(c.nextId + 1, c.maxId), Ok(c.nextId + 1), false)
  }

  /** Successive requests, the i-th given the database answer answers[i] (used only when it refills). */
  datatype Served = Served(keys: seq<Result<int, KeyError>>, counter: Counter, fetches: nat)

  function Serve(c: Counter, incrementBy: int, keyType: KeyType, answers: seq<Fetched>): (r: Served)
    ensures |r.keys| == |answers|
    decreases |answers|
  {
    if answers == [] then Served([], c, 0)
    else
      var step := NextKey(c, incrementBy, keyType, answers[0]);
      var rest := Serve(step.counter, incrementBy, keyType, answers[1..]);
      Served([step.key] + rest.keys, rest.counter, rest.fetches + if step.fetchedFromDatabase then 1 else 0)
  }

  /** While keys are buffered, successive requests get consecutive keys without asking the database. */
  lemma {:induction false} BufferedKeysAreConsecutive(c: Counter, incrementBy: int, keyType: KeyType, answers: seq<Fetched>)
    requires c.nextId + |answers| <= c.maxId
    ensures var s := Serve(c, incrementBy, keyType, answers);
      s.fetches == 0 && s.counter == Counter(c.nextId + |answers|, c.maxId) &&
      forall i :: 0 <= i < |answers| ==> s.keys[i] == Ok(c.nextId + i + 1)
    decreases |answers|
  {
    if answers != [] {
      var step := NextKey(c, incrementBy, keyType, answers[0]);
      BufferedKeysAreConsecutive(step.counter, incrementBy, keyType, answers[1..]);
    }
  }

  /**
   * A refill that reads the maximum m serves exactly m - incrementBy + 1 .. m, one database
   * request for incrementBy keys, so at most incrementBy keys are lost if the buffer is dropped.
   */
  lemma {:induction false} RefillServesBlock(c: Counter, incrementBy: int, keyType: KeyType, answers: seq<Fetched>)
    requires incrementBy >= 1 && |answers| == incrementBy
    requires c.nextId == c.maxId && ReadMax(keyType, answers[0], c.maxId).Ok?
    ensures var m := ReadMax(keyType, answers[0], c.maxId).value;
      var s := Serve(c, incrementBy, keyType, answers);
      s.fetches == 1 && s.counter == Counter(m, m) &&
      forall i :: 0 <= i < incrementBy ==> s.keys[i] == Ok(m - incrementBy + 1 + i)
  {
    var step := NextKey(c, incrementBy, keyType, answers[0]);
    BufferedKeysAreConsecutive(step.counter, incrementBy, keyType, answers[1..]);
  }

  /** The statement initPrepare builds. */
  function UpdateStatement(tableName: Option<string>, columnName: Option<string>, incrementBy: int): string {
    "update " + NullText(tableName) + " set " + NullText(columnName) + " = last_insert_id(" + NullText(columnName) + " + " + IntToString(incrementBy) + ")"
  }

  class MySQLMaxValueIncrementer {
    var dataSource: Option<DataSource>
    var tableName: Option<string>
    var columnName: Option<string>
    var incrementBy: int
    /** Whether the update statement must be rebuilt before the next refill. */
    var dirty: bool
    var prepareSql: Option<string>
    var nextId: int
    var maxId: int
    /** The update statements sent to the database so far. */
    var updates: seq<string>

    ghost predicate Valid()
      reads this
    {
      !dirty ==> prepareSql.Some?
    }

    constructor ()
      ensures Valid()
      ensures dataSource.None? && tableName.None? && columnName.None? && incrementBy == 1
      ensures dirty && prepareSql.None? && nextId == 0 && maxId == 0 && updates == []
    {
      dataSource := None;
      tableName := None;
      columnName := None;
      incrementBy := 1;
      dirty := true;
      prepareSql := None;
      nextId := 0;
      maxId := 0;
      updates := [];
    }

    constructor WithTable(ds: DataSource, tableName: string, columnName: string, incrementBy: int)
      ensures Valid()
      ensures dataSource == Some(ds) && this.tableName == Some(tableName) && this.columnName == Some(columnName)
      ensures this.incrementBy == incrementBy
      ensures dirty && prepareSql.None? && nextId == 0 && maxId == 0 && updates == []
    {
      dataSource := Some(ds);
      this.tableName := Some(tableName);
      this.columnName := Some(columnName);
      this.incrementBy := incrementBy;
      dirty := true;
      prepareSql := None;
      nextId := 0;
      maxId := 0;
      updates := [];
    }

    /** initPrepare: build the update statement from the current settings. */
    method InitPrepare()
      modifies this`prepareSql, this`dirty
      ensures prepareSql == Some(UpdateStatement(tableName, columnName, incrementBy)) && !dirty
    {
      var buf := "update ";
      buf := buf + NullText(tableName);
      buf := buf + " set ";
      buf := buf + NullText(columnName);
      buf := buf + " = last_insert_id(";
      buf := buf + NullText(columnName);
      buf := buf + " + ";
      buf := buf + IntToString(incrementBy);
      buf := buf + ")";
      prepareSql := Some(buf);
      dirty := false;
    }

    /**
     * getNextKey: rebuild the statement if a setting changed; on a used-up buffer send the
     * update and read the new maximum; then serve the next key.
     */
    method GetNextKey(keyType: KeyType, fetched: Fetched) returns (r: Result<int, KeyError>)
      requires Valid()
      modifies this`prepareSql, this`dirty, this`nextId, this`maxId, this`updates
      ensures Valid() && !dirty
      ensures prepareSql == if old(dirty) then Some(UpdateStatement(tableName, columnName, incrementBy)) else old(prepareSql)
      ensures var step := NextKey(Counter(old(nextId), old(maxId)), incrementBy, keyType, fetched);
        Counter(nextId, maxId) == step.counter && r == step.key &&
        updates == old(updates) + if step.fetchedFromDatabase then [prepareSql.value] else []
    {
      if dirty {
        InitPrepare();
      }
      if maxId == nextId {
        updates := updates + [prepareSql.value];
        var read := ReadMax(keyType, fetched, maxId);
        if read.Err? {
          return Err(read.error);
        }
        maxId := read.value;
        nextId := maxId - incrementBy;
      }
      nextId := nextId + 1;
      r := Ok(nextId);
    }

    method SetDataSource(ds: DataSource)
      modifies this`dataSource, this`dirty
      ensures dataSource == Some(ds) && dirty
    {
      dataSource := Some(ds);
      dirty := true;
    }

    method SetTableName(tableName: string)
      modifies this`tableName, this`dirty
      ensures this.tableName == Some(tableName) && dirty
    {
      this.tableName := Some(tableName);
      dirty := true;
    }

    method SetColumnName(columnName: string)
      modifies this`columnName, this`dirty
      ensures this.columnName == Some(columnName) && dirty
    {
      this.columnName := Some(columnName);
      dirty := true;
    }

    method SetIncrementBy(incrementBy: int)
      modifies this`incrementBy, this`dirty
      ensures this.incrementBy == incrementBy && dirty
    {
      this.incrementBy := incrementBy;
      dirty := true;
    }

    /** afterPropertiesSet: the data source, table and column must all be set. */
    function AfterPropertiesSet(): (r: Result<(), string>)
      reads this
      ensures r.Err? <==> dataSource.None? || tableName.None? || columnName.None?
    {
      if dataSource.None? || tableName.None? || columnName.None? then
        Err("dsName, sequenceName properties must be set on " + CLASS_NAME)
      else Ok(())
    }
  }
}

=== FILE: oracle_incrementers.dfy ===
/**
 * OracleSequenceMaxValueIncrementer: every key is the next value of an Oracle sequence,
 * fetched with one query; a string key may be padded on the left with zeros. The value the
 * database returns is a parameter of each request; the class records the queries it sends.
 */
module OracleIncrementers {
  import opened Outcomes
  import opened Strings
  import opened MaxValueIncrementers

  const CLASS_NAME: string := "com.interface21.jdbc.core.support.OracleSequenceMaxValueIncrementer"

  /** A data source, by identity. */
  datatype DataSource = DataSource(id: nat)

  /** The query the provider sends for the next sequence value. */
  function NextValueQuery(sequenceName: Option<string>): (q: string)
    ensures StartsWith(q, "SELECT ")
  {
    "SELECT " + NullText(sequenceName) + ".NEXTVAL FROM DUAL"
  }

  /** `n` zeros. */
  function Zeros(n: nat): (z: string)
    ensures |z| == n && forall i :: 0 <= i < n ==> z[i] == '0'
  {
    if n == 0 then "" else Zeros(n - 1) + "0"
  }

  /**
   * getNextStringValue's padding: with prefixWithZero, a text no longer than paddingLength is
   * brought to exactly paddingLength characters by zeros in front; otherwise it is unchanged.
   */
  function Padded(s: string, prefixWithZero: bool, paddingLength: int): (r: string)
    ensures !prefixWithZero || |s| > paddingLength ==> r == s
    ensures prefixWithZero && |s| <= paddingLength ==>
      |r| == paddingLength && r[paddingLength - |s|..] == s &&
      forall i :: 0 <= i < paddingLength - |s| ==> r[i] == '0'
  {
    if prefixWithZero && |s| < paddingLength + 1 then Zeros(paddingLength - |s|) + s else s
  }

  /** A zero in front does not change the value of a digit string. */
  lemma {:induction false} LeadingZeroValue(s: string)
    requires AllDigits(s)
    ensures AllDigits("0" + s) && DigitsValue("0" + s) == DigitsValue(s)
    decreases |s|
  {
    var t := "0" + s;
    assert forall i :: 0 <= i < |t| ==> t[i] == '0' || t[i] == s[i - 1];
    if s != [] {
      assert t[..|t| - 1] == "0" + s[..|s| - 1];
      assert AllDigits(s[..|s| - 1]) by {
        assert forall i :: 0 <= i < |s| - 1 ==> s[..|s| - 1][i] == s[i];
      }
      LeadingZeroValue(s[..|s| - 1]);
    }
  }

  /** Zeros in front do not change the value of a digit string. */
  lemma {:induction false} LeadingZerosValue(n: nat, s: string)
    requires AllDigits(s)
    ensures AllDigits(Zeros(n) + s) && DigitsValue(Zeros(n) + s) == DigitsValue(s)
    decreases n
  {
    if n > 0 {
      LeadingZeroValue(s);
      LeadingZerosValue(n - 1, "0" + s);
      assert Zeros(n) + s == Zeros(n - 1) + ("0" + s);
    } else {
      assert Zeros(n) + s == s;
    }
  }

  /** A padded key of a non-negative value still reads back, with Long.parseLong, as that value. */
  lemma PaddedKeyParses(value: int, prefixWithZero: bool, paddingLength: int)
    requires 0 <= value <= MAX_INT
    ensures ParseLong(Padded(IntToString(value), prefixWithZero, paddingLength)) == Some(value)
  {
    var s := IntToString(value);
    assert s == NatToString(value);
    NatToStringValue(value);
    var r := Padded(s, prefixWithZero, paddingLength);
    if prefixWithZero && |s| <= paddingLength {
      LeadingZerosValue(paddingLength - |s|, s);
      assert r == Zeros(paddingLength - |s|) + s;
      assert r[0] != '-';
    }
  }

  class OracleSequenceMaxValueIncrementer {
    var dataSource: Option<DataSource>
    var sequenceName: Option<string>
    var prefixWithZero: bool
    var paddingLength: int
    /** The queries sent to the database so far. */
    var queries: seq<string>

    constructor ()
      ensures dataSource.None? && sequenceName.None? && !prefixWithZero && paddingLength == 0 && queries == []
    {
      dataSource := None;
      sequenceName := None;
      prefixWithZero := false;
      paddingLength := 0;
      queries := [];
    }

    constructor WithSequence(ds: DataSource, sequenceName: string)
      ensures dataSource == Some(ds) && this.sequenceName == Some(sequenceName)
      ensures !prefixWithZero && paddingLength == 0 && queries == []
    {
      dataSource := Some(ds);
      this.sequenceName := Some(sequenceName);
      prefixWithZero := false;
      paddingLength := 0;
      queries := [];
    }

    constructor WithPadding(ds: DataSource, sequenceName: string, prefixWithZero: bool, padding: int)
      ensures dataSource == Some(ds) && this.sequenceName == Some(sequenceName)
      ensures this.prefixWithZero == prefixWithZero && paddingLength == padding && queries == []
    {
      dataSource := Some(ds);
      this.sequenceName := Some(sequenceName);
      this.prefixWithZero := prefixWithZero;
      paddingLength := padding;
      queries := [];
    }

    /** incrementIntValue: one query; `sequenceValue` is what the database answers. */
    method IncrementIntValue(sequenceValue: int) returns (r: int)
      modifies this`queries
      ensures r == sequenceValue && queries == old(queries) + [NextValueQuery(sequenceName)]
    {
      queries := queries + [NextValueQuery(sequenceName)];
      r := sequenceValue;
    }

    /** incrementDoubleValue: one query; `sequenceValue` is what the database answers. */
    method IncrementDoubleValue(sequenceValue: JavaDouble) returns (r: JavaDouble)
      modifies this`queries
      ensures r == sequenceValue && queries == old(queries) + [NextValueQuery(sequenceName)]
    {
      queries := queries + [NextValueQuery(sequenceName)];
      r := sequenceValue;
    }

    /**
     * incrementStringValue: the next int value (one query), as decimal text, padded with zeros
     * when prefixWithZero is set.
     */
    method IncrementStringValue(sequenceValue: int) returns (s: string)
      modifies this`queries
      ensures s == Padded(IntToString(sequenceValue), prefixWithZero, paddingLength)
      ensures queries == old(queries) + [NextValueQuery(sequenceName)]
    {
      var v := IncrementIntValue(sequenceValue);
      s := IntToString(v);
      if prefixWithZero {
        var len := |s|;
        if len < paddingLength + 1 {
          var buff := "";
          var i := 0;
          while i < paddingLength - len
            invariant 0 <= i <= paddingLength - len
            invariant buff == Zeros(i)
          {
            buff := buff + "0";
            i := i + 1;
          }
          buff := buff + s;
          s := buff;
        }
      }
    }

    method SetDataSource(ds: DataSource)
      modifies this`dataSource
      ensures dataSource == Some(ds)
    {
      dataSource := Some(ds);
    }

    method SetPrefixWithZero(prefixWithZero: bool, length: int)
      modifies this`prefixWithZero, this`paddingLength
      ensures this.prefixWithZero == prefixWithZero && paddingLength == length
    {
      this.prefixWithZero := prefixWithZero;
      paddingLength := length;
    }

    method SetSequenceName(sequenceName: string)
      modifies this`sequenceName
      ensures this.sequenceName == Some(sequenceName)
    {
      this.sequenceName := Some(sequenceName);
    }

    /** afterPropertiesSet: the data source and the sequence name must both be set. */
    function AfterPropertiesSet(): (r: Result<(), string>)
      reads this
      ensures r.Err? <==> dataSource.None? || sequenceName.None?
      ensures r.Err? ==> r.error == "ds, sequenceName properties must be set on " + CLASS_NAME
    {
      if dataSource.None? || sequenceName.None? then
        Err("ds, sequenceName properties must be set on " + CLASS_NAME)
      else Ok(())
    }
  }
}

=== FILE: outcomes.dfy ===
/** Optional values and results with an error, used for Java's `null` and for exceptions. */
module Outcomes {

  /** `None` stands for a Java `null` reference. */
  datatype Option<+T> = None | Some(value: T)

  /** `Err` stands for an exception thrown by the modelled operation. */
  datatype Result<+T, +E> = Ok(value: T) | Err(error: E)
}

=== FILE: proxy_factory_beans.dfy ===
/**
 * ProxyFactoryBean: a FactoryBean that assembles an interceptor chain from bean names
 * in its owning bean factory and hands out AOP proxies over it.
 *
 * The chain (the list DefaultProxyConfig keeps) is a sequence of entries. Every entry
 * is a method pointcut as getMethodPointcuts sees it: a pointcut bean itself, or an
 * interceptor wrapped so that it always applies. Only a pointcut bean is a key of
 * `sourceMap`, so only such entries are ever refreshed.
 *
 * The owning factory is an oracle whose getBean answer may depend on how many requests
 * this object has made of it so far (`lookups`): a prototype bean answers a new object
 * each time, a singleton the same one.
 */
module ProxyFactoryBeans {
  import opened Outcomes
  import opened Strings
  import opened Beans
  import opened BeanFactorySpec

  /** Bean name prefix identifying a global interceptor or pointcut. */
  const GLOBAL_PREFIX: string := "g_"
  /** The entry of an interceptor-name list that expands to the globals. */
  const GLOBALS: string := "*"

  const NAMES_REQUIRED: string := "Interceptor names are required"
  const TARGET_REQUIRED: string := "Target required after globals"
  const LISTABLE_REQUIRED: string := "Can only use global pointcuts or interceptors with a ListableBeanFactory"

  datatype Entry =
      /** A MethodPointcut bean. */
    | Pointcut(bean: Obj)
      /** An Interceptor bean. */
    | Interceptor(bean: Obj)
      /** A new InvokerInterceptor around a bean that is neither. */
    | Invoker(target: Obj)
      /** A new AlwaysInvoked(new InvokerInterceptor(target)), made when a refresh yields a non-pointcut. */
    | AlwaysInvokedInvoker(target: Obj)

  datatype AopError =
    | AopConfig(message: string)
      /** AspectException: the named class is not an interface. */
    | NotAnInterface(className: string)
    | ClassNotFound(className: string)
    | Beans(cause: BeansError)

  /** getBeanDefinitionNames(MethodPointcut.class) and getBeanDefinitionNames(Interceptor.class). */
  datatype Listing = Listing(pointcutNames: seq<string>, interceptorNames: seq<string>)

  datatype OwningFactory = OwningFactory(
    /** getBean(name) as the n-th request (from 0) this object makes of the factory. */
    getBean: (string, nat) -> Result<Obj, BeansError>,
    /** The bean names by type; None when the factory is not a ListableBeanFactory. */
    listable: Option<Listing>,
    isPointcut: ClassName -> bool,
    isInterceptor: ClassName -> bool)

  /** A proxy returned by getObject; it works on the factory bean's current chain. */
  datatype Proxy = Proxy(id: nat)

  /** The fields the chain operations change. */
  datatype ChainState = ChainState(chain: seq<Entry>, sourceMap: map<Obj, string>, lookups: nat)

  /** The state an operation leaves and the exception it stopped with, if any. */
  datatype Build = Build(st: ChainState, failure: Option<AopError>)

  // ---------------------------------------------------------------------------------------
  // Assembling the chain
  // ---------------------------------------------------------------------------------------

  /** The entry addPointcutOrInterceptor adds for a bean. */
  function Classify(f: OwningFactory, next: Obj): (e: Entry)
    ensures e.Pointcut? <==> f.isPointcut(next.cls)
    ensures e.Interceptor? <==> !f.isPointcut(next.cls) && f.isInterceptor(next.cls)
    ensures e.Invoker? <==> !f.isPointcut(next.cls) && !f.isInterceptor(next.cls)
    ensures e.Pointcut? || e.Interceptor? || e.Invoker?
  {
    if f.isPointcut(next.cls) then Pointcut(next)
    else if f.isInterceptor(next.cls) then Interceptor(next)
    else Invoker(next)
  }

  /** getBean(name), then addPointcutOrInterceptor of the result under that name. */
  function AddNamed(cs: ChainState, f: OwningFactory, name: string): (b: Build)
    ensures b.st.lookups == cs.lookups + 1
    ensures b.failure.None? <==> f.getBean(name, cs.lookups).Ok?
    ensures b.failure.Some? ==> b.st == cs.(lookups := cs.lookups + 1) && b.failure == Some(Beans(f.getBean(name, cs.lookups).error))
    ensures b.failure.None? ==>
      var o := f.getBean(name, cs.lookups).value;
      b.st.chain == cs.chain + [Classify(f, o)] && o in b.st.sourceMap && b.st.sourceMap[o] == name &&
      forall k :: k in cs.sourceMap && k != o ==> k in b.st.sourceMap && b.st.sourceMap[k] == cs.sourceMap[k]
  {
    var next := cs.(lookups := cs.lookups + 1);
    match f.getBean(name, cs.lookups)
    case Err(e) => Build(next, Some(Beans(e)))
    case Ok(o) => Build(next.(chain := next.chain + [Classify(f, o)], sourceMap := next.sourceMap[o := name]), None)
  }

  /** Each name in order, stopping at the first failure. */
  function AddAll(cs: ChainState, f: OwningFactory, names: seq<string>): (b: Build)
    ensures b.failure.Some? ==> b.failure.value.Beans?
    ensures cs.chain <= b.st.chain && cs.lookups <= b.st.lookups
    decreases |names|
  {
    if names == [] then Build(cs, None)
    else
      var b := AddAll(cs, f, names[..|names| - 1]);
      if b.failure.Some? then b else AddNamed(b.st, f, names[|names| - 1])
  }

  /** The names addGlobalInterceptorsAndPointcuts adds: those starting with the global prefix, in order. */
  function GlobalsAmong(names: seq<string>): (r: seq<string>)
    ensures forall n :: n in r <==> n in names && StartsWith(n, GLOBAL_PREFIX)
    ensures GLOBALS !in r
  {
    if names == [] then []
    else
      var init := names[..|names| - 1];
      var last := names[|names| - 1];
      assert names == init + [last];
      if StartsWith(last, GLOBAL_PREFIX) then GlobalsAmong(init) + [last] else GlobalsAmong(init)
  }

  /** The global names of a listable factory: pointcuts first, then interceptors. */
  function GlobalNames(l: Listing): seq<string> {
    GlobalsAmong(l.pointcutNames + l.interceptorNames)
  }

  /** One iteration of createInterceptorChain's loop. */
  function AddEntry(cs: ChainState, f: OwningFactory, name: string): (b: Build)
    ensures name == GLOBALS && f.listable.None? ==> b == Build(cs, Some(AopConfig(LISTABLE_REQUIRED)))
    ensures name != GLOBALS ==> b.st.lookups == cs.lookups + 1 && (b.failure.None? <==> f.getBean(name, cs.lookups).Ok?)
    ensures cs.chain <= b.st.chain && cs.lookups <= b.st.lookups
    ensures b.failure.Some? ==> b.failure.value.Beans? || b.failure.value == AopConfig(LISTABLE_REQUIRED)
  {
    if name == GLOBALS then
      if f.listable.None? then Build(cs, Some(AopConfig(LISTABLE_REQUIRED)))
      else AddAll(cs, f, GlobalNames(f.listable.value))
    else AddNamed(cs, f, name)
  }

  /** The loop of createInterceptorChain over `names`, stopping at the first failure. */
  function Materialize(cs: ChainState, f: OwningFactory, names: seq<string>): (b: Build)
    ensures names == [] ==> b == Build(cs, None)
    // entries are only ever appended, and a failure is a lookup's or the missing listing
    ensures cs.chain <= b.st.chain && cs.lookups <= b.st.lookups
    ensures b.failure.Some? ==> b.failure.value.Beans? || b.failure.value == AopConfig(LISTABLE_REQUIRED)
    ensures b.failure.Some? && b.failure.value == AopConfig(LISTABLE_REQUIRED) ==> GLOBALS in names && f.listable.None?
    decreases |names|
  {
    if names == [] then Build(cs, None)
    else
      var b := Materialize(cs, f, names[..|names| - 1]);
      if b.failure.Some? then b else AddEntry(b.st, f, names[|names| - 1])
  }

  /** createInterceptorChain: names are required and must not end with the globals marker. */
  function CreateChain(cs: ChainState, f: OwningFactory, names: Option<seq<string>>): (b: Build)
    ensures names.None? || names.value == [] ==> b == Build(cs, Some(AopConfig(NAMES_REQUIRED)))
    ensures names.Some? && names.value != [] && names.value[|names.value| - 1] == GLOBALS ==>
      b == Build(cs, Some(AopConfig(TARGET_REQUIRED)))
  {
    if names.None? || names.value == [] then Build(cs, Some(AopConfig(NAMES_REQUIRED)))
    else if names.value[|names.value| - 1] == GLOBALS then Build(cs, Some(AopConfig(TARGET_REQUIRED)))
    else Materialize(cs, f, names.value)
  }

  /** Continue a build with more names unless it already failed. */
  function Then(b: Build, f: OwningFactory, names: seq<string>): Build {
    if b.failure.Some? then b else Materialize(b.st, f, names)
  }

  function ThenAll(b: Build, f: OwningFactory, names: seq<string>): Build {
    if b.failure.Some? then b else AddAll(b.st, f, names)
  }

  // ---------------------------------------------------------------------------------------
  // Refreshing the chain
  // ---------------------------------------------------------------------------------------

  /** The entry that replaces a refreshed pointcut: the new bean, or an invoker around it. */
  function Renewed(f: OwningFactory, bean: Obj): (e: Entry)
    ensures e.Pointcut? <==> f.isPointcut(bean.cls)
    ensures e.Pointcut? || e.AlwaysInvokedInvoker?
  {
    if f.isPointcut(bean.cls) then Pointcut(bean) else AlwaysInvokedInvoker(bean)
  }

  /** `e` is what a refresh puts in place of a pointcut whose source is `name`, from the n-th request. */
  predicate RenewedBy(f: OwningFactory, name: string, n: nat, e: Entry) {
    f.getBean(name, n).Ok? && e == Renewed(f, f.getBean(name, n).value)
  }

  /** A pointcut entry with a recorded source bean name. */
  predicate Sourced(e: Entry, sourceMap: map<Obj, string>) {
    e.Pointcut? && e.bean in sourceMap
  }

  /**
   * refreshInterceptorChain as written, from position k on: every sourced pointcut is
   * replaced by what a new getBean of its name returns, made during this refresh; the
   * source map is left as it was, so the new entry's source is not recorded.
   */
  function RefreshFrom(cs: ChainState, f: OwningFactory, k: nat): (b: Build)
    requires k <= |cs.chain|
    ensures |b.st.chain| == |cs.chain| && b.st.sourceMap == cs.sourceMap && cs.lookups <= b.st.lookups
    ensures b.st.chain[..k] == cs.chain[..k]
    ensures forall i :: k <= i < |cs.chain| && !Sourced(cs.chain[i], cs.sourceMap) ==> b.st.chain[i] == cs.chain[i]
    ensures b.failure.Some? ==> b.failure.value.Beans?
    decreases |cs.chain| - k
  {
    if k == |cs.chain| then Build(cs, None)
    else if Sourced(cs.chain[k], cs.sourceMap) then
      var name := cs.sourceMap[cs.chain[k].bean];
      var next := cs.(lookups := cs.lookups + 1);
      match f.getBean(name, cs.lookups)
      case Err(e) => Build(next, Some(Beans(e)))
      case Ok(bean) => RefreshFrom(next.(chain := next.chain[k := Renewed(f, bean)]), f, k + 1)
    else RefreshFrom(cs, f, k + 1)
  }

  /** The refresh as evidently intended: a pointcut bean obtained by a refresh keeps its source bean name. */
  function RefreshRecordingFrom(cs: ChainState, f: OwningFactory, k: nat): (b: Build)
    requires k <= |cs.chain|
    ensures |b.st.chain| == |cs.chain| && cs.lookups <= b.st.lookups
    ensures forall o :: o in cs.sourceMap ==> o in b.st.sourceMap
    ensures b.st.chain[..k] == cs.chain[..k]
    ensures b.failure.None? ==> forall i :: k <= i < |cs.chain| && Sourced(cs.chain[i], cs.sourceMap) && b.st.chain[i].Pointcut? ==>
      Sourced(b.st.chain[i], b.st.sourceMap)
    decreases |cs.chain| - k
  {
    if k == |cs.chain| then Build(cs, None)
    else if Sourced(cs.chain[k], cs.sourceMap) then
      var name := cs.sourceMap[cs.chain[k].bean];
      var next := cs.(lookups := cs.lookups + 1);
      match f.getBean(name, cs.lookups)
      case Err(e) => Build(next, Some(Beans(e)))
      case Ok(bean) =>
        var sources := if f.isPointcut(bean.cls) then next.sourceMap[bean := name] else next.sourceMap;
        var b := RefreshRecordingFrom(next.(chain := next.chain[k := Renewed(f, bean)], sourceMap := sources), f, k + 1);
        b
    else RefreshRecordingFrom(cs, f, k + 1)
  }

  /** One position of the corrected refresh: skipped, failed, or renewed and recorded. */
  lemma RefreshRecordingStep(cs: ChainState, f: OwningFactory, k: nat)
    requires k < |cs.chain|
    ensures !Sourced(cs.chain[k], cs.sourceMap) ==> RefreshRecordingFrom(cs, f, k) == RefreshRecordingFrom(cs, f, k + 1)
    ensures Sourced(cs.chain[k], cs.sourceMap) ==>
      var name := cs.sourceMap[cs.chain[k].bean];
      var next := cs.(lookups := cs.lookups + 1);
      var got := f.getBean(name, cs.lookups);
      RefreshRecordingFrom(cs, f, k) ==
        if got.Err? then Build(next, Some(Beans(got.error)))
        else
          var sources := if f.isPointcut(got.value.cls) then next.sourceMap[got.value := name] else next.sourceMap;
          RefreshRecordingFrom(next.(chain := next.chain[k := Renewed(f, got.value)], sourceMap := sources), f, k + 1)
  {
  }

  // ---------------------------------------------------------------------------------------
  // The factory bean
  // ---------------------------------------------------------------------------------------

  class ProxyFactoryBean {
    var singleton: bool
    /** The owning bean factory; None until setBeanFactory. */
    var factory: Option<OwningFactory>
    var interceptorNames: Option<seq<string>>
    var chain: seq<Entry>
    /** Pointcut or interceptor bean -> the bean name it was obtained under. */
    var sourceMap: map<Obj, string>
    /** How many getBean requests this object has made of its factory. */
    var lookups: nat
    var singletonInstance: Option<Proxy>
    /** How many proxies have been created; the next proxy's identity. */
    var proxiesCreated: nat
    /** The proxied interfaces, by name. */
    var interfaces: seq<string>

    function Chain(): ChainState
      reads this
    {
      ChainState(chain, sourceMap, lookups)
    }

    /** Sources are only recorded once a factory is set. */
    ghost predicate Valid()
      reads this
    {
      factory.None? ==> sourceMap == map[]
    }

    constructor ()
      ensures Valid()
      ensures singleton && factory.None? && interceptorNames.None? && singletonInstance.None?
      ensures chain == [] && sourceMap == map[] && lookups == 0 && proxiesCreated == 0 && interfaces == []
    {
      singleton := true;
      factory := None;
      interceptorNames := None;
      chain := [];
      sourceMap := map[];
      lookups := 0;
      singletonInstance := None;
      proxiesCreated := 0;
      interfaces := [];
    }

    /**
     * setProxyInterfaces: each name is loaded by `forName` (None: not found, Some(b): b says
     * whether it is an interface); the first failure aborts with the interfaces unchanged.
     */
    method SetProxyInterfaces(interfaceNames: seq<string>, forName: string -> Option<bool>) returns (r: Result<(), AopError>)
      modifies this`interfaces
      ensures r.Ok? <==> forall i :: 0 <= i < |interfaceNames| ==> forName(interfaceNames[i]) == Some(true)
      ensures r.Ok? ==> interfaces == interfaceNames
      ensures r.Err? ==> (
        interfaces == old(interfaces) &&
        exists i :: 0 <= i < |interfaceNames| &&
          (forall j :: 0 <= j < i ==> forName(interfaceNames[j]) == Some(true)) &&
          r.error == if forName(interfaceNames[i]).None? then ClassNotFound(interfaceNames[i]) else NotAnInterface(interfaceNames[i]))
    {
      var i := 0;
      while i < |interfaceNames|
        invariant 0 <= i <= |interfaceNames|
        invariant forall j :: 0 <= j < i ==> forName(interfaceNames[j]) == Some(true)
      {
        var loaded := forName(interfaceNames[i]);
        if loaded.None? {
          return Err(ClassNotFound(interfaceNames[i]));
        }
        if !loaded.value {
          return Err(NotAnInterface(interfaceNames[i]));
        }
        i := i + 1;
      }
      interfaces := interfaceNames;
      r := Ok(());
    }

    /** setInterceptorNames, given the list commaDelimitedListToStringArray makes of the CSV text. */
    method SetInterceptorNames(names: seq<string>)
      modifies this`interceptorNames
      ensures interceptorNames == Some(names)
    {
      interceptorNames := Some(names);
    }

    method SetSingleton(singleton: bool)
      modifies this`singleton
      ensures this.singleton == singleton
    {
      this.singleton := singleton;
    }

    function IsSingleton(): bool
      reads this
    {
      singleton
    }

    /** This factory bean has no pass-through properties. */
    function GetPropertyValues(): (r: Option<PropertyValues>)
      ensures r.None?
    {
      None
    }

    /** addPointcutOrInterceptor: the entry for the bean goes at the end, and the bean's name is recorded. */
    method AddPointcutOrInterceptor(f: OwningFactory, next: Obj, name: string)
      modifies this`chain, this`sourceMap
      ensures chain == old(chain) + [Classify(f, next)]
      ensures sourceMap == old(sourceMap)[next := name]
    {
      var entry: Entry;
      if f.isPointcut(next.cls) {
        entry := Pointcut(next);
      } else if f.isInterceptor(next.cls) {
        entry := Interceptor(next);
      } else {
        entry := Invoker(next);
      }
      chain := chain + [entry];
      sourceMap := sourceMap[next := name];
    }

    /** getBean(name) on the factory, then addPointcutOrInterceptor. */
    method AddBean(f: OwningFactory, name: string) returns (failure: Option<AopError>)
      modifies this`chain, this`sourceMap, this`lookups
      ensures var b := AddNamed(old(Chain()), f, name); Chain() == b.st && failure == b.failure
    {
      var got := f.getBean(name, lookups);
      lookups := lookups + 1;
      if got.Err? {
        return Some(Beans(got.error));
      }
      AddPointcutOrInterceptor(f, got.value, name);
      failure := None;
    }

    /** addGlobalInterceptorsAndPointcuts: the pointcut names, then the interceptor names, each added if global. */
    method AddGlobalInterceptorsAndPointcuts(f: OwningFactory, l: Listing) returns (failure: Option<AopError>)
      modifies this`chain, this`sourceMap, this`lookups
      ensures var b := AddAll(old(Chain()), f, GlobalNames(l)); Chain() == b.st && failure == b.failure
    {
      var names := l.pointcutNames + l.interceptorNames;
      ghost var start := Chain();
      var i := 0;
      while i < |names|
        invariant 0 <= i <= |names|
        invariant AddAll(start, f, GlobalsAmong(names[..i])) == Build(Chain(), None)
      {
        GlobalsStep(start, f, names, i, Chain());
        if StartsWith(names[i], GLOBAL_PREFIX) {
          failure := AddBean(f, names[i]);
          if failure.Some? {
            GlobalsStop(start, f, names, i + 1);
            return;
          }
        }
        i := i + 1;
      }
      assert names[..i] == names;
      failure := None;
    }

    /** createInterceptorChain: validate the names, then add each in order, expanding the globals marker in place. */
    method CreateInterceptorChain(f: OwningFactory) returns (failure: Option<AopError>)
      modifies this`chain, this`sourceMap, this`lookups
      ensures var b := CreateChain(old(Chain()), f, old(interceptorNames)); Chain() == b.st && failure == b.failure
    {
      if interceptorNames.None? || |interceptorNames.value| == 0 {
        return Some(AopConfig(NAMES_REQUIRED));
      }
      var names := interceptorNames.value;
      if names[|names| - 1] == GLOBALS {
        return Some(AopConfig(TARGET_REQUIRED));
      }
      var i := 0;
      while i < |names|
        invariant 0 <= i <= |names|
        invariant Materialize(old(Chain()), f, names[..i]) == Build(Chain(), None)
      {
        assert names[..i + 1][..i] == names[..i];
        if names[i] == GLOBALS {
          if f.listable.None? {
            failure := Some(AopConfig(LISTABLE_REQUIRED));
          } else {
            failure := AddGlobalInterceptorsAndPointcuts(f, f.listable.value);
          }
        } else {
          failure := AddBean(f, names[i]);
        }
        if failure.Some? {
          MaterializeConcat(old(Chain()), f, names[..i + 1], names[i + 1..]);
          assert names[..i + 1] + names[i + 1..] == names;
          return;
        }
        i := i + 1;
      }
      assert names[..i] == names;
      failure := None;
    }

    /**
     * refreshInterceptorChain: every sourced pointcut replaced, in order, by a new getBean of its
     * name; a new pointcut keeps that name as its source, so the next refresh renews it again.
     */
    method RefreshInterceptorChain(f: OwningFactory) returns (failure: Option<AopError>)
      modifies this`chain, this`sourceMap, this`lookups
      ensures var b := RefreshRecordingFrom(old(Chain()), f, 0); Chain() == b.st && failure == b.failure
    {
      var k := 0;
      while k < |chain|
        invariant 0 <= k <= |chain| && |chain| == |old(chain)|
        invariant RefreshRecordingFrom(Chain(), f, k) == RefreshRecordingFrom(old(Chain()), f, 0)
      {
        RefreshRecordingStep(Chain(), f, k);
        if Sourced(chain[k], sourceMap) {
          var beanName := sourceMap[chain[k].bean];
          var got := f.getBean(beanName, lookups);
          lookups := lookups + 1;
          if got.Err? {
            return Some(Beans(got.error));
          }
          var bean := got.value;
          chain := chain[k := Renewed(f, bean)];
          if f.isPointcut(bean.cls) {
            sourceMap := sourceMap[bean := beanName];
          }
        }
        k := k + 1;
      }
      failure := None;
    }

    /** createInstance: refresh the chain, then a new proxy over it. */
    method CreateInstance() returns (r: Result<Proxy, AopError>)
      requires Valid()
      modifies this`chain, this`sourceMap, this`lookups, this`proxiesCreated
      ensures factory.None? ==> r == Ok(Proxy(old(proxiesCreated))) && Chain() == old(Chain())
      ensures factory.Some? ==>
        var b := RefreshRecordingFrom(old(Chain()), factory.value, 0);
        Chain() == b.st && (b.failure.None? <==> r.Ok?) && (b.failure.Some? ==> r == Err(b.failure.value))
      ensures r.Ok? ==> r.value == Proxy(old(proxiesCreated)) && proxiesCreated == old(proxiesCreated) + 1
      ensures r.Err? ==> proxiesCreated == old(proxiesCreated)
    {
      if factory.Some? {
        var failure := RefreshInterceptorChain(factory.value);
        if failure.Some? {
          return Err(failure.value);
        }
      }
      r := Ok(Proxy(proxiesCreated));
      proxiesCreated := proxiesCreated + 1;
    }

    /**
     * setBeanFactory: remember the factory, create the chain, and for a singleton create the
     * proxy at once.
     */
    method SetBeanFactory(f: OwningFactory) returns (r: Result<(), AopError>)
      requires Valid()
      modifies this
      ensures Valid()
      ensures factory == Some(f) && singleton == old(singleton) && interceptorNames == old(interceptorNames)
      ensures var b := CreateChain(old(Chain()), f, old(interceptorNames));
        if b.failure.Some? then
          r == Err(b.failure.value) && Chain() == b.st && singletonInstance == old(singletonInstance)
        else if !singleton then
          r == Ok(()) && Chain() == b.st && singletonInstance == old(singletonInstance)
        else
          var rb := RefreshRecordingFrom(b.st, f, 0);
          Chain() == rb.st &&
          (rb.failure.Some? ==> r == Err(rb.failure.value) && singletonInstance == old(singletonInstance)) &&
          (rb.failure.None? ==> r == Ok(()) && singletonInstance == Some(Proxy(old(proxiesCreated))))
    {
      factory := Some(f);
      var failure := CreateInterceptorChain(f);
      if failure.Some? {
        return Err(failure.value);
      }
      if singleton {
        var instance := CreateInstance();
        if instance.Err? {
          return Err(instance.error);
        }
        singletonInstance := Some(instance.value);
      }
      r := Ok(());
    }

    /** getObject: the singleton proxy (None if none was created), or a new proxy for a prototype. */
    method GetObject() returns (r: Result<Option<Proxy>, AopError>)
      requires Valid()
      modifies this`chain, this`sourceMap, this`lookups, this`proxiesCreated
      ensures singleton ==> r == Ok(singletonInstance) && Chain() == old(Chain()) && proxiesCreated == old(proxiesCreated)
      ensures !singleton && r.Ok? ==> r.value == Some(Proxy(old(proxiesCreated))) && proxiesCreated == old(proxiesCreated) + 1
      ensures !singleton && factory.Some? ==>
        var b := RefreshRecordingFrom(old(Chain()), factory.value, 0);
        Chain() == b.st && (r.Ok? <==> b.failure.None?)
    {
      if singleton {
        return Ok(singletonInstance);
      }
      var instance := CreateInstance();
      if instance.Err? {
        return Err(instance.error);
      }
      r := Ok(Some(instance.value));
    }
  }

  // ---------------------------------------------------------------------------------------
  // Properties of chain assembly
  // ---------------------------------------------------------------------------------------

  /** Splitting the names splits the build: the second part continues from where the first stopped. */
  lemma {:induction false} MaterializeConcat(cs: ChainState, f: OwningFactory, x: seq<string>, y: seq<string>)
    ensures Materialize(cs, f, x + y) == Then(Materialize(cs, f, x), f, y)
    decreases |y|
  {
    if y == [] {
      assert x + y == x;
    } else {
      var n := |y| - 1;
      MaterializeConcat(cs, f, x, y[..n]);
      assert (x + y)[..|x + y| - 1] == x + y[..n];
      assert (x + y)[|x + y| - 1] == y[n];
    }
  }

  lemma {:induction false} AddAllStops(cs: ChainState, f: OwningFactory, x: seq<string>, y: seq<string>)
    ensures AddAll(cs, f, x + y) == ThenAll(AddAll(cs, f, x), f, y)
    decreases |y|
  {
    if y == [] {
      assert x + y == x;
    } else {
      var n := |y| - 1;
      AddAllStops(cs, f, x, y[..n]);
      var xy := x + y;
      assert xy[..|xy| - 1] == x + y[..n];
      assert xy[|xy| - 1] == y[n];
      AddAllLast(cs, f, xy);
      var bx := AddAll(cs, f, x);
      if bx.failure.None? {
        AddAllLast(bx.st, f, y);
      }
    }
  }

  /** AddAll of a non-empty list is AddAll of all but the last name, then that name unless it failed. */
  lemma AddAllLast(cs: ChainState, f: OwningFactory, names: seq<string>)
    requires names != []
    ensures var b := AddAll(cs, f, names[..|names| - 1]);
      AddAll(cs, f, names) == if b.failure.Some? then b else AddNamed(b.st, f, names[|names| - 1])
  {
  }

  lemma {:induction false} GlobalsAmongConcat(x: seq<string>, y: seq<string>)
    ensures GlobalsAmong(x + y) == GlobalsAmong(x) + GlobalsAmong(y)
    decreases |y|
  {
    if y == [] {
      assert x + y == x;
    } else {
      var n := |y| - 1;
      GlobalsAmongConcat(x, y[..n]);
      assert (x + y)[..|x + y| - 1] == x + y[..n];
      assert (x + y)[|x + y| - 1] == y[n];
    }
  }

  /** A failure while adding a prefix of the global names is the failure of adding them all. */
  /** One step of addGlobalInterceptorsAndPointcuts: a global name is added, any other is skipped. */
  lemma GlobalsStep(start: ChainState, f: OwningFactory, names: seq<string>, i: nat, cs: ChainState)
    requires i < |names| && AddAll(start, f, GlobalsAmong(names[..i])) == Build(cs, None)
    ensures StartsWith(names[i], GLOBAL_PREFIX) ==> AddAll(start, f, GlobalsAmong(names[..i + 1])) == AddNamed(cs, f, names[i])
    ensures !StartsWith(names[i], GLOBAL_PREFIX) ==> AddAll(start, f, GlobalsAmong(names[..i + 1])) == Build(cs, None)
  {
    GlobalsAmongConcat(names[..i], [names[i]]);
    assert names[..i] + [names[i]] == names[..i + 1];
    if StartsWith(names[i], GLOBAL_PREFIX) {
      assert GlobalsAmong([names[i]]) == [names[i]];
      AddAllStops(start, f, GlobalsAmong(names[..i]), [names[i]]);
    } else {
      assert GlobalsAmong([names[i]]) == [];
      assert GlobalsAmong(names[..i]) + [] == GlobalsAmong(names[..i]);
    }
  }

  lemma GlobalsStop(cs: ChainState, f: OwningFactory, names: seq<string>, k: nat)
    requires k <= |names|
    requires AddAll(cs, f, GlobalsAmong(names[..k])).failure.Some?
    ensures AddAll(cs, f, GlobalsAmong(names)) == AddAll(cs, f, GlobalsAmong(names[..k]))
  {
    AddAllStops(cs, f, GlobalsAmong(names[..k]), GlobalsAmong(names[k..]));
    GlobalsAmongConcat(names[..k], names[k..]);
    assert names[..k] + names[k..] == names;
  }

  /** Without the globals marker, building the chain is adding each named bean in turn. */
  lemma {:induction false} MaterializeWithoutGlobals(cs: ChainState, f: OwningFactory, names: seq<string>)
    requires GLOBALS !in names
    ensures Materialize(cs, f, names) == AddAll(cs, f, names)
    decreases |names|
  {
    if names != [] {
      var n := |names| - 1;
      assert names[n] in names;
      assert forall s :: s in names[..n] ==> s in names;
      MaterializeWithoutGlobals(cs, f, names[..n]);
    }
  }

  /**
   * The globals marker expands in place: building from a list with "*" is building from the
   * same list with the global pointcut and interceptor names in its position.
   */
  lemma GlobalsExpandInPlace(cs: ChainState, f: OwningFactory, before: seq<string>, after: seq<string>)
    requires f.listable.Some?
    ensures Materialize(cs, f, before + [GLOBALS] + after) == Materialize(cs, f, before + GlobalNames(f.listable.value) + after)
  {
    var g := GlobalNames(f.listable.value);
    MaterializeConcat(cs, f, before + [GLOBALS], after);
    MaterializeConcat(cs, f, before, [GLOBALS]);
    MaterializeConcat(cs, f, before + g, after);
    MaterializeConcat(cs, f, before, g);
    var b := Materialize(cs, f, before);
    if b.failure.None? {
      assert [GLOBALS][..0] == [];
      assert Materialize(b.st, f, [GLOBALS]) == AddAll(b.st, f, g);
      MaterializeWithoutGlobals(b.st, f, g);
    }
  }

  /**
   * `b` appended one entry per name to the chain of `cs`, in the order of the names: the entry
   * the i-th name gives is the classified answer of the i-th request made.
   */
  predicate AddedInOrder(cs: ChainState, f: OwningFactory, names: seq<string>, b: Build) {
    |b.st.chain| == |cs.chain| + |names| && b.st.chain[..|cs.chain|] == cs.chain && b.st.lookups == cs.lookups + |names| &&
    forall i :: 0 <= i < |names| ==>
      f.getBean(names[i], cs.lookups + i).Ok? && b.st.chain[|cs.chain| + i] == Classify(f, f.getBean(names[i], cs.lookups + i).value)
  }

  /** Adding named beans without failure appends one entry per name, in the order of the names. */
  lemma {:induction false} AddAllFollowsNames(cs: ChainState, f: OwningFactory, names: seq<string>)
    requires AddAll(cs, f, names).failure.None?
    ensures AddedInOrder(cs, f, names, AddAll(cs, f, names))
    decreases |names|
  {
    if names != [] {
      AddAllFollowsNames(cs, f, names[..|names| - 1]);
      AddAllStep(cs, f, names);
    }
  }

  /** The inductive step of AddAllFollowsNames: the last name adds the last entry. */
  lemma AddAllStep(cs: ChainState, f: OwningFactory, names: seq<string>)
    requires names != [] && AddAll(cs, f, names).failure.None?
    requires AddAll(cs, f, names[..|names| - 1]).failure.None?
    requires AddedInOrder(cs, f, names[..|names| - 1], AddAll(cs, f, names[..|names| - 1]))
    ensures AddedInOrder(cs, f, names, AddAll(cs, f, names))
  {
    var n := |names| - 1;
    var init := AddAll(cs, f, names[..n]);
    var b := AddAll(cs, f, names);
    assert b == AddNamed(init.st, f, names[n]);
    var r := f.getBean(names[n], init.st.lookups);
    assert r.Ok? && b.st.chain == init.st.chain + [Classify(f, r.value)];
    AppendedInOrder(cs, f, names, init, b);
  }

  /** One more entry, from the request that follows those of `init`, keeps the entries in order. */
  lemma AppendedInOrder(cs: ChainState, f: OwningFactory, names: seq<string>, init: Build, b: Build)
    requires names != []
    requires AddedInOrder(cs, f, names[..|names| - 1], init)
    requires b.st.lookups == init.st.lookups + 1
    requires var r := f.getBean(names[|names| - 1], init.st.lookups);
      r.Ok? && b.st.chain == init.st.chain + [Classify(f, r.value)]
    ensures AddedInOrder(cs, f, names, b)
  {
    var n := |names| - 1;
    assert b.st.chain[..|cs.chain|] == init.st.chain[..|cs.chain|];
    forall i | 0 <= i < |names|
      ensures f.getBean(names[i], cs.lookups + i).Ok? && b.st.chain[|cs.chain| + i] == Classify(f, f.getBean(names[i], cs.lookups + i).value)
    {
      if i < n {
        assert names[..n][i] == names[i];
        assert b.st.chain[|cs.chain| + i] == init.st.chain[|cs.chain| + i];
      }
    }
  }

  /** A chain built without failure from names without the globals marker has one entry per name, in order. */
  lemma ChainFollowsNames(cs: ChainState, f: OwningFactory, names: seq<string>)
    requires GLOBALS !in names
    requires Materialize(cs, f, names).failure.None?
    ensures var b := Materialize(cs, f, names);
      |b.st.chain| == |cs.chain| + |names| && b.st.chain[..|cs.chain|] == cs.chain &&
      forall i :: 0 <= i < |names| ==>
        f.getBean(names[i], cs.lookups + i).Ok? && b.st.chain[|cs.chain| + i] == Classify(f, f.getBean(names[i], cs.lookups + i).value)
  {
    MaterializeWithoutGlobals(cs, f, names);
    AddAllFollowsNames(cs, f, names);
  }

  // ---------------------------------------------------------------------------------------
  // What a refresh puts in place of each sourced pointcut
  // ---------------------------------------------------------------------------------------

  /**
   * As written, a successful refresh replaces every sourced pointcut from k on by what a
   * getBean of its recorded name returned, on a request made during this refresh.
   */
  lemma {:induction false} RefreshFromRenews(cs: ChainState, f: OwningFactory, k: nat)
    requires k <= |cs.chain|
    ensures var b := RefreshFrom(cs, f, k);
      b.failure.None? ==> forall i :: k <= i < |cs.chain| && Sourced(cs.chain[i], cs.sourceMap) ==>
        exists n :: cs.lookups <= n < b.st.lookups && RenewedBy(f, cs.sourceMap[cs.chain[i].bean], n, b.st.chain[i])
    decreases |cs.chain| - k
  {
    if k < |cs.chain| {
      if !Sourced(cs.chain[k], cs.sourceMap) {
        RefreshFromRenews(cs, f, k + 1);
      } else {
        var name := cs.sourceMap[cs.chain[k].bean];
        if f.getBean(name, cs.lookups).Ok? {
          var next := cs.(lookups := cs.lookups + 1, chain := cs.chain[k := Renewed(f, f.getBean(name, cs.lookups).value)]);
          RefreshFromRenews(next, f, k + 1);
          var b := RefreshFrom(next, f, k + 1);
          assert RefreshFrom(cs, f, k) == b;
          assert b.st.chain[k] == next.chain[k] by {
            assert b.st.chain[..k + 1][k] == next.chain[..k + 1][k];
          }
          if b.failure.None? {
            forall i | k <= i < |cs.chain| && Sourced(cs.chain[i], cs.sourceMap)
              ensures exists n :: cs.lookups <= n < b.st.lookups && RenewedBy(f, cs.sourceMap[cs.chain[i].bean], n, b.st.chain[i])
            {
              if i == k {
                assert RenewedBy(f, name, cs.lookups, b.st.chain[k]);
              } else {
                assert next.chain[i] == cs.chain[i];
              }
            }
          }
        }
      }
    }
  }

  /**
   * With the source recorded, a successful refresh likewise replaces every sourced pointcut
   * from k on by what a getBean returned on a request made during this refresh.
   */
  lemma {:induction false} RefreshRecordingRenews(cs: ChainState, f: OwningFactory, k: nat)
    requires k <= |cs.chain|
    ensures var b := RefreshRecordingFrom(cs, f, k);
      b.failure.None? ==> forall i :: k <= i < |cs.chain| && Sourced(cs.chain[i], cs.sourceMap) ==>
        exists n, name :: cs.lookups <= n < b.st.lookups && RenewedBy(f, name, n, b.st.chain[i])
    decreases |cs.chain| - k
  {
    if k < |cs.chain| {
      if !Sourced(cs.chain[k], cs.sourceMap) {
        RefreshRecordingRenews(cs, f, k + 1);
      } else {
        var name := cs.sourceMap[cs.chain[k].bean];
        if f.getBean(name, cs.lookups).Ok? {
          var bean := f.getBean(name, cs.lookups).value;
          var sources := if f.isPointcut(bean.cls) then cs.sourceMap[bean := name] else cs.sourceMap;
          var next := cs.(lookups := cs.lookups + 1, chain := cs.chain[k := Renewed(f, bean)], sourceMap := sources);
          RefreshRecordingRenews(next, f, k + 1);
          var b := RefreshRecordingFrom(next, f, k + 1);
          assert RefreshRecordingFrom(cs, f, k) == b;
          assert b.st.chain[k] == next.chain[k] by {
            assert b.st.chain[..k + 1][k] == next.chain[..k + 1][k];
          }
          if b.failure.None? {
            forall i | k <= i < |cs.chain| && Sourced(cs.chain[i], cs.sourceMap)
              ensures exists n, name' :: cs.lookups <= n < b.st.lookups && RenewedBy(f, name', n, b.st.chain[i])
            {
              if i == k {
                assert RenewedBy(f, name, cs.lookups, b.st.chain[k]);
              } else {
                assert next.chain[i] == cs.chain[i] && Sourced(next.chain[i], next.sourceMap);
              }
            }
          }
        }
      }
    }
  }

  /** No entry of `chain` from position k up to, not including, i is the pointcut `o`. */
  predicate PointcutAbsentBetween(chain: seq<Entry>, k: nat, i: nat, o: Obj)
    requires i <= |chain|
  {
    forall j :: k <= j < i ==> chain[j] != Pointcut(o)
  }

  /**
   * `b`, a refresh of `cs` from k on, renewed every sourced pointcut from k on by a getBean of
   * the name recorded for its object, made during the refresh, unless an earlier entry was
   * already renewed into that same object.
   */
  predicate RenewedUnderRecordedNames(cs: ChainState, f: OwningFactory, k: nat, b: Build)
    requires k <= |cs.chain| == |b.st.chain|
  {
    b.failure.None? ==> forall i :: (k <= i < |cs.chain| && Sourced(cs.chain[i], cs.sourceMap) &&
                                     PointcutAbsentBetween(b.st.chain, k, i, cs.chain[i].bean)) ==>
      exists n :: cs.lookups <= n < b.st.lookups && RenewedBy(f, cs.sourceMap[cs.chain[i].bean], n, b.st.chain[i])
  }

  /**
   * The name the corrected refresh asks for: the one recorded for the entry's object, unless the
   * refresh already renewed an earlier entry into that same object, whose name was then recorded
   * over the old one.
   */
  lemma {:induction false} RefreshRecordingUsesRecordedName(cs: ChainState, f: OwningFactory, k: nat)
    requires k <= |cs.chain|
    ensures RenewedUnderRecordedNames(cs, f, k, RefreshRecordingFrom(cs, f, k))
    decreases |cs.chain| - k
  {
    if k < |cs.chain| {
      if !Sourced(cs.chain[k], cs.sourceMap) {
        RefreshRecordingUsesRecordedName(cs, f, k + 1);
        var b := RefreshRecordingFrom(cs, f, k + 1);
        if b.failure.None? {
          forall i | k <= i < |cs.chain| && Sourced(cs.chain[i], cs.sourceMap) && PointcutAbsentBetween(b.st.chain, k, i, cs.chain[i].bean)
            ensures exists n :: cs.lookups <= n < b.st.lookups && RenewedBy(f, cs.sourceMap[cs.chain[i].bean], n, b.st.chain[i])
          {
            assert i != k;
            assert PointcutAbsentBetween(b.st.chain, k + 1, i, cs.chain[i].bean);
          }
        }
      } else {
        var name := cs.sourceMap[cs.chain[k].bean];
        if f.getBean(name, cs.lookups).Ok? {
          var bean := f.getBean(name, cs.lookups).value;
          var sources := if f.isPointcut(bean.cls) then cs.sourceMap[bean := name] else cs.sourceMap;
          var next := cs.(lookups := cs.lookups + 1, chain := cs.chain[k := Renewed(f, bean)], sourceMap := sources);
          RefreshRecordingUsesRecordedName(next, f, k + 1);
          RecordedNameStep(cs, f, k);
        }
      }
    }
  }

  /** The renewing step of RefreshRecordingUsesRecordedName: what holds from k + 1 on holds from k on. */
  lemma RecordedNameStep(cs: ChainState, f: OwningFactory, k: nat)
    requires k < |cs.chain| && Sourced(cs.chain[k], cs.sourceMap)
    requires f.getBean(cs.sourceMap[cs.chain[k].bean], cs.lookups).Ok?
    requires var name := cs.sourceMap[cs.chain[k].bean];
      var bean := f.getBean(name, cs.lookups).value;
      var sources := if f.isPointcut(bean.cls) then cs.sourceMap[bean := name] else cs.sourceMap;
      var next := cs.(lookups := cs.lookups + 1, chain := cs.chain[k := Renewed(f, bean)], sourceMap := sources);
      RenewedUnderRecordedNames(next, f, k + 1, RefreshRecordingFrom(next, f, k + 1))
    ensures RenewedUnderRecordedNames(cs, f, k, RefreshRecordingFrom(cs, f, k))
  {
    var name := cs.sourceMap[cs.chain[k].bean];
    var bean := f.getBean(name, cs.lookups).value;
    var sources := if f.isPointcut(bean.cls) then cs.sourceMap[bean := name] else cs.sourceMap;
    var next := cs.(lookups := cs.lookups + 1, chain := cs.chain[k := Renewed(f, bean)], sourceMap := sources);
    var b := RefreshRecordingFrom(next, f, k + 1);
    assert RefreshRecordingFrom(cs, f, k) == b;
    assert b.st.chain[k] == next.chain[k] by {
      assert b.st.chain[..k + 1][k] == next.chain[..k + 1][k];
    }
    if b.failure.None? {
      forall i | k <= i < |cs.chain| && Sourced(cs.chain[i], cs.sourceMap) && PointcutAbsentBetween(b.st.chain, k, i, cs.chain[i].bean)
        ensures exists n :: cs.lookups <= n < b.st.lookups && RenewedBy(f, cs.sourceMap[cs.chain[i].bean], n, b.st.chain[i])
      {
        if i == k {
          assert RenewedBy(f, name, cs.lookups, b.st.chain[k]);
        } else {
          var o := cs.chain[i].bean;
          assert next.chain[i] == cs.chain[i] && Sourced(next.chain[i], next.sourceMap);
          assert PointcutAbsentBetween(b.st.chain, k + 1, i, o);
          assert b.st.chain[k] != Pointcut(o);
          assert next.sourceMap[o] == cs.sourceMap[o];
        }
      }
    }
  }

  /**
   * The exception in RefreshRecordingUsesRecordedName: when a getBean made for the first entry returns the
   * object of the second entry, the source of that object is overwritten, and the second entry
   * is then renewed by the first entry's name rather than by its own.
   */
  lemma {:induction false} RenewedObjectTakesOverSource()
    ensures var p0 := Obj(0, "MethodPointcut");
      var p1 := Obj(1, "MethodPointcut");
      var f := OwningFactory((name: string, n: nat) => if name == "a" then Ok(p1) else Ok(Obj(2 + n, "MethodPointcut")),
                             None, (c: ClassName) => true, (c: ClassName) => false);
      var cs := ChainState([Pointcut(p0), Pointcut(p1)], map[p0 := "a", p1 := "b"], 0);
      var b := RefreshRecordingFrom(cs, f, 0);
      b.failure.None? && b.st.chain == [Pointcut(p1), Pointcut(p1)] && b.st.sourceMap[p1] == "a" &&
      !PointcutAbsentBetween(b.st.chain, 0, 1, p1)
  {
    var p0 := Obj(0, "MethodPointcut");
    var p1 := Obj(1, "MethodPointcut");
    var f := OwningFactory((name: string, n: nat) => if name == "a" then Ok(p1) else Ok(Obj(2 + n, "MethodPointcut")),
                           None, (c: ClassName) => true, (c: ClassName) => false);
    var cs := ChainState([Pointcut(p0), Pointcut(p1)], map[p0 := "a", p1 := "b"], 0);
    var sm := map[p0 := "a", p1 := "a"];
    assert map[p0 := "a", p1 := "b"][p1 := "a"] == sm;
    var cs1 := ChainState([Pointcut(p1), Pointcut(p1)], sm, 1);
    assert [Pointcut(p0), Pointcut(p1)][0 := Pointcut(p1)] == cs1.chain;
    assert [Pointcut(p1), Pointcut(p1)][1 := Pointcut(p1)] == cs1.chain;
    var cs2 := ChainState(cs1.chain, sm, 2);
    assert RefreshRecordingFrom(cs2, f, 2) == Build(cs2, None);
    assert RefreshRecordingFrom(cs1, f, 1) == Build(cs2, None);
    assert RefreshRecordingFrom(cs, f, 0) == Build(cs2, None);
  }

  // ---------------------------------------------------------------------------------------
  // The refresh keeps only the first generation of sourced pointcuts
  // ---------------------------------------------------------------------------------------

  /** A prototype pointcut bean: a new MethodPointcut object on every request. */
  function PrototypePointcutFactory(): OwningFactory {
    OwningFactory((name: string, n: nat) => Ok(Obj(n, "MethodPointcut")), None, (c: ClassName) => true, (c: ClassName) => false)
  }

  /**
   * As written, the second refresh of a chain holding a prototype pointcut asks the factory
   * for nothing: the pointcut the first refresh obtained has no recorded source, so the
   * second proxy shares it with the first.
   */
  lemma {:induction false} SecondRefreshKeepsPointcut()
    ensures var f := PrototypePointcutFactory();
      var cs := ChainState([Pointcut(Obj(0, "MethodPointcut"))], map[Obj(0, "MethodPointcut") := "pc"], 1);
      var first := RefreshFrom(cs, f, 0);
      var second := RefreshFrom(first.st, f, 0);
      first.st.chain == [Pointcut(Obj(1, "MethodPointcut"))] &&
      second.st.chain == first.st.chain && second.st.lookups == first.st.lookups
  {
    var f := PrototypePointcutFactory();
    var p0 := Obj(0, "MethodPointcut");
    var p1 := Obj(1, "MethodPointcut");
    var cs := ChainState([Pointcut(p0)], map[p0 := "pc"], 1);
    var cs1 := ChainState([Pointcut(p0)][0 := Pointcut(p1)], map[p0 := "pc"], 2);
    assert [Pointcut(p0)][0 := Pointcut(p1)] == [Pointcut(p1)];
    assert RefreshFrom(cs1, f, 1) == Build(cs1, None);
    assert RefreshFrom(cs, f, 0) == Build(cs1, None);
    assert !Sourced(cs1.chain[0], cs1.sourceMap);
  }

  /**
   * As written, for every chain: an entry that the first refresh renewed into one with no
   * recorded source is left as it is by the second refresh.
   */
  lemma {:induction false} SecondRefreshKeepsRenewed(cs: ChainState, f: OwningFactory)
    ensures var first := RefreshFrom(cs, f, 0);
      var second := RefreshFrom(first.st, f, 0);
      forall i :: 0 <= i < |cs.chain| && !Sourced(first.st.chain[i], cs.sourceMap) ==> second.st.chain[i] == first.st.chain[i]
  {
    var first := RefreshFrom(cs, f, 0);
    assert first.st.sourceMap == cs.sourceMap;
  }

  /**
   * With the source recorded, for every chain: a sourced pointcut that the first refresh
   * renewed into a pointcut is renewed again by the second, from a request the first did not
   * make, and for the name recorded for the renewed object unless the second refresh already
   * renewed an earlier entry into that object.
   */
  lemma {:induction false} SecondRecordingRefreshRenews(cs: ChainState, f: OwningFactory)
    ensures var first := RefreshRecordingFrom(cs, f, 0);
      var second := RefreshRecordingFrom(first.st, f, 0);
      first.failure.None? && second.failure.None? ==>
        forall i :: 0 <= i < |cs.chain| && Sourced(cs.chain[i], cs.sourceMap) && first.st.chain[i].Pointcut? ==>
          exists n, name :: first.st.lookups <= n < second.st.lookups && RenewedBy(f, name, n, second.st.chain[i])
    ensures var first := RefreshRecordingFrom(cs, f, 0);
      var second := RefreshRecordingFrom(first.st, f, 0);
      first.failure.None? && second.failure.None? ==>
        forall i :: (0 <= i < |cs.chain| && Sourced(cs.chain[i], cs.sourceMap) && first.st.chain[i].Pointcut? &&
                     PointcutAbsentBetween(second.st.chain, 0, i, first.st.chain[i].bean)) ==>
          first.st.chain[i].bean in first.st.sourceMap &&
          exists n :: first.st.lookups <= n < second.st.lookups &&
            RenewedBy(f, first.st.sourceMap[first.st.chain[i].bean], n, second.st.chain[i])
  {
    var first := RefreshRecordingFrom(cs, f, 0);
    RefreshRecordingRenews(first.st, f, 0);
    RefreshRecordingUsesRecordedName(first.st, f, 0);
  }

  /** The recorded refresh of a prototype pointcut, twice: a new pointcut each time. */
  lemma {:induction false} SecondRecordingRefreshRenewsPrototype()
    ensures var f := PrototypePointcutFactory();
      var cs := ChainState([Pointcut(Obj(0, "MethodPointcut"))], map[Obj(0, "MethodPointcut") := "pc"], 1);
      var first := RefreshRecordingFrom(cs, f, 0);
      var second := RefreshRecordingFrom(first.st, f, 0);
      first.st.chain == [Pointcut(Obj(1, "MethodPointcut"))] && second.st.chain == [Pointcut(Obj(2, "MethodPointcut"))]
  {
    var f := PrototypePointcutFactory();
    var p0 := Obj(0, "MethodPointcut");
    var p1 := Obj(1, "MethodPointcut");
    var p2 := Obj(2, "MethodPointcut");
    var cs := ChainState([Pointcut(p0)], map[p0 := "pc"], 1);
    var cs1 := ChainState([Pointcut(p1)], map[p0 := "pc"][p1 := "pc"], 2);
    var cs2 := ChainState([Pointcut(p2)], map[p0 := "pc"][p1 := "pc"][p2 := "pc"], 3);
    assert [Pointcut(p0)][0 := Pointcut(p1)] == [Pointcut(p1)];
    assert [Pointcut(p1)][0 := Pointcut(p2)] == [Pointcut(p2)];
    assert RefreshRecordingFrom(cs1.(chain := [Pointcut(p1)]), f, 1) == Build(cs1, None);
    assert RefreshRecordingFrom(cs, f, 0) == Build(cs1, None);
    assert RefreshRecordingFrom(cs2, f, 1) == Build(cs2, None);
    assert RefreshRecordingFrom(cs1, f, 0) == Build(cs2, None);
  }
}

=== FILE: strings.dfy ===
/**
 * The small part of java.lang.String, java.util.StringTokenizer, Integer.toString and
 * Long.parseLong that the modelled classes rely on, over `string == seq<char>`.
 */
module Strings {
  import opened Outcomes

  const MIN_LONG: int := -0x8000_0000_0000_0000
  const MAX_LONG: int := 0x7FFF_FFFF_FFFF_FFFF
  const MIN_INT: int := -0x8000_0000
  const MAX_INT: int := 0x7FFF_FFFF

  /** A Java `long`. */
  predicate IsLong(i: int) { MIN_LONG <= i <= MAX_LONG }

  /** A Java `int`. */
  predicate IsInt(i: int) { MIN_INT <= i <= MAX_INT }

  /** A possibly null string as string concatenation and StringBuffer.append print it. */
  function NullText(s: Option<string>): string {
    if s.None? then "null" else s.value
  }

  /** String.startsWith */
  predicate StartsWith(s: string, prefix: string) {
    |prefix| <= |s| && s[..|prefix|] == prefix
  }

  /** String.indexOf(c): the first position of `c`, or -1. */
  function IndexOf(s: string, c: char): (r: int)
    ensures -1 <= r < |s|
    ensures r == -1 <==> c !in s
    ensures r >= 0 ==> s[r] == c && c !in s[..r]
  {
    if s == [] then -1
    else if s[0] == c then 0
    else
      var k := IndexOf(s[1..], c);
      if k == -1 then -1
      else
        assert s[..k + 1] == [s[0]] + s[1..][..k];
        k + 1
  }

  // ---------------------------------------------------------------------------------------
  // java.util.StringTokenizer(s, delim): the maximal non-empty runs of non-delimiters
  // ---------------------------------------------------------------------------------------

  /** The tokens of `s`, in order; empty tokens between adjacent delimiters are skipped. */
  function Tokens(s: string, delim: char): (r: seq<string>)
    ensures forall k :: 0 <= k < |r| ==> r[k] != [] && delim !in r[k]
    decreases |s|
  {
    if s == [] then []
    else if s[0] == delim then Tokens(s[1..], delim)
    else
      var n := RunLength(s, delim);
      [s[..n]] + Tokens(s[n..], delim)
  }

  /** Length of the run of non-delimiters at the start of `s`. */
  function RunLength(s: string, delim: char): (n: nat)
    ensures n <= |s|
    ensures delim !in s[..n]
    ensures n < |s| ==> s[n] == delim
    ensures s != [] && s[0] != delim ==> n > 0
  {
    if s == [] || s[0] == delim then 0
    else
      var m := RunLength(s[1..], delim);
      assert s[..m + 1] == [s[0]] + s[1..][..m];
      m + 1
  }

  lemma {:induction false} TokensOfJoined(t: string, rest: string, delim: char)
    requires t != [] && delim !in t
    ensures Tokens(t + [delim] + rest, delim) == [t] + Tokens(rest, delim)
  {
    var s := t + [delim] + rest;
    RunLengthOf(t, [delim] + rest, delim);
    assert s[..|t|] == t;
    assert s[|t|..] == [delim] + rest;
    assert ([delim] + rest)[1..] == rest;
  }

  lemma {:induction false} RunLengthOf(t: string, rest: string, delim: char)
    requires delim !in t
    requires rest != [] && rest[0] == delim
    ensures RunLength(t + rest, delim) == |t|
  {
    if t != [] {
      assert (t + rest)[1..] == t[1..] + rest;
      RunLengthOf(t[1..], rest, delim);
    }
  }

  // ---------------------------------------------------------------------------------------
  // Integer.toString / Long.toString and Long.parseLong
  // ---------------------------------------------------------------------------------------

  predicate IsDigit(c: char) { '0' <= c <= '9' }

  predicate AllDigits(s: string) { forall k :: 0 <= k < |s| ==> IsDigit(s[k]) }

  function DigitChar(d: nat): (c: char)
    requires d < 10
    ensures IsDigit(c)
  {
    ('0' as int + d) as char
  }

  function DigitValue(c: char): (d: nat)
    requires IsDigit(c)
    ensures d < 10 && DigitChar(d) == c
  {
    c as int - '0' as int
  }

  /** The decimal digits of `n`, most significant first, without leading zeros. */
  function NatToString(n: nat): (s: string)
    ensures s != [] && AllDigits(s)
    ensures n >= 10 ==> s[0] != '0'
    decreases n
  {
    if n < 10 then [DigitChar(n)] else NatToString(n / 10) + [DigitChar(n % 10)]
  }

  /** Integer.toString(i) and Long.toString(i): an optional '-' followed by the digits. */
  function IntToString(i: int): (s: string)
    ensures s != []
    ensures i < 0 <==> s[0] == '-'
    ensures i < 0 ==> s == "-" + NatToString(-i)
    ensures i >= 0 ==> s == NatToString(i)
  {
    if i < 0 then "-" + NatToString(-i) else NatToString(i)
  }

  /** The value of a string of decimal digits. */
  function DigitsValue(s: string): nat
    requires AllDigits(s)
  {
    if s == [] then 0 else DigitsValue(s[..|s| - 1]) * 10 + DigitValue(s[|s| - 1])
  }

  /** Long.parseLong(s): an optional '-' then one or more digits, within the range of a long. */
  function ParseLong(s: string): (r: Option<int>)
    ensures r.Some? ==> IsLong(r.value)
  {
    if s == [] then None
    else if s[0] == '-' then
      var digits := s[1..];
      if digits != [] && AllDigits(digits) && DigitsValue(digits) <= -MIN_LONG then Some(0 - DigitsValue(digits) as int) else None
    else if AllDigits(s) && DigitsValue(s) <= MAX_LONG then Some(DigitsValue(s))
    else None
  }

  lemma {:induction false} NatToStringValue(n: nat)
    ensures DigitsValue(NatToString(n)) == n
    decreases n
  {
    var s := NatToString(n);
    if n >= 10 {
      NatToStringValue(n / 10);
      assert s[..|s| - 1] == NatToString(n / 10);
    }
  }

  /** Long.parseLong(Long.toString(i)) == i for every long `i`. */
  lemma ParseLongOfToString(i: int)
    requires IsLong(i)
    ensures ParseLong(IntToString(i)) == Some(i)
  {
    var s := IntToString(i);
    if i < 0 {
      assert s[1..] == NatToString(-i);
      NatToStringValue(-i);
    } else {
      NatToStringValue(i);
    }
  }
}

=== FILE: transaction_support.dfy ===
/**
 * AbstractPlatformTransactionManager: the propagation decisions of getTransaction and the
 * dispatch of commit and rollback to the hooks a concrete transaction manager supplies.
 * The hooks are oracles; the manager records every hook call in a trace.
 */
module TransactionSupport {
  import opened Outcomes

  /** A transaction object returned by doGetTransaction. */
  datatype Tx = Tx(id: nat)

  datatype Propagation = Required | Mandatory | OtherPropagation

  datatype TxError =
      /** CannotCreateTransactionException: transaction support is not available. */
    | CannotCreateTransaction
      /** NoTransactionException, taken to be a TransactionException of another kind. */
    | NoTransaction(message: string)
      /** Any other TransactionException a hook raises. */
    | OtherTransactionError(code: nat)

  /** TransactionStatus: the transaction object (None: null) and whether it was begun here. */
  datatype TransactionStatus = TransactionStatus(transaction: Option<Tx>, newTransaction: bool, rollbackOnly: bool)

  /** The status of execution without a transaction. */
  const EMPTY_STATUS: TransactionStatus := TransactionStatus(None, false, false)

  const MANDATORY_MESSAGE: string := "Transaction propagation mandatory but no existing transaction context"

  /**
   * The hooks of a concrete transaction manager; a hook without a result answers None on success.
   * Each hook is given the hook calls made before it, so a concrete manager's answers may depend
   * on what it was asked earlier: a doGetTransaction after a doBegin may see the begun transaction.
   */
  datatype Hooks = Hooks(
    doGetTransaction: seq<HookCall> -> Result<Option<Tx>, TxError>,
    isExistingTransaction: (seq<HookCall>, Option<Tx>) -> Result<bool, TxError>,
    doBegin: (seq<HookCall>, Option<Tx>, int) -> Option<TxError>,
    doCommit: (seq<HookCall>, TransactionStatus) -> Option<TxError>,
    doRollback: (seq<HookCall>, TransactionStatus) -> Option<TxError>,
    doSetRollbackOnly: (seq<HookCall>, TransactionStatus) -> Option<TxError>)

  datatype HookCall =
    | GetTransactionCall
    | IsExistingCall(transaction: Option<Tx>)
    | BeginCall(transaction: Option<Tx>, isolationLevel: int)
    | CommitCall(status: TransactionStatus)
    | RollbackCall(status: TransactionStatus)
    | SetRollbackOnlyCall(status: TransactionStatus)

  /** What an operation returns and the hook calls it makes, in order. */
  datatype Outcome<T> = Outcome(result: Result<T, TxError>, calls: seq<HookCall>)

  /** The catch clauses of getTransaction: without a transaction only if allowed and support is unavailable. */
  function Caught(allowNonTransactional: bool, e: TxError): (r: Result<TransactionStatus, TxError>)
    ensures r.Ok? <==> allowNonTransactional && e.CannotCreateTransaction?
    ensures r.Ok? ==> r.value == EMPTY_STATUS
    ensures r.Err? ==> r.error == e
  {
    if e.CannotCreateTransaction? && allowNonTransactional then Ok(EMPTY_STATUS) else Err(e)
  }

  function IsBegin(c: HookCall): bool {
    c.BeginCall?
  }

  /** getTransaction(propagationBehavior, isolationLevel), after the hook calls in `history`. */
  function GetTransactionOutcome(hooks: Hooks, history: seq<HookCall>, allowNonTransactional: bool,
                                 propagation: Propagation, isolationLevel: int): (r: Outcome<TransactionStatus>)
    ensures 1 <= |r.calls| <= 3 && r.calls[0] == GetTransactionCall
    // an existing transaction is joined and nothing is begun
    ensures var got := hooks.doGetTransaction(history);
      got.Ok? && hooks.isExistingTransaction(history + [GetTransactionCall], got.value) == Ok(true) ==>
      r.result == Ok(TransactionStatus(got.value, false, false)) && |r.calls| == 2
    // a transaction is begun only for REQUIRED, once, with the requested isolation level
    ensures var got := hooks.doGetTransaction(history);
      forall i :: 0 <= i < |r.calls| && IsBegin(r.calls[i]) ==>
        i == 2 && propagation == Required && got.Ok? && r.calls[i] == BeginCall(got.value, isolationLevel)
    // only a begun transaction is new
    ensures var got := hooks.doGetTransaction(history);
      r.result.Ok? && r.result.value.newTransaction ==>
      |r.calls| == 3 && got.Ok? && r.result.value == TransactionStatus(got.value, true, false)
    ensures r.result.Ok? ==> !r.result.value.rollbackOnly
    // a missing transaction with MANDATORY propagation
    ensures var got := hooks.doGetTransaction(history);
      got.Ok? && hooks.isExistingTransaction(history + [GetTransactionCall], got.value) == Ok(false) && propagation == Mandatory ==>
      r == Outcome(Err(NoTransaction(MANDATORY_MESSAGE)), [GetTransactionCall, IsExistingCall(got.value)])
    // any other propagation without an existing transaction runs without one
    ensures var got := hooks.doGetTransaction(history);
      got.Ok? && hooks.isExistingTransaction(history + [GetTransactionCall], got.value) == Ok(false) && propagation == OtherPropagation ==>
      r.result == Ok(EMPTY_STATUS)
    // support that is unavailable is fatal unless non-transactional execution is allowed
    ensures r.result.Err? && r.result.error.CannotCreateTransaction? ==> !allowNonTransactional
    // REQUIRED without an existing transaction begins one with the requested isolation level
    ensures var got := hooks.doGetTransaction(history);
      got.Ok? && hooks.isExistingTransaction(history + [GetTransactionCall], got.value) == Ok(false) && propagation == Required ==>
      var tx := got.value;
      var began := hooks.doBegin(history + [GetTransactionCall, IsExistingCall(tx)], tx, isolationLevel);
      r.calls == [GetTransactionCall, IsExistingCall(tx), BeginCall(tx, isolationLevel)] &&
      r.result == (if began.None? then Ok(TransactionStatus(tx, true, false)) else Caught(allowNonTransactional, began.value))
    // a failing hook goes through the catch clauses
    ensures var got := hooks.doGetTransaction(history);
      got.Err? ==> r == Outcome(Caught(allowNonTransactional, got.error), [GetTransactionCall])
    ensures var got := hooks.doGetTransaction(history);
      got.Ok? && hooks.isExistingTransaction(history + [GetTransactionCall], got.value).Err? ==>
      r == Outcome(Caught(allowNonTransactional, hooks.isExistingTransaction(history + [GetTransactionCall], got.value).error),
                   [GetTransactionCall, IsExistingCall(got.value)])
  {
    match hooks.doGetTransaction(history)
    case Err(e) => Outcome(Caught(allowNonTransactional, e), [GetTransactionCall])
    case Ok(tx) =>
      var calls := [GetTransactionCall, IsExistingCall(tx)];
      match hooks.isExistingTransaction(history + [GetTransactionCall], tx)
      case Err(e) => Outcome(Caught(allowNonTransactional, e), calls)
      case Ok(existing) =>
        if existing then Outcome(Ok(TransactionStatus(tx, false, false)), calls)
        else if propagation == Mandatory then Outcome(Err(NoTransaction(MANDATORY_MESSAGE)), calls)
        else if propagation == Required then
          var began := hooks.doBegin(history + calls, tx, isolationLevel);
          var result := if began.Some? then Caught(allowNonTransactional, began.value) else Ok(TransactionStatus(tx, true, false));
          Outcome(result, calls + [BeginCall(tx, isolationLevel)])
        else Outcome(Ok(EMPTY_STATUS), calls)
  }

  /** The hook's failure, if any, as the operation's result. */
  function Raised(failure: Option<TxError>): (r: Result<(), TxError>)
    ensures r.Ok? <==> failure.None?
    ensures r.Err? ==> r.error == failure.value
  {
    if failure.Some? then Err(failure.value) else Ok(())
  }

  /** rollback(status). */
  function RollbackOutcome(hooks: Hooks, history: seq<HookCall>, status: TransactionStatus): (r: Outcome<()>)
    ensures |r.calls| <= 1
    ensures status.newTransaction ==> r.calls == [RollbackCall(status)]
    ensures !status.newTransaction && status.transaction.Some? ==> r.calls == [SetRollbackOnlyCall(status)]
    ensures !status.newTransaction && status.transaction.None? ==> r == Outcome(Ok(()), [])
    ensures r.result.Err? ==> |r.calls| == 1
    // the hook's failure is the result
    ensures status.newTransaction ==> r.result == Raised(hooks.doRollback(history, status))
    ensures !status.newTransaction && status.transaction.Some? ==> r.result == Raised(hooks.doSetRollbackOnly(history, status))
  {
    if status.newTransaction then Outcome(Raised(hooks.doRollback(history, status)), [RollbackCall(status)])
    else if status.transaction.Some? then Outcome(Raised(hooks.doSetRollbackOnly(history, status)), [SetRollbackOnlyCall(status)])
    else Outcome(Ok(()), [])
  }

  /** commit(status). */
  function CommitOutcome(hooks: Hooks, history: seq<HookCall>, status: TransactionStatus): (r: Outcome<()>)
    ensures |r.calls| <= 1
    ensures status.rollbackOnly ==> r == RollbackOutcome(hooks, history, status)
    ensures !status.rollbackOnly && status.newTransaction ==> r.calls == [CommitCall(status)]
    ensures !status.rollbackOnly && !status.newTransaction ==> r == Outcome(Ok(()), [])
    ensures forall i :: 0 <= i < |r.calls| && r.calls[i].CommitCall? ==> !status.rollbackOnly
    ensures !status.rollbackOnly && status.newTransaction ==> r.result == Raised(hooks.doCommit(history, status))
  {
    if status.rollbackOnly then RollbackOutcome(hooks, history, status)
    else if status.newTransaction then Outcome(Raised(hooks.doCommit(history, status)), [CommitCall(status)])
    else Outcome(Ok(()), [])
  }

  /**
   * A transaction joined by getTransaction is never committed or rolled back by this manager:
   * commit does nothing, and rollback only marks it rollback-only.
   */
  lemma {:induction false} JoinedTransactionIsLeftToItsOwner(hooks: Hooks, history: seq<HookCall>, allowNonTransactional: bool,
                                                             propagation: Propagation, isolationLevel: int)
    requires hooks.doGetTransaction(history).Ok?
    requires hooks.isExistingTransaction(history + [GetTransactionCall], hooks.doGetTransaction(history).value) == Ok(true)
    ensures var got := GetTransactionOutcome(hooks, history, allowNonTransactional, propagation, isolationLevel);
      var status := got.result.value;
      var after := history + got.calls;
      CommitOutcome(hooks, after, status).calls == [] &&
      RollbackOutcome(hooks, after, status).calls == (if status.transaction.Some? then [SetRollbackOnlyCall(status)] else [])
  {
  }

  /**
   * Once REQUIRED has begun a transaction, a second REQUIRED getTransaction joins it whenever the
   * manager then reports the transaction as existing: nothing is begun again and the status is not new.
   */
  lemma {:induction false} RequiredTwiceJoins(hooks: Hooks, history: seq<HookCall>, allowNonTransactional: bool, isolationLevel: int)
    requires var first := GetTransactionOutcome(hooks, history, allowNonTransactional, Required, isolationLevel);
      first.result.Ok? && first.result.value.newTransaction
    requires var first := GetTransactionOutcome(hooks, history, allowNonTransactional, Required, isolationLevel);
      var after := history + first.calls;
      hooks.doGetTransaction(after) == Ok(first.result.value.transaction) &&
      hooks.isExistingTransaction(after + [GetTransactionCall], first.result.value.transaction) == Ok(true)
    ensures var first := GetTransactionOutcome(hooks, history, allowNonTransactional, Required, isolationLevel);
      var second := GetTransactionOutcome(hooks, history + first.calls, allowNonTransactional, Required, isolationLevel);
      second.result == Ok(TransactionStatus(first.result.value.transaction, false, false)) &&
      second.calls == [GetTransactionCall, IsExistingCall(first.result.value.transaction)] &&
      |first.calls| == 3 && IsBegin(first.calls[2])
  {
  }

  class PlatformTransactionManager {
    const hooks: Hooks
    var allowNonTransactionalExecution: bool
    /** Every hook call made so far, in order. */
    var trace: seq<HookCall>

    constructor (hooks: Hooks)
      ensures this.hooks == hooks && !allowNonTransactionalExecution && trace == []
    {
      this.hooks := hooks;
      allowNonTransactionalExecution := false;
      trace := [];
    }

    method SetAllowNonTransactionalExecution(allow: bool)
      modifies this`allowNonTransactionalExecution
      ensures allowNonTransactionalExecution == allow
    {
      allowNonTransactionalExecution := allow;
    }

    method GetTransaction(propagation: Propagation, isolationLevel: int) returns (r: Result<TransactionStatus, TxError>)
      modifies this`trace
      ensures var o := GetTransactionOutcome(hooks, old(trace), allowNonTransactionalExecution, propagation, isolationLevel);
        r == o.result && trace == old(trace) + o.calls
    {
      var got := hooks.doGetTransaction(trace);
      trace := trace + [GetTransactionCall];
      if got.Err? {
        return Caught(allowNonTransactionalExecution, got.error);
      }
      var tx := got.value;
      var existing := hooks.isExistingTransaction(trace, tx);
      trace := trace + [IsExistingCall(tx)];
      if existing.Err? {
        return Caught(allowNonTransactionalExecution, existing.error);
      }
      if existing.value {
        return Ok(TransactionStatus(tx, false, false));
      }
      if propagation == Mandatory {
        return Err(NoTransaction(MANDATORY_MESSAGE));
      }
      if propagation == Required {
        assert trace == old(trace) + [GetTransactionCall, IsExistingCall(tx)];
        var began := hooks.doBegin(trace, tx, isolationLevel);
        trace := trace + [BeginCall(tx, isolationLevel)];
        if began.Some? {
          return Caught(allowNonTransactionalExecution, began.value);
        }
        return Ok(TransactionStatus(tx, true, false));
      }
      r := Ok(EMPTY_STATUS);
    }

    method Commit(status: TransactionStatus) returns (r: Result<(), TxError>)
      modifies this`trace
      ensures var o := CommitOutcome(hooks, old(trace), status); r == o.result && trace == old(trace) + o.calls
    {
      if status.rollbackOnly {
        r := Rollback(status);
      } else if status.newTransaction {
        r := Raised(hooks.doCommit(trace, status));
        trace := trace + [CommitCall(status)];
      } else {
        r := Ok(());
      }
    }

    method Rollback(status: TransactionStatus) returns (r: Result<(), TxError>)
      modifies this`trace
      ensures var o := RollbackOutcome(hooks, old(trace), status); r == o.result && trace == old(trace) + o.calls
    {
      if status.newTransaction {
        r := Raised(hooks.doRollback(trace, status));
        trace := trace + [RollbackCall(status)];
      } else if status.transaction.Some? {
        r := Raised(hooks.doSetRollbackOnly(trace, status));
        trace := trace + [SetRollbackOnlyCall(status)];
      } else {
        r := Ok(());
      }
    }
  }
}

=== FILE: validation.dfy ===
/**
 * BindException: the errors collected while binding request parameters to a target
 * object, with queries for global (object) errors and for the errors of one field.
 * Field names are qualified by the current nested path.
 */
module Validation {
  import opened Outcomes
  import opened Strings
  import opened Beans

  /** Key prefix under which the errors object appears in a model. */
  const ERROR_KEY_PREFIX: string := "com.interface21.web.bind.BIND_EXCEPTION."

  datatype ObjectError =
      /** An error of the object as a whole. */
    | ObjectError(objectName: string, code: Option<string>, message: string)
      /** An error of one field (a subclass of ObjectError), with the value that was rejected. */
    | FieldError(objectName: string, field: string, rejectedValue: Value, code: Option<string>, message: string)

  /** The errors that are not field errors, in list order. */
  function Globals(errs: seq<ObjectError>): (r: seq<ObjectError>)
    ensures forall e :: e in r <==> e in errs && !e.FieldError?
    ensures |r| <= |errs|
  {
    if errs == [] then []
    else (if errs[0].FieldError? then [] else [errs[0]]) + Globals(errs[1..])
  }

  /** The first error that is not a field error (getGlobalError's loop). */
  function FirstGlobal(errs: seq<ObjectError>): (r: Option<ObjectError>)
    ensures r == if Globals(errs) == [] then None else Some(Globals(errs)[0])
    ensures r.None? <==> forall i :: 0 <= i < |errs| ==> errs[i].FieldError?
    ensures r.Some? ==>
      exists i :: 0 <= i < |errs| && errs[i] == r.value && !r.value.FieldError? &&
        forall j :: 0 <= j < i ==> errs[j].FieldError?
  {
    if errs == [] then None
    else if !errs[0].FieldError? then Some(errs[0])
    else
      var r := FirstGlobal(errs[1..]);
      assert forall i :: 1 <= i < |errs| ==> errs[i] == errs[1..][i - 1];
      if r.Some? then
        var i :| 0 <= i < |errs[1..]| && errs[1..][i] == r.value && !r.value.FieldError? &&
          forall j :: 0 <= j < i ==> errs[1..][j].FieldError?;
        assert errs[i + 1] == r.value;
        r
      else r
  }

  /** The field errors of the (qualified) field `field`, in list order. */
  function FieldErrorsNamed(errs: seq<ObjectError>, field: string): (r: seq<ObjectError>)
    ensures forall e :: e in r <==> e in errs && e.FieldError? && e.field == field
    ensures |r| <= |errs|
  {
    if errs == [] then []
    else (if errs[0].FieldError? && errs[0].field == field then [errs[0]] else []) + FieldErrorsNamed(errs[1..], field)
  }

  /** The first field error of the (qualified) field `field` (getFieldError's loop). */
  function FirstFieldError(errs: seq<ObjectError>, field: string): (r: Option<ObjectError>)
    ensures r == if FieldErrorsNamed(errs, field) == [] then None else Some(FieldErrorsNamed(errs, field)[0])
    ensures r.Some? ==>
      exists i :: 0 <= i < |errs| && errs[i] == r.value && r.value.FieldError? && r.value.field == field &&
        forall j :: 0 <= j < i ==> !(errs[j].FieldError? && errs[j].field == field)
  {
    if errs == [] then None
    else if errs[0].FieldError? && errs[0].field == field then Some(errs[0])
    else
      var r := FirstFieldError(errs[1..], field);
      assert forall i :: 1 <= i < |errs| ==> errs[i] == errs[1..][i - 1];
      if r.Some? then
        var i :| 0 <= i < |errs[1..]| && errs[1..][i] == r.value && r.value.FieldError? && r.value.field == field &&
          forall j :: 0 <= j < i ==> !(errs[1..][j].FieldError? && errs[1..][j].field == field);
        assert errs[i + 1] == r.value;
        r
      else r
  }

  /** Appending an error extends the global errors by it exactly when it is not a field error. */
  lemma {:induction false} GlobalsAppend(errs: seq<ObjectError>, e: ObjectError)
    ensures Globals(errs + [e]) == Globals(errs) + if e.FieldError? then [] else [e]
  {
    if errs == [] {
      assert errs + [e] == [e];
      assert [e][1..] == [];
    } else {
      assert (errs + [e])[1..] == errs[1..] + [e];
      GlobalsAppend(errs[1..], e);
    }
  }

  /** Appending an error extends the errors of a field by it exactly when it is an error of that field. */
  lemma {:induction false} FieldErrorsAppend(errs: seq<ObjectError>, e: ObjectError, field: string)
    ensures FieldErrorsNamed(errs + [e], field) == FieldErrorsNamed(errs, field) + if e.FieldError? && e.field == field then [e] else []
  {
    if errs == [] {
      assert errs + [e] == [e];
      assert [e][1..] == [];
    } else {
      assert (errs + [e])[1..] == errs[1..] + [e];
      FieldErrorsAppend(errs[1..], e, field);
    }
  }

  /** What getMessage appends for the errors: "; " and the error's text, for each error in order. */
  function Details(errs: seq<ObjectError>, describe: ObjectError -> string): string {
    if errs == [] then "" else "; " + describe(errs[0]) + Details(errs[1..], describe)
  }

  lemma {:induction false} DetailsAppend(errs: seq<ObjectError>, e: ObjectError, describe: ObjectError -> string)
    ensures Details(errs + [e], describe) == Details(errs, describe) + "; " + describe(e)
  {
    if errs == [] {
      assert errs + [e] == [e];
      assert [e][1..] == [];
    } else {
      assert (errs + [e])[1..] == errs[1..] + [e];
      DetailsAppend(errs[1..], e, describe);
    }
  }

  /** setNestedPath's normalisation: null becomes empty, a non-empty path gets a trailing ".". */
  function NormalizedPath(nestedPath: Option<string>): (r: string)
    ensures nestedPath.None? || nestedPath.value == "" ==> r == ""
    ensures nestedPath.Some? && nestedPath.value != "" ==>
      |r| == |nestedPath.value| + 1 && r[..|r| - 1] == nestedPath.value && r[|r| - 1] == '.'
  {
    var p := if nestedPath.None? then "" else nestedPath.value;
    if |p| > 0 then p + "." else p
  }

  /**
   * getPropertyValueOrRejectedUpdate as written: the nested path is put in front of the field
   * twice, once here and once more by getFieldError.
   */
  function PropertyValueOrRejectedUpdateAsWritten(errs: seq<ObjectError>, nestedPath: string, propertyOf: string -> Value, field: string): (r: Value)
    // the errors are looked up under the path applied twice, the bean's value under the path applied once
    ensures var named := FieldErrorsNamed(errs, nestedPath + (nestedPath + field));
      r == if named == [] then propertyOf(nestedPath + field) else named[0].rejectedValue
  {
    var fixed := nestedPath + field;
    match FirstFieldError(errs, nestedPath + fixed)
    case None => propertyOf(fixed)
    case Some(fe) => fe.rejectedValue
  }

  /** The rejected value of the field's first error, else the bean's current value of the property. */
  function PropertyValueOrRejectedUpdate(errs: seq<ObjectError>, nestedPath: string, propertyOf: string -> Value, field: string): (r: Value)
    ensures var named := FieldErrorsNamed(errs, nestedPath + field);
      r == if named == [] then propertyOf(nestedPath + field) else named[0].rejectedValue
  {
    var fixed := nestedPath + field;
    match FirstFieldError(errs, fixed)
    case None => propertyOf(fixed)
    case Some(fe) => fe.rejectedValue
  }

  /** Without a nested path the method as written behaves as intended. */
  lemma AsWrittenAgreesAtTopLevel(errs: seq<ObjectError>, propertyOf: string -> Value, field: string)
    ensures PropertyValueOrRejectedUpdateAsWritten(errs, "", propertyOf, field) == PropertyValueOrRejectedUpdate(errs, "", propertyOf, field)
  {
    assert "" + field == field;
    assert "" + ("" + field) == field;
  }

  /**
   * Under the nested path "spouse." a rejected "age" is recorded as "spouse.age", but the method
   * as written looks for "spouse.spouse.age" and answers the bean's value instead of the rejected one.
   */
  lemma {:induction false} AsWrittenMissesNestedRejection()
    ensures var errs := [FieldError("person", "spouse.age", Text("x"), Some("typeMismatch"), "not a number")];
      var propertyOf := (s: string) => Null;
      PropertyValueOrRejectedUpdateAsWritten(errs, "spouse.", propertyOf, "age") == Null &&
      PropertyValueOrRejectedUpdate(errs, "spouse.", propertyOf, "age") == Text("x")
  {
    var e := FieldError("person", "spouse.age", Text("x"), Some("typeMismatch"), "not a number");
    assert "spouse." + "age" == "spouse.age";
    assert "spouse." + "spouse.age" != "spouse.age" by {
      assert |"spouse." + "spouse.age"| != |"spouse.age"|;
    }
    assert [e][1..] == [];
  }

  /** What getModel maps a key to: this errors object, or the target. */
  datatype ModelEntry = ErrorsEntry | TargetEntry(target: Obj)

  class BindException {
    /** The errors in the order they were added. */
    var errors: seq<ObjectError>
    /** The bean wrapper's target. */
    const target: Obj
    /** The bean wrapper's getPropertyValue on the target. */
    const propertyOf: string -> Value
    const objectName: string
    var nestedPath: string

    constructor (target: Obj, name: string, propertyOf: string -> Value)
      ensures errors == [] && nestedPath == ""
      ensures this.target == target && objectName == name && this.propertyOf == propertyOf
    {
      errors := [];
      this.target := target;
      this.propertyOf := propertyOf;
      objectName := name;
      nestedPath := "";
    }

    /** The field name qualified by the nested path. */
    function FixedField(field: string): (r: string)
      reads this
      ensures |r| == |nestedPath| + |field| && r[..|nestedPath|] == nestedPath && r[|nestedPath|..] == field
    {
      nestedPath + field
    }

    method AddFieldError(fe: ObjectError)
      requires fe.FieldError?
      modifies this`errors
      ensures errors == old(errors) + [fe]
      ensures FieldErrorsNamed(errors, fe.field) == FieldErrorsNamed(old(errors), fe.field) + [fe]
    {
      FieldErrorsAppend(errors, fe, fe.field);
      errors := errors + [fe];
    }

    /** reject(resolvedMessage): a global error with no code. */
    method Reject(resolvedMessage: string)
      modifies this`errors
      ensures errors == old(errors) + [ObjectError(objectName, None, resolvedMessage)]
      ensures Globals(errors) == Globals(old(errors)) + [ObjectError(objectName, None, resolvedMessage)]
    {
      GlobalsAppend(errors, ObjectError(objectName, None, resolvedMessage));
      errors := errors + [ObjectError(objectName, None, resolvedMessage)];
    }

    /** reject(errorCode, defaultMessage) */
    method RejectWithCode(errorCode: string, defaultMessage: string)
      modifies this`errors
      ensures errors == old(errors) + [ObjectError(objectName, Some(errorCode), defaultMessage)]
      ensures Globals(errors) == Globals(old(errors)) + [ObjectError(objectName, Some(errorCode), defaultMessage)]
    {
      GlobalsAppend(errors, ObjectError(objectName, Some(errorCode), defaultMessage));
      errors := errors + [ObjectError(objectName, Some(errorCode), defaultMessage)];
    }

    /** rejectValue: a field error for the qualified field, holding the property's current value. */
    method RejectValue(field: string, errorCode: string, defaultMessage: string)
      modifies this`errors
      ensures var fe := FieldError(objectName, nestedPath + field, propertyOf(nestedPath + field), Some(errorCode), defaultMessage);
        errors == old(errors) + [fe] &&
        FieldErrorsNamed(errors, nestedPath + field) == FieldErrorsNamed(old(errors), nestedPath + field) + [fe] &&
        Globals(errors) == Globals(old(errors))
    {
      var fixed := FixedField(field);
      var fe := FieldError(objectName, fixed, propertyOf(fixed), Some(errorCode), defaultMessage);
      FieldErrorsAppend(errors, fe, fixed);
      GlobalsAppend(errors, fe);
      assert Globals(errors) + [] == Globals(errors);
      errors := errors + [fe];
    }

    method SetNestedPath(path: Option<string>)
      modifies this`nestedPath
      ensures nestedPath == NormalizedPath(path)
    {
      var p := if path.None? then "" else path.value;
      if |p| > 0 {
        p := p + ".";
      }
      nestedPath := p;
    }

    function HasErrors(): (r: bool)
      reads this
      ensures r <==> GetErrorCount() > 0
    {
      errors != []
    }

    function GetErrorCount(): (r: nat)
      reads this
      ensures r == 0 <==> errors == []
      ensures |Globals(errors)| <= r
    {
      |errors|
    }

    function GetGlobalErrors(): (r: seq<ObjectError>)
      reads this
      ensures forall e :: e in r <==> e in errors && !e.FieldError?
      ensures |r| <= |errors|
    {
      Globals(errors)
    }

    function GetGlobalError(): (r: Option<ObjectError>)
      reads this
      ensures r.None? <==> !HasGlobalErrors()
      ensures r.Some? ==>
        exists i :: 0 <= i < |errors| && errors[i] == r.value && !r.value.FieldError? &&
          forall j :: 0 <= j < i ==> errors[j].FieldError?
    {
      FirstGlobal(errors)
    }

    function HasGlobalErrors(): (r: bool)
      reads this
      ensures r <==> exists i :: 0 <= i < |errors| && !errors[i].FieldError?
    {
      var g := Globals(errors);
      assert |g| > 0 ==> g[0] in g;
      assert (exists i :: 0 <= i < |errors| && !errors[i].FieldError?) ==> |g| > 0 by {
        if exists i :: 0 <= i < |errors| && !errors[i].FieldError? {
          var i :| 0 <= i < |errors| && !errors[i].FieldError?;
          assert errors[i] in g;
        }
      }
      |g| > 0
    }

    function GetFieldErrors(field: string): (r: seq<ObjectError>)
      reads this
      ensures forall e :: e in r <==> e in errors && e.FieldError? && e.field == nestedPath + field
      ensures |r| <= |errors|
    {
      FieldErrorsNamed(errors, nestedPath + field)
    }

    function GetFieldError(field: string): (r: Option<ObjectError>)
      reads this
      ensures r.None? <==> !HasFieldErrors(field)
      ensures r.Some? ==>
        exists i :: 0 <= i < |errors| && errors[i] == r.value &&
          r.value.FieldError? && r.value.field == nestedPath + field &&
          forall j :: 0 <= j < i ==> !(errors[j].FieldError? && errors[j].field == nestedPath + field)
    {
      FirstFieldError(errors, nestedPath + field)
    }

    function HasFieldErrors(field: string): (r: bool)
      reads this
      ensures r <==> exists i :: 0 <= i < |errors| && errors[i].FieldError? && errors[i].field == nestedPath + field
    {
      var named := FieldErrorsNamed(errors, nestedPath + field);
      assert |named| > 0 ==> named[0] in named;
      assert (exists i :: 0 <= i < |errors| && errors[i].FieldError? && errors[i].field == nestedPath + field) ==> |named| > 0 by {
        if exists i :: 0 <= i < |errors| && errors[i].FieldError? && errors[i].field == nestedPath + field {
          var i :| 0 <= i < |errors| && errors[i].FieldError? && errors[i].field == nestedPath + field;
          assert errors[i] in named;
        }
      }
      |named| > 0
    }

    /** getPropertyValueOrRejectedUpdate, as evidently intended (the path applied once). */
    function GetPropertyValueOrRejectedUpdate(field: string): (r: Value)
      reads this
      ensures HasFieldErrors(field) ==> GetFieldError(field).Some? && r == GetFieldError(field).value.rejectedValue
      ensures !HasFieldErrors(field) ==> r == propertyOf(nestedPath + field)
    {
      PropertyValueOrRejectedUpdate(errors, nestedPath, propertyOf, field)
    }

    /** getModel: the errors object under the prefixed object name, the target under the object name. */
    function GetModel(): (m: map<string, ModelEntry>)
      reads this
      ensures |m| == 2
      ensures ERROR_KEY_PREFIX + objectName in m && m[ERROR_KEY_PREFIX + objectName] == ErrorsEntry
      ensures objectName in m && m[objectName] == TargetEntry(target)
    {
      assert |ERROR_KEY_PREFIX + objectName| != |objectName|;
      map[ERROR_KEY_PREFIX + objectName := ErrorsEntry, objectName := TargetEntry(target)]
    }

    /** getMessage, given the text of each error (ObjectError.toString). */
    function GetMessage(describe: ObjectError -> string): (r: string)
      reads this
      ensures var head := "BindException: " + IntToString(GetErrorCount()) + " errors";
        |head| <= |r| && r[..|head|] == head && r[|head|..] == Details(errors, describe)
    {
      "BindException: " + IntToString(|errors|) + " errors" + Details(errors, describe)
    }
  }
}

=== FILE: views.dfy ===
/**
 * AbstractView: static attributes (set one by one, from CSV text or from properties), the
 * merge of static and dynamic attributes at render time, the one-shot application context
 * and the content type.
 */
module Views {
  import opened Outcomes
  import opened Strings
  import opened Beans

  const DEFAULT_CONTENT_TYPE: string := "text/html; charset=ISO-8859-1"

  datatype ViewError =
      /** IllegalArgumentException from setAttributesCSV: a token without "=". */
    | IllegalArgument(message: string)
      /** StringIndexOutOfBoundsException from trimming a value shorter than two characters. */
    | StringIndexOutOfBounds
      /** The RuntimeException of a second setApplicationContext; holds the view's name. */
    | InitializedTwice(viewName: Option<string>)
      /** ApplicationContextException: the context is not a WebApplicationContext. */
    | NotWebContext(context: Context)

  /** An application context; `isWeb` says whether it is a WebApplicationContext. */
  datatype Context = Context(id: nat, isWeb: bool)

  function MissingEquals(s: string): string {
    "Expected = in View string '" + s + "'"
  }

  /**
   * One token of setAttributesCSV: the name before the first "=", the value after it with its
   * first and last characters deleted.
   */
  function ParseAttribute(tok: string, s: string): (r: Result<(string, string), ViewError>)
    ensures r.Err? <==> '=' !in tok || |tok| - IndexOf(tok, '=') - 1 < 2
    ensures '=' !in tok ==> r == Err(IllegalArgument(MissingEquals(s)))
    ensures r.Ok? ==> ('=' !in r.value.0 &&
      exists open, close :: tok == r.value.0 + "=" + [open] + r.value.1 + [close])
  {
    var eq := IndexOf(tok, '=');
    if eq == -1 then Err(IllegalArgument(MissingEquals(s)))
    else
      var name := tok[..eq];
      var val := tok[eq + 1..];
      if |val| < 2 then Err(StringIndexOutOfBounds)
      else
        var inner := val[1..|val| - 1];
        assert tok == name + "=" + [val[0]] + inner + [val[|val| - 1]];
        Ok((name, inner))
  }

  /** Every token is a well-formed attribute. */
  predicate AllParse(tokens: seq<string>, s: string) {
    forall j :: 0 <= j < |tokens| ==> ParseAttribute(tokens[j], s).Ok?
  }

  /** The loop of setAttributesCSV over `tokens`: each is added in turn until one fails. */
  function AddTokens(attrs: map<string, Value>, tokens: seq<string>, s: string): (r: (map<string, Value>, Option<ViewError>))
    ensures attrs.Keys <= r.0.Keys
    ensures r.1.None? <==> AllParse(tokens, s)
    ensures r.1.Some? ==> r.1.value == IllegalArgument(MissingEquals(s)) || r.1.value == StringIndexOutOfBounds
    ensures r.1.None? ==> forall j :: 0 <= j < |tokens| ==> ParseAttribute(tokens[j], s).value.0 in r.0
    decreases |tokens|
  {
    if tokens == [] then (attrs, None)
    else
      assert forall j :: 1 <= j < |tokens| ==> tokens[j] == tokens[1..][j - 1];
      match ParseAttribute(tokens[0], s)
      case Err(e) => (attrs, Some(e))
      case Ok(nv) => AddTokens(attrs[nv.0 := Text(nv.1)], tokens[1..], s)
  }

  /** setAttributesCSV(s): the new static attributes and the exception, if any. */
  function AttributesFromCSV(attrs: map<string, Value>, s: string): (r: (map<string, Value>, Option<ViewError>))
    ensures attrs.Keys <= r.0.Keys
    ensures r.1.None? <==> AllParse(Tokens(s, ','), s)
    ensures r.1.Some? ==> r.1.value == IllegalArgument(MissingEquals(s)) || r.1.value == StringIndexOutOfBounds
    ensures r.1.None? ==> forall j :: 0 <= j < |Tokens(s, ',')| ==> ParseAttribute(Tokens(s, ',')[j], s).value.0 in r.0
  {
    AddTokens(attrs, Tokens(s, ','), s)
  }

  /** A well-formed "name={value}" token parses to its name and value. */
  lemma ParseWellFormed(name: string, value: string, s: string)
    requires '=' !in name
    ensures ParseAttribute(name + "={" + value + "}", s) == Ok((name, value))
  {
    var tok := name + "={" + value + "}";
    var rest := "={" + value + "}";
    assert tok == name + rest;
    IndexOfPrefix(name, rest, '=');
    assert tok[..|name|] == name;
    var val := tok[|name| + 1..];
    assert val == "{" + value + "}";
    assert val[1..|val| - 1] == value;
  }

  /** The first position of `c` in `a + b` when `a` lacks it and `b` starts with it. */
  lemma {:induction false} IndexOfPrefix(a: string, b: string, c: char)
    requires c !in a && b != [] && b[0] == c
    ensures IndexOf(a + b, c) == |a|
  {
    if a != [] {
      assert (a + b)[1..] == a[1..] + b;
      IndexOfPrefix(a[1..], b, c);
    }
  }

  /**
   * A well-formed attribute at the head of the CSV text is added, and the rest of the text is
   * read as if it stood alone.
   */
  lemma CSVHead(attrs: map<string, Value>, name: string, value: string, rest: string, s: string)
    requires '=' !in name && ',' !in name && ',' !in value
    ensures AddTokens(attrs, Tokens(name + "={" + value + "}" + "," + rest, ','), s) ==
            AddTokens(attrs[name := Text(value)], Tokens(rest, ','), s)
  {
    var tok := name + "={" + value + "}";
    assert forall k :: 0 <= k < |tok| ==> tok[k] in name || tok[k] in value || tok[k] in "={}";
    assert ',' !in tok;
    TokensOfJoined(tok, rest, ',');
    assert tok + "," + rest == tok + [','] + rest;
    ParseWellFormed(name, value, s);
  }

  /** A CSV failure keeps the attributes added by the tokens before the failing one. */
  lemma {:induction false} CSVFailureKeepsEarlierTokens(attrs: map<string, Value>, tokens: seq<string>, s: string, k: nat)
    requires k < |tokens| && ParseAttribute(tokens[k], s).Err?
    requires forall j :: 0 <= j < k ==> ParseAttribute(tokens[j], s).Ok?
    ensures AddTokens(attrs, tokens, s).1 == Some(ParseAttribute(tokens[k], s).error)
    ensures forall j :: 0 <= j < k ==> ParseAttribute(tokens[j], s).value.0 in AddTokens(attrs, tokens, s).0
    decreases k
  {
    if k > 0 {
      var nv := ParseAttribute(tokens[0], s).value;
      var next := attrs[nv.0 := Text(nv.1)];
      assert forall j :: 1 <= j < k ==> tokens[1..][j - 1] == tokens[j];
      CSVFailureKeepsEarlierTokens(next, tokens[1..], s, k - 1);
      var r := AddTokens(next, tokens[1..], s);
      assert AddTokens(attrs, tokens, s) == r;
      forall j | 0 <= j < k
        ensures ParseAttribute(tokens[j], s).value.0 in r.0
      {
        if j > 0 {
          assert tokens[j] == tokens[1..][j - 1];
        }
      }
    }
  }

  /** The properties with the given names, as text attributes. */
  function AsAttributes(props: map<string, string>, names: set<string>): (m: map<string, Value>)
    requires names <= props.Keys
    ensures m.Keys == names && forall k :: k in names ==> m[k] == Text(props[k])
  {
    map k | k in names :: Text(props[k])
  }

  /** Taking one more key out of `remaining` adds its property with one map update. */
  lemma AsAttributesStep(base: map<string, Value>, props: map<string, string>, remaining: set<string>, k: string)
    requires remaining <= props.Keys && k in remaining
    ensures base + AsAttributes(props, props.Keys - (remaining - {k})) ==
            (base + AsAttributes(props, props.Keys - remaining))[k := Text(props[k])]
  {
    assert props.Keys - (remaining - {k}) == (props.Keys - remaining) + {k};
  }

  class View {
    var staticAttributes: map<string, Value>
    var webApplicationContext: Option<Context>
    var contentType: string
    var name: Option<string>
    /** How many times onSetContext has run. */
    var contextInitializations: nat

    constructor ()
      ensures staticAttributes == map[] && webApplicationContext.None? && name.None?
      ensures contentType == DEFAULT_CONTENT_TYPE && contextInitializations == 0
    {
      staticAttributes := map[];
      webApplicationContext := None;
      contentType := DEFAULT_CONTENT_TYPE;
      name := None;
      contextInitializations := 0;
    }

    /** addStaticAttribute(name, o): a later value for the same name replaces the earlier one. */
    method AddStaticAttribute(name: string, o: Value)
      modifies this`staticAttributes
      ensures staticAttributes == old(staticAttributes)[name := o]
    {
      staticAttributes := staticAttributes[name := o];
    }

    /** setAttributesCSV(s): "name={value}" tokens separated by commas. */
    method SetAttributesCSV(s: string) returns (failure: Option<ViewError>)
      modifies this`staticAttributes
      ensures (staticAttributes, failure) == AttributesFromCSV(old(staticAttributes), s)
    {
      var tokens := Tokens(s, ',');
      var i := 0;
      while i < |tokens|
        invariant 0 <= i <= |tokens|
        invariant AddTokens(staticAttributes, tokens[i..], s) == AttributesFromCSV(old(staticAttributes), s)
      {
        var tok := tokens[i];
        var eq := IndexOf(tok, '=');
        if eq == -1 {
          assert ParseAttribute(tokens[i..][0], s).Err?;
          return Some(IllegalArgument(MissingEquals(s)));
        }
        var attrName := tok[..eq];
        var val := tok[eq + 1..];
        if |val| < 2 {
          assert ParseAttribute(tokens[i..][0], s) == Err(StringIndexOutOfBounds);
          return Some(StringIndexOutOfBounds);
        }
        var trimmed := val[1..];
        trimmed := trimmed[..|trimmed| - 1];
        assert trimmed == val[1..|val| - 1];
        assert ParseAttribute(tokens[i..][0], s) == Ok((attrName, trimmed));
        assert tokens[i..][1..] == tokens[i + 1..];
        AddStaticAttribute(attrName, Text(trimmed));
        i := i + 1;
      }
      failure := None;
    }

    /** setAttributes(p): every property becomes a static attribute; null changes nothing. */
    method SetAttributes(p: Option<map<string, string>>)
      modifies this`staticAttributes
      ensures p.None? ==> staticAttributes == old(staticAttributes)
      ensures p.Some? ==> staticAttributes == old(staticAttributes) + AsAttributes(p.value, p.value.Keys)
    {
      if p.None? {
        return;
      }
      var props := p.value;
      ghost var base := staticAttributes;
      var remaining := props.Keys;
      while remaining != {}
        invariant remaining <= props.Keys
        invariant staticAttributes == base + AsAttributes(props, props.Keys - remaining)
        decreases |remaining|
      {
        var k :| k in remaining;
        AsAttributesStep(base, props, remaining, k);
        AddStaticAttribute(k, Text(props[k]));
        remaining := remaining - {k};
      }
      assert props.Keys - remaining == props.Keys;
    }

    method SetContentType(contentType: string)
      modifies this`contentType
      ensures this.contentType == contentType
    {
      this.contentType := contentType;
    }

    method SetName(name: string)
      modifies this`name
      ensures this.name == Some(name)
    {
      this.name := Some(name);
    }

    /**
     * setApplicationContext: only once, and only with a web application context; on success
     * the context is stored and onSetContext runs.
     */
    method SetApplicationContext(ctx: Context) returns (r: Result<(), ViewError>)
      modifies this`webApplicationContext, this`contextInitializations
      ensures old(webApplicationContext).Some? ==> r == Err(InitializedTwice(name)) && webApplicationContext == old(webApplicationContext)
      ensures old(webApplicationContext).None? && !ctx.isWeb ==> r == Err(NotWebContext(ctx)) && webApplicationContext.None?
      ensures r.Ok? <==> old(webApplicationContext).None? && ctx.isWeb
      ensures r.Ok? ==> webApplicationContext == Some(ctx) && contextInitializations == old(contextInitializations) + 1
      ensures r.Err? ==> contextInitializations == old(contextInitializations)
    {
      if webApplicationContext.Some? {
        return Err(InitializedTwice(name));
      }
      if !ctx.isWeb {
        return Err(NotWebContext(ctx));
      }
      webApplicationContext := Some(ctx);
      contextInitializations := contextInitializations + 1;
      r := Ok(());
    }

    /**
     * The model render passes on: the static attributes overlaid with the dynamic model, so a
     * dynamic value wins; the static attributes themselves are unchanged.
     */
    method Render(model: map<string, Value>) returns (merged: map<string, Value>)
      ensures merged.Keys == staticAttributes.Keys + model.Keys
      ensures forall k :: k in model ==> merged[k] == model[k]
      ensures forall k :: k in staticAttributes && k !in model ==> merged[k] == staticAttributes[k]
    {
      merged := staticAttributes;
      merged := merged + model;
    }
  }
}
